=== FILE: README.md ===
# Aura editor — a Dafny model of its core logic

Aura is a writing editor with an AI companion. The browser side (React, TipTap) streams an inline critique of the text being written. It anchors each comment to the quoted passage and lists comments in a sidebar. It also shows a calendar, a settings dialog and a "memory bank" page. The server side (FastAPI, SQLAlchemy) stores articles, comments, memories and user settings. A background scanner asks the model what it learnt about the user from recently edited articles and upserts memories from the answer.

This project models, as pure functions over immutable records and sequences:

- **the inline-comment pipeline**:
  - parsing the `>> QUOTE:` / `>> COMMENT:` answer (`AiResponse`);
  - the comment record and its NO_COMMENT / NONE sentinels (`CommentModel`);
  - the dashboard's analysis gate, placeholder stream, finalise, replace and resolve steps (`Dashboard`);
  - reconciling comment marks in the editor document and the orphan check (`Anchors`);
  - the sidebar's filter, relative times, quote line and reply guard (`Sidebar`);
- **the calendar**:
  - day membership and clipping of events, month cells and hour labels (`Calendar`);
  - the week view's sort, overlap clusters, greedy columns and title offset (`WeekLayout`);
  - the "view more" dialog's ordering and labels (`DayEvents`);
- **unit conversions**: the settings dialog's milliseconds to value and unit and back, with its input clamps (`Settings`);
- **the memory bank**:
  - the memory page's tabs, filter, selection, deletion, locking and add (`MemoryPage`);
  - the API's key slugs, create, update and delete (`Memories`);
  - the scanner's upsert under the lock rule (`MemoryWorker`);
- **the background scanner**: the scan and age deltas, candidate choice, the skip rule, applying the extracted changes and the plain text of a document (`Scanner`);
- **the comment API**: create, resolve and the reply thread (`CommentsApi`);
- **the article service**: listing, fetch, update, soft delete and reorder (`Articles`);
- **the user settings endpoints**: defaults and shallow merge (`UserSettings`).

The following modules are shared helpers:

- `Wrappers`: `Option` and `Result`.
- `Text`: JavaScript `trim`, Python `strip`, ASCII case, substring search, joining chunks and number rendering.
- `Json`: JSON values and their truthiness.
- `Seqs`: `filter`, counting and a stable sort.
- `StrOrder`: JavaScript's default string order.

Model choices:

- Times are integer epoch milliseconds.
- Database tables are sequences of rows, and `.first()` is the first match.
- The editor document is a flat sequence of text nodes, each carrying its text and a set of comment ids.
- Fresh identifiers (uuids, hex suffixes) and the language model's answers are parameters.

## Model

| member | source | states |
|---|---|---|
| AiResponse.LineEnd | frontend/src/pages/Dashboard.tsx:280 | the lazy `(.*?)` stops at the first line terminator after the marker, and at no earlier character |
| AiResponse.MatchComment | frontend/src/pages/Dashboard.tsx:281 | the comment pattern matches exactly when `>> COMMENT: ` occurs in the answer |
| AiResponse.ParseAIResponse | frontend/src/pages/Dashboard.tsx:279-289 | with both patterns matching, the content is the trimmed comment capture and the quote the trimmed quote capture, `NONE` meaning no quote; otherwise no quote and the whole answer as content |
| AiResponse.NoMarkerNoQuote | frontend/src/pages/Dashboard.tsx:280 | without `>> QUOTE: ` in the answer the quote pattern matches nowhere |
| AiResponse.MissingMarkerFallback | frontend/src/pages/Dashboard.tsx:283-288 | an answer lacking either marker comes back whole as content with no quote |
| AiResponse.MatchQuoteReachesFirst | frontend/src/pages/Dashboard.tsx:280 | the leftmost-match search passes over every position before the first marker |
| AiResponse.FirstMarkersDecide | frontend/src/pages/Dashboard.tsx:280-286 | when the first quote marker's line ends in `\n`, the quote is the trimmed rest of that line and the content the trimmed text after the first comment marker |
| AiResponse.FormatLayout | frontend/src/pages/Dashboard.tsx:276-278 | the documented two-line answer holds the quote marker at 0, the line feed after the quote, and the comment marker on the second line |
| AiResponse.CommentMarkerOnSecondLine | frontend/src/pages/Dashboard.tsx:276-281 | in a two-line answer whose quote holds no comment marker, the first comment marker is the one starting the second line |
| AiResponse.FormatParseRoundTrip | frontend/src/pages/Dashboard.tsx:276-287 | a single-line trimmed quote other than NONE and a trimmed comment, written in the documented shape, parse back to themselves |
| AiResponse.LineEndIs | frontend/src/pages/Dashboard.tsx:280 | the first line terminator at or after a position is where the quote capture ends |
| AiResponse.SkyExample | frontend/src/pages/Dashboard.tsx:279-287 | `>> QUOTE: sky\n>> COMMENT: nice` parses to quote `sky` and content `nice` |
| CommentModel.ExactSentinelIsHidden | frontend/src/components/Editor/TipTapEditor.tsx:128 | content trimming to `NO_COMMENT` or `>> NO_COMMENT` is also caught by the broad upper-cased substring-or-blank test of the dashboard and sidebar |
| CommentModel.HiddenContentIff | frontend/src/components/Editor/CommentSidebar.tsx:53-61 | content is hidden exactly when NO_COMMENT appears in it in some mix of ASCII cases, or it is all JavaScript white space |
| CommentModel.DropId | frontend/src/pages/Dashboard.tsx:377 | `filter(c => c.id !== id)` keeps exactly the entries with another id, leaves none with that id, and changes nothing when the id is absent (order and repetitions by CommentModel.DropIdDistributes and CommentModel.DropIdOne) |
| CommentModel.DropIdDistributes | frontend/src/pages/Dashboard.tsx:377 | dropping an id from a concatenation drops it from each part, so the kept entries stay in order with their repetitions |
| CommentModel.DropIdOne | frontend/src/pages/Dashboard.tsx:377 | a single entry is kept, once, exactly when its id differs |
| CommentModel.DropIdCount | frontend/src/pages/Dashboard.tsx:377 | dropping an id shortens the list by exactly the number of entries holding it |
| CommentModel.CountIdPositive | frontend/src/pages/Dashboard.tsx:377 | an id that is present is counted at least once |
| CommentModel.CountIdZero | frontend/src/pages/Dashboard.tsx:377 | an id counted zero times is absent |
| CommentModel.FindById | frontend/src/pages/Dashboard.tsx:475 | `find(c => c.id === id)` yields the first entry with the id, and nothing exactly when none has it |
| Dashboard.SetOpen | frontend/src/pages/Dashboard.tsx:46-56 | with no open article nothing changes; otherwise only that article's open list is replaced (its resolved list kept, a missing entry starting empty) and every other article's lists stay |
| Dashboard.SetResolved | frontend/src/pages/Dashboard.tsx:58-68 | the same for the resolved list |
| Dashboard.SetOpenTwice | frontend/src/pages/Dashboard.tsx:46-56 | two open-list updates in a row equal one update by their composition |
| Dashboard.SetResolvedTwice | frontend/src/pages/Dashboard.tsx:58-68 | two resolved-list updates in a row equal one update by their composition |
| Dashboard.WithStatus | frontend/src/pages/Dashboard.tsx:203-204 | `filter(c => c.status === st)`: keeps exactly the comments with the given status |
| Dashboard.WithStatusDistributes | frontend/src/pages/Dashboard.tsx:203-204 | the status filter of a concatenation is the concatenation of the filters, so order and repetitions are kept |
| Dashboard.WithStatusOne | frontend/src/pages/Dashboard.tsx:203-204 | a single comment is kept, once, exactly when it has the status |
| Dashboard.WithStatusKeepsAll | frontend/src/pages/Dashboard.tsx:203-204 | a list whose comments all have the status is kept whole |
| Dashboard.SplitFetched | frontend/src/pages/Dashboard.tsx:196-206 | fetched comments with status `active` are open and those with `resolved` are resolved |
| Dashboard.SplitFetchedOrder | frontend/src/pages/Dashboard.tsx:196-206 | the split of a concatenation is the concatenation of the splits, and one comment goes, once, to the list of its status, which fixes both lists' order and repetitions |
| Dashboard.SplitPartitions | frontend/src/pages/Dashboard.tsx:203-204 | no comment lands in both lists, and when every status is one of the two, the list sizes add up to the fetched count |
| Dashboard.Placeholder | frontend/src/pages/Dashboard.tsx:339 | the placeholder has the fresh id, empty content, streams, and has no anchor quote |
| Dashboard.OnEditorChange | frontend/src/pages/Dashboard.tsx:295-350 | AI disabled, the open-comment limit reached (5 by default), a request within the interval, or an unchanged text starts nothing; otherwise the text is remembered and, with an article open, exactly one placeholder is appended and the article's request time set to when the timer fired; without one `setComments` returns early and the open list stays |
| Dashboard.NoRestartForSameText | frontend/src/pages/Dashboard.tsx:333-335 | once an analysis started for a text, the same text again starts nothing more |
| Dashboard.OpenLimitKept | frontend/src/pages/Dashboard.tsx:308-310 | an edit never takes the open list past the limit when it was within it |
| Dashboard.IntervalThrottles | frontend/src/pages/Dashboard.tsx:312-321 | with a positive request interval no second analysis starts for the article within the interval after one started |
| Dashboard.ApplyChunk | frontend/src/pages/Dashboard.tsx:358-370 | a chunk appends to the content of the entries with the id, which become suggestions that no longer stream; every other entry and the length stay |
| Dashboard.ApplyChunks | frontend/src/pages/Dashboard.tsx:356-370 | applying the chunks keeps the list's length and ids and leaves every entry with another id untouched |
| Dashboard.StreamAppends | frontend/src/pages/Dashboard.tsx:356-370 | after all chunks the placeholder's content is its old content followed by the whole response, other entries untouched |
| Dashboard.DecideFinalize | frontend/src/pages/Dashboard.tsx:371-439 | the placeholder is dropped for NO_COMMENT or blank content and for a quote an unresolved comment already holds, abandoned with no open article, and otherwise saved with the parsed quote and content |
| Dashboard.SavedIsFresh | frontend/src/pages/Dashboard.tsx:376-379 | what is saved has visible content and repeats no quote held by an unresolved open comment |
| Dashboard.ReplaceAfterSave | frontend/src/pages/Dashboard.tsx:450-462 | the placeholder is dropped when another unresolved entry holds the quote, else replaced in place by the saved record marked not streaming |
| Dashboard.ReplaceKeepsQuotesDistinct | frontend/src/pages/Dashboard.tsx:450-462 | replacing the placeholder keeps open quotes distinct among unresolved comments |
| Dashboard.ResolveLocal | frontend/src/pages/Dashboard.tsx:470-480 | the first open comment with the id moves, marked resolved, to the front of the resolved list and every open entry with the id goes; an absent id changes nothing |
| Dashboard.ResolveMovesOne | frontend/src/pages/Dashboard.tsx:470-480 | with unique open ids, resolving moves exactly one comment and keeps the total |
| MemoryWorker.FindKey | backend/src/services/ai/memory_worker.py:11 | the user's first memory under the key, and none exactly when the user has no memory under it |
| MemoryWorker.Overwrite | backend/src/services/ai/memory_worker.py:19-24 | the identity, owner, key and lock stay; value, confidence and category are replaced; the source article is replaced only when one is given; `updated_at` becomes `now` exactly when another column changed and otherwise the row is returned as it was (the column's `onupdate`, backend/src/models/memory.py:21) |
| MemoryWorker.AddMemory | backend/src/services/ai/memory_worker.py:9-38 | a locked memory is returned untouched and nothing is written; an unlocked one is overwritten in place; with none under the key exactly one is appended, unlocked, with the given fields and `updated_by` "system" (backend/src/models/memory.py:16,22) |
| MemoryWorker.AddMemoryNewRow | backend/src/services/ai/memory_worker.py:9-38 | the only row the upsert can introduce into the table is the memory it returns |
| MemoryWorker.AddMemoryCounts | backend/src/services/ai/memory_worker.py:11-38 | the upsert never creates a second memory under a key the user has: only a missing (user, key) gains one memory, every other count stays |
| MemoryWorker.AddMemoryKeepsOthers | backend/src/services/ai/memory_worker.py:11-25 | locked memories and memories of other users or keys survive the upsert unchanged |
| MemoryWorker.AddMemoryIdempotent | backend/src/services/ai/memory_worker.py:9-38 | repeating the same upsert changes nothing more and returns the same memory |
| MemoryWorker.AddMemoryKeepsIdsUnique | backend/src/services/ai/memory_worker.py:27-35 | given a fresh id for a created row, ids stay unique |
| MemoryWorker.CountKeyReplace | backend/src/services/ai/memory_worker.py:19-24 | updating a row in place keeps every (owner, key) count |
| CommentsApi.CreateComment | backend/src/api/comments.py:23-50 | content stripping to `>> NO_COMMENT` or `NO_COMMENT` is skipped with nothing stored; anything else appends one row with the caller as owner, the request's fields, the type `suggestion` when the request has none, status "active" and no replies |
| CommentsApi.SkippedIsHidden | backend/src/api/comments.py:26-27 | whatever the server skips the dashboard would have hidden too (frontend/src/pages/Dashboard.tsx:376) |
| CommentsApi.PaddedSentinelIsSkipped | backend/src/api/comments.py:26 | `  NO_COMMENT\n` is skipped, `NO_COMMENT here` is stored |
| CommentsApi.FindOwned | backend/src/api/comments.py:75 | the first row with the id owned by the caller, none exactly when there is no such row |
| CommentsApi.Resolve | backend/src/api/comments.py:73-81 | 404 exactly when the caller owns no comment with the id; otherwise that row alone turns "resolved" and nothing else changes |
| CommentsApi.ResolveIdempotent | backend/src/api/comments.py:73-81 | resolving twice is resolving once |
| CommentsApi.FindOwnedSameKeys | backend/src/api/comments.py:75-90 | the ownership lookup depends only on ids and owners, so rewriting status or replies does not move it |
| CommentsApi.Normalize | backend/src/api/comments.py:92-99 | a missing reply is an empty thread, an empty legacy text too, a non-empty legacy text becomes one user message, a thread stays |
| Text.ConcatAppend | backend/src/api/comments.py:121-124 | joining the streamed chunks distributes over splitting the stream |
| CommentsApi.ReplyComment | backend/src/api/comments.py:86-147 | 404 exactly when the caller owns no comment with the id; otherwise the earlier thread is kept, the user's message follows, then the model's joined answer when generation succeeded, and without it the user's message alone is saved; no other row changes |
| CommentsApi.RepliesAccumulate | backend/src/api/comments.py:101-136 | a second reply keeps the first exchange as a prefix of the thread and lengthens it |
| CommentsApi.ReplyFlowExample | backend/tests/test_comments_reply.py:116-152 | an empty thread, `My reply` and the chunks `Here `, `is `, `a `, `reply.` give status replied, the answer `Here is a reply.` and a two-message user/ai thread |
| UserSettings.Merge | backend/src/api/user.py:13-22 | `{**a, **b}` holds the keys of both, b's values where b has the key and a's elsewhere |
| UserSettings.GetSettings | backend/src/api/user.py:10-17 | stored values shown over the defaults `ai_enabled` true and `ai_frequency` "medium", with the scanning flag |
| UserSettings.PutSettings | backend/src/api/user.py:19-31 | the update's keys overwrite the stored ones, the rest stay, the row stores what is answered and the scanning flag is reported unchanged |
| UserSettings.PutIdempotent | backend/src/api/user.py:19-31 | sending the same update twice is sending it once |
| UserSettings.PutTwice | backend/src/api/user.py:21-22 | two updates in a row equal their merge sent once |
| UserSettings.GetAfterPut | backend/src/api/user.py:13-22 | after a PUT, GET shows the update's value, else the earlier stored value, else the default |
| UserSettings.FreshUserSeesDefaults | backend/src/api/user.py:13-16 | a user with no settings sees exactly the defaults, AI enabled |
| Scanner.ScanDeltaUnits | backend/src/services/ai/background_scanner.py:33-42 | the wait between scans is the interval value in minutes, hours or days (24 hours by default), and 24 hours for a unit the code does not know |
| Scanner.SkipDeltaUnits | backend/src/services/ai/background_scanner.py:45-54 | the age limit is the value in days, 30-day months or 365-day years (14 days by default), and 14 days for an unknown unit |
| Scanner.DialogDefaultsMatchScanner | backend/src/services/ai/background_scanner.py:33-54 | what the settings dialog stores for untouched scan fields (frontend/src/components/Settings/SettingsModal.tsx) gives the same 24-hour wait and 14-day limit as a missing block, with scanning off |
| Scanner.ScanDeltaMonotone | backend/src/services/ai/background_scanner.py:36-42 | a larger interval value never shortens the wait |
| Scanner.Candidates | backend/src/services/ai/background_scanner.py:74-85 | exactly the user's non-deleted articles updated since the cutoff that were never scanned, or were scanned before the threshold and edited after that scan, each as often as in the table (the multiset of the filtered articles), oldest update first |
| Scanner.CandidatesCount | backend/src/services/ai/background_scanner.py:74-85 | a candidate is picked as often as it occurs among the articles, and nothing else is picked |
| Scanner.LatestSystemUpdate | backend/src/services/ai/background_scanner.py:62-67 | the newest `updated_at` among the user's memories written by the system, none (`datetime.min`) exactly when there is no such memory |
| Scanner.MaxUpdated | backend/src/services/ai/background_scanner.py:95 | the newest `updated_at` among the candidates: an upper bound that some candidate reaches |
| Scanner.ShouldScanIff | backend/src/services/ai/background_scanner.py:87-101 | the scan goes ahead exactly when some candidate was updated no earlier than the newest system memory (any candidate when there is none) |
| Scanner.ChangeValueAsWritten | backend/src/services/ai/background_scanner.py:156-159 | the memory value holds the change's content and, as written, the mis-encoded fallback emoji when the change has none |
| Scanner.ChangeValue | backend/src/services/ai/background_scanner.py:156-159 | the memory value holds the change's content and its emoji, or the memo emoji the memories API falls back to |
| Scanner.FallbackEmojiAsWrittenDiffers | backend/src/services/ai/background_scanner.py:158 | the fallback as written is not the emoji a memory created through the API gets |
| Scanner.FallbackEmojiMatchesApi | backend/src/services/ai/background_scanner.py:158 | with the corrected fallback a change without an emoji is stored with the API's default emoji (backend/src/api/memories.py:31,67) |
| Scanner.FindInSnapshot | backend/src/services/ai/background_scanner.py:144 | the first snapshot memory under the key, none exactly when no snapshot memory has it |
| Scanner.RemoveId | backend/src/services/ai/background_scanner.py:150-152 | deleting the row removes exactly the rows with its id and keeps ids unique |
| Scanner.ApplyChange | backend/src/services/ai/background_scanner.py:136-168 | a change missing key or action, under a key the snapshot holds locked, or with an unknown action leaves the store alone; a delete of an unlocked snapshot memory removes exactly the rows with its id, and one whose key the snapshot lacks changes nothing; a create or update whose key is unlocked leaves a memory of the user under the key with the change's value and the article as its source, and any row the change introduces is of that kind (value built by the corrected `ChangeValue` of the first finding) |
| Scanner.ApplyChanges | backend/src/services/ai/background_scanner.py:136-168 | an empty answer changes nothing, and every row the answer introduces is the user's and has the article as its source (with the corrected `ChangeValue` of the first finding) |
| Scanner.ExtractText | backend/src/services/ai/background_scanner.py:181-191 | only an object yields text; a node without `content` yields its own text (a `text` node's string, otherwise nothing), and a `text` field that is not a string raises |
| Scanner.ExtractChildren | backend/src/services/ai/background_scanner.py:186-188 | the loop over the children raises exactly when one child raises, and otherwise adds at least one newline per child |
| Scanner.ArticleText | backend/src/services/ai/background_scanner.py:173-193 | empty content and content on which extraction raises give no text; otherwise the recursive extraction |
| Scanner.ExtractEncoded | backend/src/services/ai/background_scanner.py:181-191 | a well-formed editor document never makes extraction raise and yields each node's text with a newline after every child |
| Scanner.ExtractEncodedAll | backend/src/services/ai/background_scanner.py:186-188 | the children of a well-formed document extract to their texts, each followed by a newline |
| Scanner.ParagraphText | backend/src/services/ai/background_scanner.py:181-191 | a document with one paragraph `Hi` reads as `Hi` and two newlines |
| Scanner.EmptyDocumentHasNoText | backend/src/services/ai/background_scanner.py:127-132 | an empty document and empty content have no text, so the article is marked without asking the model |
| Scanner.MarkScannedAsWritten | backend/src/services/ai/background_scanner.py:124-171 | marking sets `last_scanned_at` and, through the column's `onupdate` (backend/src/models/article.py:17), also moves `updated_at` to the later flush time; other articles stay |
| Scanner.ScannedAsWrittenIsPickedAgain | backend/src/services/ai/background_scanner.py:78-84 | as written, an article scanned once is a candidate again after the interval though nobody edited it |
| Scanner.MarkScanned | backend/src/services/ai/background_scanner.py:124-171 | marking sets only `last_scanned_at` of the article with the id |
| Scanner.ScannedIsNotPickedAgain | backend/src/services/ai/background_scanner.py:78-84 | a scanned article is not a candidate until it is edited after the scan, and then it is one exactly when it is the user's, not deleted, inside the age limit and the interval has passed |
| Scanner.ReorderAsWrittenRescans | backend/src/services/article.py:42-52 | as written, reordering turns an already scanned article into a candidate again |
| Scanner.ReorderKeepsCandidates | backend/src/services/article.py:42-52 | the corrected reorder leaves every article's candidacy unchanged |
| Scanner.ProcessArticle | backend/src/services/ai/background_scanner.py:124-171 | an article without text leaves the memories alone and skips the model (changes applied with the corrected `ChangeValue` of the first finding) |
| Scanner.ProcessAll | backend/src/services/ai/background_scanner.py:110-118 | the loop never processes more than the candidates and keeps the article count (composed of the corrected `ChangeValue` and `MarkScanned` of the first two findings) |
| Scanner.ScanArticles | backend/src/services/ai/background_scanner.py:56-122 | the article count is kept, and whenever the scan ran, or raised, the scanning flag is cleared at the end (with the corrected `ChangeValue` and `MarkScanned` of the first two findings) |
| Scanner.ScanUser | backend/src/services/ai/background_scanner.py:20-58 | with scanning not enabled (the default) nothing changes; the article count is always kept (with the corrected `ChangeValue` and `MarkScanned` of the first two findings) |
| Scanner.IdsOf | backend/src/services/ai/background_scanner.py:112 | the ids of the candidates, in order |
| Scanner.MarkAll | backend/src/services/ai/background_scanner.py:112-171 | marking a list of ids keeps every row's id and leaves the rows whose id is not listed untouched (with the corrected `MarkScanned` of the second finding) |
| Scanner.MarkAllRows | backend/src/services/ai/background_scanner.py:112-171 | marking a list of ids sets `last_scanned_at` on exactly the rows with one of them and nothing else (with the corrected `MarkScanned` of the second finding) |
| Scanner.ProcessAllMarksProcessed | backend/src/services/ai/background_scanner.py:112-118 | after the loop the articles are the input with the processed candidates marked (with the corrected `MarkScanned` of the second finding) |
| Scanner.ProcessAllMarks | backend/src/services/ai/background_scanner.py:112-171 | the loop marks exactly the processed candidates and nothing else (with the corrected `MarkScanned` of the second finding) |
| Scanner.ProcessAllStops | backend/src/services/ai/background_scanner.py:110-119 | the loop stops early only at an article whose model call raised |
| Scanner.ScanMarksCandidates | backend/src/services/ai/background_scanner.py:87-122 | a scan that ran to the end marks exactly the candidates scanned at `now`; a skipped scan changes nothing (with the corrected `MarkScanned` of the second finding) |
| Scanner.SnapshotAgrees | backend/src/services/ai/background_scanner.py:117 | the per-article snapshot of the user's memories agrees with the store on owners and locks |
| Scanner.AddMemoryAgrees | backend/src/services/ai/memory_worker.py:9-38 | the upsert keeps the snapshot's agreement with the store and ids unique |
| Scanner.ApplyChangeKeepsProtected | backend/src/services/ai/background_scanner.py:141-168 | one change never removes a locked memory or another user's, and keeps ids unique |
| Scanner.ApplyChangesKeepsProtected | backend/src/services/ai/background_scanner.py:136-168 | nor does the whole list of changes of one article |
| Scanner.ProcessAllKeepsProtected | backend/src/services/ai/background_scanner.py:112-118 | nor does the loop over the candidates, whatever the model answers |
| Scanner.ScanKeepsProtected | backend/src/services/ai/background_scanner.py:74-122 | a scan for any cutoff and threshold keeps every locked memory and every memory of another user |
| Anchors.Orphans | frontend/src/components/Editor/TipTapEditor.tsx:73-98 | the ids reported as orphaned are exactly those of comments with a real quote whose mark is nowhere in the document, none for an empty list |
| Anchors.OrphanReportedOnce | frontend/src/components/Editor/TipTapEditor.tsx:89-98 | an id is reported at most as often as comments carry it, and exactly once when it is unique and orphaned |
| Anchors.NodeAdds | frontend/src/components/Editor/TipTapEditor.tsx:157-168 | one mark per text node containing the quote, covering its first occurrence in that node |
| Anchors.AddOps | frontend/src/components/Editor/TipTapEditor.tsx:126-175 | marks are added only for comments with a real quote and visible content that were not listed before, have no mark yet, and whose quote occurs in the document's text |
| Anchors.NodeRemoves | frontend/src/components/Editor/TipTapEditor.tsx:183-190 | one removal per node carrying the mark |
| Anchors.RemoveOps | frontend/src/components/Editor/TipTapEditor.tsx:177-192 | removals exactly for the marked nodes of comments listed before and not now |
| Anchors.NodeMatchInFullText | frontend/src/components/Editor/TipTapEditor.tsx:153-160 | a quote found in one node is found in the whole text, so the full-text check never suppresses a per-node mark |
| Anchors.ReconcileAdds | frontend/src/components/Editor/TipTapEditor.tsx:126-175 | a mark is added on a node range exactly when a comment needing a mark has its quote's first occurrence in that node there |
| Anchors.ReconcileRemoves | frontend/src/components/Editor/TipTapEditor.tsx:177-192 | a mark is removed from a node exactly when its comment left the list and the node carries it |
| Anchors.ReconcileSteps | frontend/src/components/Editor/TipTapEditor.tsx:126-192 | every addition comes before every removal, an addition names a comment that is listed now and was not before, a removal one that was listed before and is not now |
| Anchors.AddedMarkCoversQuote | frontend/src/components/Editor/TipTapEditor.tsx:159-163 | every added mark lies inside its node and covers exactly the quote's text |
| Anchors.NoAddsForListed | frontend/src/components/Editor/TipTapEditor.tsx:138-139 | comments listed before never get a new mark |
| Anchors.NoRemovesForKept | frontend/src/components/Editor/TipTapEditor.tsx:180-181 | while every earlier comment is still listed nothing is unmarked |
| Anchors.ReconcileIdempotent | frontend/src/components/Editor/TipTapEditor.tsx:118-199 | running the effect again on the same list produces no step |
| Anchors.RemovedIdsNotCurrent | frontend/src/components/Editor/TipTapEditor.tsx:180-181 | every removal names an id no longer listed |
| Anchors.AddedIdsAreCurrent | frontend/src/components/Editor/TipTapEditor.tsx:127-163 | every added mark names a listed comment |
| Anchors.Lift | frontend/src/components/Editor/TipTapEditor.tsx:79-86 | before any step each character carries its node's marks |
| Anchors.ApplyOp | frontend/src/components/Editor/TipTapEditor.tsx:163-186 | a mark step keeps every node's text and length |
| Anchors.ApplyOps | frontend/src/components/Editor/TipTapEditor.tsx:194-195 | the transaction keeps every node's text and length |
| Anchors.OtherOpKeeps | frontend/src/components/Editor/TipTapEditor.tsx:163-186 | a step for another comment leaves this comment's marks alone |
| Anchors.UnnamedIdUnchanged | frontend/src/components/Editor/TipTapEditor.tsx:194-195 | a transaction never naming a comment leaves its marks alone |
| Anchors.NoAddNoGain | frontend/src/components/Editor/TipTapEditor.tsx:186 | without an add for a comment its mark appears nowhere new |
| Anchors.NoRemoveNoLoss | frontend/src/components/Editor/TipTapEditor.tsx:163 | without a removal for a comment its mark disappears nowhere |
| Anchors.RemovedStaysRemoved | frontend/src/components/Editor/TipTapEditor.tsx:186 | a removed mark with no later add is gone from the whole node |
| Anchors.AddedStaysAdded | frontend/src/components/Editor/TipTapEditor.tsx:163 | an added mark with no removal stays on its whole range |
| Anchors.AfterReconcile | frontend/src/components/Editor/TipTapEditor.tsx:194-198 | the document after the effect has the same texts |
| Anchors.RemovedCommentUnmarked | frontend/src/components/Editor/TipTapEditor.tsx:177-192 | after the effect a comment that left the list has no mark anywhere |
| Anchors.NewCommentMarked | frontend/src/components/Editor/TipTapEditor.tsx:150-168 | after the effect the quote of a comment that needed a mark carries its id in every node where the quote first occurs |
| Anchors.NeededMarkAdded | frontend/src/components/Editor/TipTapEditor.tsx:153-168 | a comment that needs a mark gets an add step on the first occurrence of its quote in every node containing it, and that range lies inside the node |
| Anchors.UntouchedIdKept | frontend/src/components/Editor/TipTapEditor.tsx:118-199 | the marks of comments that neither left nor need a mark are exactly as before |
| Sidebar.VisibleComments | frontend/src/components/Editor/CommentSidebar.tsx:53-61 | exactly the comments whose content neither contains NO_COMMENT in any case nor is blank, in order |
| Sidebar.VisibleDistributes | frontend/src/components/Editor/CommentSidebar.tsx:54-57 | the filter works element by element, so it keeps the original order |
| Sidebar.VisibleKeepsVisible | frontend/src/components/Editor/CommentSidebar.tsx:54-57 | a list of visible comments is shown unchanged, so filtering twice is filtering once |
| Sidebar.VisiblePlusHidden | frontend/src/components/Editor/CommentSidebar.tsx:53-61 | every entry is either listed or counted as hidden |
| Sidebar.NoneHidden | frontend/src/components/Editor/CommentSidebar.tsx:53-61 | no entry is hidden exactly when every entry is visible |
| Sidebar.TabCounts | frontend/src/components/Editor/CommentSidebar.tsx:176-182 | each tab number is its list's length less the hidden entries counted one by one, and equals the length exactly when every entry is visible |
| Sidebar.FormatTime | frontend/src/components/Editor/CommentSidebar.tsx:21-45 | `Just now` for a missing time or under a minute, whole minutes under an hour, whole hours under a day, the date from a day on, each count the floor of the elapsed time |
| Sidebar.FloorOfFloor | frontend/src/components/Editor/CommentSidebar.tsx:27-28 | whole hours of whole minutes are whole hours of the elapsed time |
| Sidebar.Label | frontend/src/components/Editor/CommentSidebar.tsx:30-36 | every age short of a day has a text label |
| Sidebar.LabelInjective | frontend/src/components/Editor/CommentSidebar.tsx:30-36 | different ages give different labels |
| Sidebar.QuoteLine | frontend/src/components/Editor/CommentSidebar.tsx:103 | the quote line is shown exactly for a non-empty quote other than NONE |
| Sidebar.SubmitReply | frontend/src/components/Editor/CommentSidebar.tsx:70-76 | a blank text or a reply in flight sends nothing; otherwise the typed text is sent, the box cleared and the comment set waiting, other comments untouched |
| Sidebar.FinishReply | frontend/src/components/Editor/CommentSidebar.tsx:79-81 | settling clears only this comment's waiting flag |
| Sidebar.OneReplyInFlight | frontend/src/components/Editor/CommentSidebar.tsx:70-81 | while a reply is in flight a second send does nothing, and once it settled a freshly typed reply is sent |
| Calendar.OverlapsDayShared | frontend/src/components/Calendar.tsx:257-263 | for an event that does not end before it starts, the overlap test holds exactly when the event and the day share an instant |
| Calendar.MonthDayEvents | frontend/src/components/Calendar.tsx:254-263 | a month cell lists exactly the events overlapping its day |
| Calendar.WeekDayEvents | frontend/src/components/Calendar.tsx:438-447 | a week column lists exactly the timed events overlapping its day |
| Calendar.WeekIsMonthWithoutAllDay | frontend/src/components/Calendar.tsx:441-447 | a week column's events are the month cell's events without the all-day ones, in the same order |
| Calendar.LocalDay | frontend/src/components/Calendar.tsx:392 | the local day number `d` of an instant is the one whose day `[d * 86400000, (d + 1) * 86400000)` holds the instant shifted by the offset |
| Calendar.AllDayRow | frontend/src/components/Calendar.tsx:392 | the all-day row holds exactly the all-day events starting on that local day |
| Calendar.MonthCell | frontend/src/components/Calendar.tsx:293-317 | at most the first three events are shown, the count of the rest completes the day, and some are hidden only when three are shown |
| Calendar.MoreLabel | frontend/src/components/Calendar.tsx:308-317 | the `+N more` link appears exactly when events are hidden |
| Calendar.MoreLabelCounts | frontend/src/components/Calendar.tsx:308-317 | the digits of the link read back as the number of hidden events, which with the three shown make up the day |
| Calendar.HourLabel | frontend/src/components/Calendar.tsx:426 | hour h reads as the twelve-hour clock value (12 for 0 and 12) followed by AM before noon and PM after |
| Calendar.HourLabelsDistinct | frontend/src/components/Calendar.tsx:426 | the 24 hour labels are pairwise different |
| Calendar.Clip | frontend/src/components/Calendar.tsx:450-461 | the drawn node covers exactly the instants the event shares with the day, lies inside the day when the event overlaps it, and does not end before it starts |
| Calendar.DayNodes | frontend/src/components/Calendar.tsx:441-462 | a day's nodes are the clipped timed events overlapping it, one node per event (the same multiset, so equal events stay separate nodes), sorted by start and, for equal starts, the longer first |
| Calendar.DayNodesWellFormed | frontend/src/components/Calendar.tsx:450-461 | every node lies inside its day and does not end before it starts |
| WeekLayout.MaxEnd | frontend/src/components/Calendar.tsx:466-481 | the running cluster end is the largest end of the cluster's nodes |
| WeekLayout.ClusterFrom | frontend/src/components/Calendar.tsx:464-483 | the clusters, read in order, are the nodes in order; none is empty, and each starts at or after the end of the one before |
| WeekLayout.Clusters | frontend/src/components/Calendar.tsx:464-483 | the same for the whole day, starting from no cluster |
| WeekLayout.ClustersJoined | frontend/src/components/Calendar.tsx:473-475 | every node but the first of a cluster starts before some earlier node of it ends |
| WeekLayout.ClustersSeparate | frontend/src/components/Calendar.tsx:462-483 | for nodes sorted as the comparator sorts them, every node of an earlier cluster ends no later than any node of a later one starts |
| WeekLayout.FreeColumn | frontend/src/components/Calendar.tsx:489-495 | the lowest column whose last end is at or before the node's start, or a new one when none is |
| WeekLayout.Place | frontend/src/components/Calendar.tsx:488-500 | the node takes the lowest free column, or a new column when all are busy; that column now ends at the node's end and the others are unchanged |
| WeekLayout.Assign | frontend/src/components/Calendar.tsx:487-501 | every node of the cluster gets a column that exists at the end |
| WeekLayout.SameColumnSeparated | frontend/src/components/Calendar.tsx:487-501 | two nodes of a cluster in the same column do not overlap in time |
| WeekLayout.LayoutCluster | frontend/src/components/Calendar.tsx:485-503 | each node keeps its position, the first node is in column 0, every column is below the column count, and nodes sharing a column do not overlap |
| WeekLayout.LayoutDay | frontend/src/components/Calendar.tsx:485-503 | every cluster of the day laid out on its own |
| WeekLayout.SameColumnNeverOverlaps | frontend/src/components/Calendar.tsx:441-503 | in one day column two events drawn in the same column never overlap, in one cluster or across clusters |
| WeekLayout.Obscuring | frontend/src/components/Calendar.tsx:519-522 | the nodes drawn over a node, sorted by start |
| WeekLayout.Pass | frontend/src/components/Calendar.tsx:532-539 | one pass of the for loop never moves the title up, moves it only across covered instants, and stops moving only at an uncovered instant |
| WeekLayout.Search | frontend/src/components/Calendar.tsx:526-541 | the while loop ends, only passes covered instants, and stops before the node's end only at an uncovered instant |
| WeekLayout.TextStart | frontend/src/components/Calendar.tsx:519-546 | the title starts at the first instant from the node's top not covered by a node drawn over it, never above the top, so the padding is never negative |
| WeekLayout.UncoveredTitleAtTop | frontend/src/components/Calendar.tsx:526-546 | a node nothing is drawn over has its title at its top |
| DayEvents.SortDayEvents | frontend/src/components/DayEventsModal.tsx:25-29 | the dialog lists a permutation of the day's events with all-day events first and each group by start time |
| DayEvents.SortDayEventsStable | frontend/src/components/DayEventsModal.tsx:25-29 | events equal under the comparator keep their order, as the stable array sort does |
| DayEvents.Label | frontend/src/components/DayEventsModal.tsx:66-79 | `All-day` exactly for all-day events; otherwise the event's times, without dates exactly when start and end fall on the same local day |
| DayEvents.TimesOnlyWithinOneDay | frontend/src/components/DayEventsModal.tsx:74-77 | times only exactly when one local calendar day holds both the start and the end |
| DayEvents.OnLocalDay | frontend/src/components/DayEventsModal.tsx:74 | an instant falls on its local day |
| DayEvents.OnDayUnique | frontend/src/components/DayEventsModal.tsx:74 | an instant falls on one local day only |
| StrOrder.LessIrreflexive | frontend/src/pages/Memory.tsx:148 | the default sort order puts no string before itself |
| StrOrder.LessTransitive | frontend/src/pages/Memory.tsx:148 | the default sort order is transitive |
| StrOrder.LessTotal | frontend/src/pages/Memory.tsx:148 | of two different strings one comes first |
| StrOrder.LessAsymmetric | frontend/src/pages/Memory.tsx:148 | two strings never each come before the other |
| StrOrder.InsertUnique | frontend/src/pages/Memory.tsx:146-148 | adding a string to a sorted duplicate-free list keeps it sorted and duplicate-free, with exactly one more element unless it was there |
| StrOrder.SortedDistinct | frontend/src/pages/Memory.tsx:146-148 | `Array.from(new Set(xs)).sort()` lists each string of xs once, in increasing order |
| StrOrder.FirstIsLeast | frontend/src/pages/Memory.tsx:148 | the head of a sorted duplicate-free list comes before every other element |
| StrOrder.StrictlySortedUnique | frontend/src/pages/Memory.tsx:146-148 | a set of strings has exactly one sorted duplicate-free listing |
| MemoryPage.CategoryOf | frontend/src/pages/Memory.tsx:146-154 | a memory's category, with an empty one read as Knowledge, is never empty |
| MemoryPage.Categories | frontend/src/pages/Memory.tsx:146 | the categories of the memories, one per memory |
| MemoryPage.Tabs | frontend/src/pages/Memory.tsx:146-150 | All comes first, then the categories in use and the four built-in ones, each once, sorted |
| MemoryPage.TabsAreTheSortedCategories | frontend/src/pages/Memory.tsx:146-150 | the tabs after All are the one sorted, duplicate-free listing of those categories |
| MemoryPage.ShownOn | frontend/src/pages/Memory.tsx:152-154 | the All tab shows every memory; another tab shows exactly the memories of its category |
| MemoryPage.EachMemoryOnItsTab | frontend/src/pages/Memory.tsx:146-154 | each memory shows on the tab of its category and on no other, and that tab exists |
| MemoryPage.ToggleSelection | frontend/src/pages/Memory.tsx:109-115 | toggling flips whether the id is selected and leaves every other id as it was |
| MemoryPage.ToggleTwice | frontend/src/pages/Memory.tsx:109-115 | toggling twice restores the selection, and the very list when the id was not selected |
| MemoryPage.BulkDelete | frontend/src/pages/Memory.tsx:117-122 | exactly the unselected memories stay, and the selection is emptied |
| MemoryPage.DeleteOne | frontend/src/pages/Memory.tsx:67-72 | exactly the memories with another id stay |
| MemoryPage.DeleteOneIsBulk | frontend/src/pages/Memory.tsx:67-122 | deleting one memory is a bulk delete of a selection holding just its id |
| MemoryPage.SetLock | frontend/src/pages/Memory.tsx:58-62 | the memories with the id take the lock state the server answered, and nothing else changes |
| MemoryPage.SetLockUndo | frontend/src/pages/Memory.tsx:58-62 | locking and unlocking back restores the list |
| MemoryPage.AddMemory | frontend/src/pages/Memory.tsx:129-134 | blank content adds nothing; otherwise the created memory goes first, ahead of the old list |
| MemoryPage.AddThenDelete | frontend/src/pages/Memory.tsx:67-72 | deleting a just-added memory whose id was new gives the old list back |
| Settings.ShowInterval | frontend/src/components/Settings/SettingsModal.tsx:44-62 | the stored trigger interval shows in days, else hours, else minutes when it is a positive whole number of them, and as seconds rounded down otherwise |
| Settings.ShowRequest | frontend/src/components/Settings/SettingsModal.tsx:65-80 | a positive request interval shows in days or hours when exact, else in minutes rounded down |
| Settings.IntervalMs | frontend/src/components/Settings/SettingsModal.tsx:104-108 | the trigger interval written is the value times its unit in milliseconds |
| Settings.RequestMs | frontend/src/components/Settings/SettingsModal.tsx:110-115 | the request interval written is the value times its unit, and 0 for a value that is not positive |
| Settings.IntervalRoundTrip | frontend/src/components/Settings/SettingsModal.tsx:44-108 | a positive whole number of seconds, shown and saved again, is the stored trigger interval |
| Settings.RequestRoundTrip | frontend/src/components/Settings/SettingsModal.tsx:65-115 | a positive whole number of minutes, shown and saved again, is the stored request interval |
| Settings.Load | frontend/src/components/Settings/SettingsModal.tsx:36-94 | each present setting sets its fields; a missing or zero trigger interval, a missing request interval and a missing scan block leave theirs alone; a request interval that is not positive shows 0; a present scan block sets all five scan fields, a missing one falling back to off, 24, hours, 14 or days |
| Settings.EmptyScanBlockDefaults | frontend/src/components/Settings/SettingsModal.tsx:88-94 | an empty scan block loads as scanning off, every 24 hours, skipping articles older than 14 days, the form's initial values |
| Settings.Save | frontend/src/components/Settings/SettingsModal.tsx:101-130 | every setting is written: the intervals in milliseconds and the whole scan block |
| Settings.SaveLoadSave | frontend/src/components/Settings/SettingsModal.tsx:36-130 | saving, reopening the dialog and saving again writes the same settings, for a positive trigger interval |
| Settings.ClampPositive | frontend/src/components/Settings/SettingsModal.tsx:210 | `Math.max(1, parseInt(x) \|\| 1)` is the parsed number when at least 1, else 1 |
| Settings.ClampNonNegative | frontend/src/components/Settings/SettingsModal.tsx:253 | `Math.max(0, parseInt(x) \|\| 0)` is the parsed number when not negative, else 0 |
| Settings.TypedIntervalRoundTrips | frontend/src/components/Settings/SettingsModal.tsx:210 | a trigger interval typed in the form always survives saving, reopening and saving |
| Memories.Folded | backend/src/api/memories.py:45 | the content with every character lower-cased as far as the slug can tell |
| Memories.Collapse | backend/src/api/memories.py:46 | each maximal whitespace run becomes one underscore: never longer, empty only for empty input, every other character taken from the input |
| Memories.CollapseNoPair | backend/src/api/memories.py:46 | collapsing text without underscores never yields two underscores in a row |
| Memories.CollapseKeepsSolid | backend/src/api/memories.py:46 | collapsing keeps every character that is neither whitespace nor an underscore, in order, and adds none |
| Memories.Slug | backend/src/api/memories.py:45-46 | the slug holds only `a-z`, `0-9` and single underscores |
| Memories.GenerateKey | backend/src/api/memories.py:42-49 | an empty slug gives `memory_` and eight fresh hex digits; otherwise the key is the slug cut to 50 characters, made of `a-z`, `0-9` and single underscores |
| Memories.KeyKeepsLettersAndDigits | backend/src/api/memories.py:45-46 | apart from underscores the slug is exactly the content's lower-cased letters and digits, in order |
| Memories.WhitespaceContentKey | backend/src/api/memories.py:45-49 | content of spaces only gets the key `_`, not the `memory_` fallback |
| Memories.CountKey | backend/src/api/memories.py:60 | the user's memories under a key, zero exactly when there is none |
| Memories.CountKeyAppend | backend/src/api/memories.py:73 | inserting a row adds one to its own (owner, key) count and nothing to the others |
| Memories.FindOwned | backend/src/api/memories.py:84 | the first memory with the id owned by the caller, none exactly when there is no such memory |
| Memories.CreateMemory | backend/src/api/memories.py:27-76 | one memory is appended, owned by the caller, unlocked, written by the user, holding content and emoji, with category `Knowledge`, confidence `low` and emoji 📝 for fields the request leaves out, under the generated key or, when the user already has that key, the key with `_` and four fresh hex digits |
| Memories.CreateKeepsKeysUnique | backend/src/api/memories.py:54-62 | the created memory is the user's only one under its key whenever the suffixed key, if used, is new |
| Memories.ApplyUpdate | backend/src/api/memories.py:88-108 | the lock changes only when given; content and emoji merge into the value keeping its other keys and mark the memory as edited by the user; confidence changes only to high, medium or low; category when given; `updated_at` becomes `now` exactly when another column changed (backend/src/models/memory.py:21) |
| Memories.EmptyUpdateChangesNothing | backend/src/api/memories.py:88-108 | an update with every field absent changes nothing |
| Memories.UpdateIdempotent | backend/src/api/memories.py:88-108 | sending the same update twice is sending it once |
| Memories.UpdateMemory | backend/src/api/memories.py:82-112 | 404 exactly when the caller owns no memory with the id; otherwise that row alone is updated and returned |
| Memories.DeleteMemory | backend/src/api/memories.py:114-122 | 404 exactly when the caller owns no memory with the id; otherwise that row alone is removed, the rest kept in order |
| Memories.MaxIdLength | backend/src/models/memory.py:11 | a length no id in the store exceeds |
| Memories.FreshId | backend/src/models/memory.py:11 | an id no row of the store has, standing for `uuid4()` |
| Memories.DeleteRemovesOnlyIt | backend/src/api/memories.py:114-122 | after a delete the memory with the id is gone and every other one is still there |
| Articles.ListAll | backend/src/services/article.py:14-18 | exactly the caller's live articles whose title contains the search text ignoring case (all of them for an empty search), each as often as in the store (the multiset of the filtered store), by position and then newest update first |
| Articles.ListAllCount | backend/src/services/article.py:14-18 | a listed row occurs in the listing as often as in the store, and no other row occurs |
| Articles.GetArticles | backend/src/services/article.py:14-18 | at most `limit` rows, each a live article of the caller matching the search, in listing order, none once `skip` passes the end (with Articles.ListAll, Articles.Page and Articles.PagesAreConsecutive) |
| Articles.Page | backend/src/services/article.py:18 | at most `limit` rows, the listing's rows from `skip` on, none past the end |
| Articles.PagesAreConsecutive | backend/src/services/article.py:18 | two consecutive pages are the next rows of the listing, without loss or overlap |
| Articles.FindLive | backend/src/services/article.py:21 | the first live row with the id owned by the caller, none exactly when there is none |
| Articles.GetArticle | backend/src/services/article.py:20-21 | the caller's live article with the id, none exactly when it does not exist, is another user's or is deleted |
| Articles.ApplyUpdate | backend/src/services/article.py:27-29 | only the fields sent change, and an update changing nothing leaves the row as it was |
| Articles.UpdateArticle | backend/src/services/article.py:23-32 | nothing for a missing, foreign or deleted article; otherwise that row alone is updated |
| Articles.ApplyUpdateIdempotent | backend/src/services/article.py:27-29 | the same update applied twice at the same time equals one application |
| Articles.UpdateThenGet | backend/src/services/article.py:20-32 | after an update the article reads back as the updated row, and repeating the update changes nothing more |
| Articles.FindLiveAfterWrite | backend/src/services/article.py:21 | the found row rewritten with a live row of the same id and owner is still the one found |
| Articles.DeleteArticle | backend/src/services/article.py:34-40 | nothing for a missing, foreign or deleted article; otherwise the row is flagged deleted and kept, and no other row changes |
| Articles.DeletedIsGone | backend/src/services/article.py:20-40 | after a delete the article can no longer be fetched or listed, while every other article is fetched as before |
| Articles.FindLiveSame | backend/src/services/article.py:21 | the lookup of an id ignores rows with other ids |
| Articles.SetPosition | backend/src/services/article.py:49-50 | one step writes the position of the caller's rows with the id and nothing else |
| Articles.ReorderStepsPositions | backend/src/services/article.py:42-52 | after the loop each of the caller's articles has the last index at which its id was sent, other rows and fields are untouched |
| Articles.Reorder | backend/src/services/article.py:42-52 | each of the caller's rows whose id was sent takes the last index it was sent at as its position; every other row and every other field stays |
| Articles.LastIndexBelow | backend/src/services/article.py:49 | the last index of the id in the list sent, none when it is not there |
| Articles.ListingFollowsReorder | backend/src/services/article.py:14-18 | after a reorder the caller's articles are listed in the order sent |
| Articles.ReorderedPosition | backend/src/services/article.py:49-50 | after a reorder each of the caller's articles sits at the last index its id was sent at |
| Articles.SetPositionAsWritten | backend/src/services/article.py:49-50 | as written, the ORM update also stamps `updated_at` on every row it matches (backend/src/models/article.py:17) |
| Articles.ReorderAsWrittenStamps | backend/src/services/article.py:42-52 | as written, the loop sets the intended positions but also stamps `updated_at` on every reordered row of the caller |
| Articles.ReorderAsWritten | backend/src/services/article.py:42-52 | as written, the loop keeps every row's id and owner and leaves other users' rows untouched |
| Seqs.SortBy | frontend/src/components/Calendar.tsx:462 | the sorted copy is a permutation of the input in key order |
| Seqs.SortStable | frontend/src/components/DayEventsModal.tsx:25-29 | elements with equal keys keep their input order, as the engine's stable array sort does |
| Text.TrimWith | frontend/src/pages/Dashboard.tsx:284-285 | the trimmed text is a piece of the input that neither starts nor ends with white space, empty exactly when the input is all white space |
| Text.TrimWithCuts | frontend/src/pages/Dashboard.tsx:284-285 | the trimmed text is the input with an all-white-space prefix and an all-white-space suffix cut away |
| Text.TrimUnique | frontend/src/pages/Dashboard.tsx:284-285 | any middle part left by cutting an all-white-space prefix and suffix that neither starts nor ends with white space is the trimmed text, so the trim is determined |
| Text.JsTrimTrims | frontend/src/pages/Dashboard.tsx:284-285 | JavaScript `trim` cuts exactly a leading and a trailing run of JavaScript white space and line terminators, leaving no such character at either end, and is empty exactly for all-white-space input |
| Text.PyStripStrips | backend/src/api/comments.py:26 | Python `strip` cuts exactly a leading and a trailing run of Python white space, leaving none at either end, and is empty exactly for all-white-space input |
| Text.NatToStringRoundTrip | frontend/src/components/Calendar.tsx:316 | reading back the decimal digits of a count gives the count |

## Left out

- HTTP and streaming: fetch loops, server-sent events and API client calls are replaced by their results. A streamed answer is the concatenation of its chunks, and a failed stream is a flag.
- Prompts and language-model calls: the scanner's extractor and the reply's answer are parameters. Any answer the model could give is allowed.
- Database sessions, migrations, the scheduler and configuration: tables are sequences of rows, and commits are not modelled. An exception midway through a list of changes is modelled only as the whole article failing.
- `scan_all_users` is left out: it is a loop over users that calls the per-user scan, which is modelled.
- Listing a comment thread for an article (`get_article_comments`) and `create_article` are left out: they are plain queries and inserts with no logic beyond the filters modelled elsewhere.
- Timers and concurrency are left out: debounce, polling, toast expiry and the stale-closure race. Finalise and replace are separate sequential steps over an explicit current list.
- A request uses one clock reading, `now`, where the source calls `utcnow()` more than once within a reply or a scan.
- Floating point and styling are left out: rem heights, pixel offsets and indent percentages of the week view.
- A calendar day is `[dayStart, dayStart + 86400000)`. Daylight-saving days, the date-fns navigation helpers, the lunar calendar and locale formatting are not modelled.
- ProseMirror internals are left out: position arithmetic across block boundaries, the schema and the comment mark's configuration. `getText()` is a plain concatenation of node texts, and mark exclusivity is not modelled (marks are sets).
- Random ids: `uuid4` and the hex suffixes are parameters, and `Memories.FreshId` constructs an id that no row has, standing in for `uuid4()`.
- Strings are sequences of characters. JavaScript works on UTF-16 code units for `length`, `sort` and `trim`, and astral characters are not modelled separately.
- Case mapping covers ASCII only, plus the non-ASCII characters whose Python lower case turns into ASCII in key slugs. SQL `ilike` is a plain case-insensitive substring test, and its `%`/`_` wildcards are not modelled.
- Among rows whose sort keys are equal, the database's order is not specified. The model keeps table order, as a stable sort would.
- Memory values, change entries and settings are typed records. JSON fields of other types than the code reads (a non-string key, a non-object entry) are modelled only as far as the code rejects them.
- A `background_scan` setting that is JSON `null` is treated like a missing one.
- The reply column's other JSON shapes (numbers, objects) are not modelled. Only `None`, strings and lists occur.
- Editing a memory inline on the memory page (`handleSaveEdit`) is left out: it sends an update whose effect is `Memories.UpdateMemory`.
- Pure UI components with no stateable logic are left out, and so are authentication and the events and almanac endpoints.
- WeekLayout.SameColumnNeverOverlaps: requires every event to end no earlier than it starts. The source does not check this, and a reversed event breaks the greedy column argument.
- Scanner.ScanKeepsProtected: is stated for `ScanArticles` with any cutoff and threshold rather than for `ScanUser`. `ScanUser` only computes the cutoff and threshold from the settings before calling it, or returns the state unchanged. It composes the corrected `ChangeValue` and `MarkScanned` of the first two findings; neither touches which rows are protected.
- Scanner.ScanDeltaUnits and Scanner.SkipDeltaUnits state the unit conversion for each unit name. Non-integer values in the settings JSON are not modelled.
- Scanner.ApplyChange: builds the stored value with the corrected `ChangeValue` (the 📝 fallback emoji of the first finding), not the mis-encoded fallback of the code as written, which `Scanner.ChangeValueAsWritten` models on its own.
- Scanner.ApplyChanges: applies each change with the corrected `ChangeValue` of the first finding, like `Scanner.ApplyChange`.
- Scanner.ProcessArticle: composes the corrected `ChangeValue` of the first finding.
- Scanner.ProcessAll: composes the corrected `ChangeValue` and `MarkScanned` of the first two findings. As written, marking also moves `updated_at` (`Scanner.MarkScannedAsWritten`), and the fallback emoji differs.
- Scanner.ScanArticles: composes the corrected `ChangeValue` and `MarkScanned` of the first two findings, through `Scanner.ProcessAll`.
- Scanner.ScanUser: composes the corrected `ChangeValue` and `MarkScanned` of the first two findings, through `Scanner.ScanArticles`.
- Scanner.MarkAll: marks with the corrected `MarkScanned` of the second finding. As written, each marked row also gets the later flush time as `updated_at`.
- Scanner.MarkAllRows: states marking with the corrected `MarkScanned` of the second finding, not the code as written.
- Scanner.ProcessAllMarksProcessed: states marking with the corrected `MarkScanned` of the second finding, not the code as written.
- Scanner.ProcessAllMarks: states marking with the corrected `MarkScanned` of the second finding, not the code as written.
- Scanner.ScanMarksCandidates: states marking with the corrected `MarkScanned` of the second finding. As written, the marked candidates also have `updated_at` moved past the scan, which `Scanner.ScannedAsWrittenIsPickedAgain` exhibits.

## Findings

| source | as written | input that shows it | evidently intended | confidence | as-written member | corrected member |
|---|---|---|---|---|---|---|
| backend/src/services/ai/background_scanner.py:158 | the fallback emoji of an extracted memory is a mis-decoded string (the memo emoji's UTF-8 bytes read as Windows-1252) | a `create` change with no `emoji` field | the memo emoji 📝 that the memory API also falls back to | medium, not executed | Scanner.ChangeValueAsWritten, Scanner.FallbackEmojiAsWrittenDiffers | Scanner.ChangeValue, Scanner.FallbackEmojiMatchesApi |
| backend/src/services/ai/background_scanner.py:124-171 | setting `last_scanned_at` is an UPDATE, so the `updated_at` column's `onupdate` default stamps it after the scan time | an unedited article scanned at time t, scanned again once the interval has passed | a scanned article is a candidate again only after it is edited (the filter at lines 78-84) | medium, not executed | Scanner.MarkScannedAsWritten, Scanner.ScannedAsWrittenIsPickedAgain | Scanner.MarkScanned, Scanner.ScannedIsNotPickedAgain |
| backend/src/services/article.py:42-52 | the reorder UPDATE also writes `updated_at` through its `onupdate` default, although the comment at line 46 says it should not | dragging an already scanned article to a new position | reordering changes positions only, so an article's scan candidacy stays as it was | medium, not executed | Articles.ReorderAsWritten, Scanner.ReorderAsWrittenRescans | Articles.Reorder, Scanner.ReorderKeepsCandidates |

=== FILE: ai_response.dfy ===
/** Parsing of the model's inline-comment answer (the dashboard's
    `parseAIResponse`). The expected shape is

        >> QUOTE: <quoted text>
        >> COMMENT: <comment text>

    The quote is taken from the first `>> QUOTE: ` whose line is ended by a
    line feed (the pattern `/>> QUOTE: (.*?)\n/`, where `.` stops at any line
    terminator); the comment is everything after the first `>> COMMENT: `
    (the pattern `/>> COMMENT: ([\s\S]*)/`). When either pattern fails the
    whole answer becomes the content and there is no quote. */
module AiResponse {
  import opened Wrappers
  import opened Text

  const QuoteMarker: string := ">> QUOTE: "
  const CommentMarker: string := ">> COMMENT: "

  datatype Parsed = Parsed(quote: Option<string>, content: string)

  /** First index at or after `k` holding a line terminator, or `|s|`. */
  function LineEnd(s: string, k: nat): (e: nat)
    requires k <= |s|
    ensures k <= e <= |s|
    ensures forall i :: k <= i < e ==> !IsLineTerminator(s[i])
    ensures e < |s| ==> IsLineTerminator(s[e])
    decreases |s| - k
  {
    if k == |s| || IsLineTerminator(s[k]) then k else LineEnd(s, k + 1)
  }

  /** The quote pattern tried at start position `p`: the marker, then the
      rest of the line, which must be ended by `\n`. */
  function QuoteCaptureAt(s: string, p: nat): Option<string> {
    if OccursAt(s, QuoteMarker, p) then
      var e := LineEnd(s, p + |QuoteMarker|);
      if e < |s| && s[e] == '\n' then Some(s[p + |QuoteMarker|..e]) else None
    else None
  }

  /** Leftmost match of the quote pattern at or after `p`. */
  function MatchQuoteFrom(s: string, p: nat): Option<string>
    decreases |s| + 1 - p
  {
    if p > |s| then None
    else if QuoteCaptureAt(s, p).Some? then QuoteCaptureAt(s, p)
    else MatchQuoteFrom(s, p + 1)
  }

  /** Capture group of `/>> QUOTE: (.*?)\n/`. */
  function MatchQuote(s: string): Option<string> {
    MatchQuoteFrom(s, 0)
  }

  /** Capture group of `/>> COMMENT: ([\s\S]*)/`. */
  function MatchComment(s: string): (r: Option<string>)
    ensures r.Some? <==> Contains(s, CommentMarker)
  {
    match IndexOf(s, CommentMarker)
    case Some(c) => Some(s[c + |CommentMarker|..])
    case None => None
  }

  /** `parseAIResponse(text)`. */
  function ParseAIResponse(text: string): (r: Parsed)
    ensures MatchQuote(text).None? || MatchComment(text).None? ==> r == Parsed(None, text)
    ensures MatchQuote(text).Some? && MatchComment(text).Some? ==>
              r.content == JsTrim(MatchComment(text).value)
              && (r.quote.None? <==> JsTrim(MatchQuote(text).value) == "NONE")
              && (r.quote.Some? ==> r.quote.value == JsTrim(MatchQuote(text).value))
  {
    var q := MatchQuote(text);
    var c := MatchComment(text);
    if q.Some? && c.Some? then
      var quote := JsTrim(q.value);
      Parsed(if quote == "NONE" then None else Some(quote), JsTrim(c.value))
    else
      Parsed(None, text)
  }

  // ---------------------------------------------------------------------------
  // Properties

  /** No quote line can match in an answer without the quote marker. */
  lemma {:induction false} NoMarkerNoQuote(s: string, p: nat)
    requires !Contains(s, QuoteMarker)
    ensures MatchQuoteFrom(s, p).None?
    decreases |s| + 1 - p
  {
    if p <= |s| {
      NotContainsNowhere(s, QuoteMarker, p);
      NoMarkerNoQuote(s, p + 1);
    }
  }

  /** Fallback: an answer missing either marker is kept whole as the content. */
  lemma MissingMarkerFallback(text: string)
    requires !Contains(text, QuoteMarker) || !Contains(text, CommentMarker)
    ensures ParseAIResponse(text) == Parsed(None, text)
  {
    if !Contains(text, QuoteMarker) {
      NoMarkerNoQuote(text, 0);
    }
  }

  /** The search skips every position before the first marker occurrence. */
  lemma {:induction false} MatchQuoteReachesFirst(s: string, k: nat, p: nat)
    requires k <= p <= |s|
    requires forall j :: 0 <= j < p ==> !OccursAt(s, QuoteMarker, j)
    ensures MatchQuoteFrom(s, k) == MatchQuoteFrom(s, p)
    decreases p - k
  {
    if k < p {
      assert !OccursAt(s, QuoteMarker, k);
      MatchQuoteReachesFirst(s, k + 1, p);
    }
  }

  /** With both markers present and the first quote line ended by `\n`, the
      quote is the trimmed rest of that line (NONE giving no quote) and the
      content is the trimmed text after the first comment marker. */
  lemma FirstMarkersDecide(text: string, p: nat, c: nat)
    requires IndexOf(text, QuoteMarker) == Some(p)
    requires IndexOf(text, CommentMarker) == Some(c)
    requires var e := LineEnd(text, p + |QuoteMarker|); e < |text| && text[e] == '\n'
    ensures var e := LineEnd(text, p + |QuoteMarker|);
            var q := JsTrim(text[p + |QuoteMarker|..e]);
            ParseAIResponse(text)
              == Parsed(if q == "NONE" then None else Some(q), JsTrim(text[c + |CommentMarker|..]))
  {
    MatchQuoteReachesFirst(text, 0, p);
  }

  /** The canonical two-line answer. */
  function Format(quote: string, comment: string): string {
    QuoteMarker + quote + "\n" + CommentMarker + comment
  }

  /** Where each part of a canonical answer sits. */
  lemma FormatLayout(quote: string, comment: string)
    ensures var s := Format(quote, comment);
            var n := |QuoteMarker| + |quote|;
            && |s| == n + 1 + |CommentMarker| + |comment|
            && s[..|QuoteMarker|] == QuoteMarker
            && s[|QuoteMarker|..n] == quote
            && s[n] == '\n'
            && s[n + 1..n + 1 + |CommentMarker|] == CommentMarker
            && s[n + 1 + |CommentMarker|..] == comment
  {
  }

  /** The comment marker does not occur before the second line of a
      canonical answer whose quote holds no marker and no line break. */
  lemma {:induction false} CommentMarkerOnSecondLine(quote: string, comment: string)
    requires !Contains(quote, CommentMarker)
    ensures IndexOf(Format(quote, comment), CommentMarker) == Some(|QuoteMarker| + |quote| + 1)
  {
    var s := Format(quote, comment);
    var m := CommentMarker;
    var qm := QuoteMarker;
    var n := |qm| + |quote|;
    FormatLayout(quote, comment);
    assert OccursAt(s, m, n + 1);
    assert forall j :: 0 <= j < |m| ==> m[j] != '\n';
    forall k | 0 <= k < n + 1 ensures !OccursAt(s, m, k) {
      if k == 0 {
        assert s[3] == qm[3] != m[3];
      } else if k == 1 {
        assert s[2] == qm[2] != m[1];
      } else if k < |qm| {
        assert s[k] == qm[k] != m[0];
      } else if k + |m| <= n {
        QuoteWindow(quote, comment, k, |m|);
        NotContainsNowhere(quote, m, k - |qm|);
      } else {
        assert s[n] != m[n - k];
      }
    }
    ContainsWitness(s, m, n + 1);
  }

  /** A window of a canonical answer inside its quote is a window of the
      quote. */
  lemma QuoteWindow(quote: string, comment: string, k: nat, len: nat)
    requires |QuoteMarker| <= k && k + len <= |QuoteMarker| + |quote|
    ensures var s := Format(quote, comment);
            s[k..k + len] == quote[k - |QuoteMarker|..k - |QuoteMarker| + len]
  {
    var s := Format(quote, comment);
    var qm := QuoteMarker;
    FormatLayout(quote, comment);
    assert s[k..k + len] == s[|qm|..|qm| + |quote|][k - |qm|..k - |qm| + len];
  }

  /** Round trip: an answer written in the canonical shape parses back to its
      quote and comment, provided the quote is a single trimmed line that is
      not the NONE sentinel and the comment is trimmed. */
  lemma {:induction false} FormatParseRoundTrip(quote: string, comment: string)
    requires forall i :: 0 <= i < |quote| ==> !IsLineTerminator(quote[i])
    requires !Contains(quote, CommentMarker)
    requires JsTrim(quote) == quote && quote != "NONE"
    requires JsTrim(comment) == comment
    ensures ParseAIResponse(Format(quote, comment)) == Parsed(Some(quote), comment)
  {
    var s := Format(quote, comment);
    var n := |QuoteMarker| + |quote|;
    QuoteLineOfFormat(quote, comment);
    CommentMarkerOnSecondLine(quote, comment);
    FirstMarkersDecide(s, 0, n + 1);
    FormatLayout(quote, comment);
  }

  /** A canonical answer starts with the quote marker, and its first line
      ends right after the quote. */
  lemma QuoteLineOfFormat(quote: string, comment: string)
    requires forall i :: 0 <= i < |quote| ==> !IsLineTerminator(quote[i])
    ensures var s := Format(quote, comment);
            var n := |QuoteMarker| + |quote|;
            IndexOf(s, QuoteMarker) == Some(0) && LineEnd(s, |QuoteMarker|) == n && n < |s| && s[n] == '\n'
  {
    var s := Format(quote, comment);
    var qm := QuoteMarker;
    var n := |qm| + |quote|;
    FormatLayout(quote, comment);
    assert OccursAt(s, qm, 0);
    forall i | |qm| <= i < n ensures !IsLineTerminator(s[i]) {
      assert s[i] == s[|qm|..n][i - |qm|];
    }
    LineEndIs(s, |qm|, n);
  }

  /** `LineEnd` finds the first line terminator. */
  lemma {:induction false} LineEndIs(s: string, k: nat, e: nat)
    requires k <= e < |s| && IsLineTerminator(s[e])
    requires forall i :: k <= i < e ==> !IsLineTerminator(s[i])
    ensures LineEnd(s, k) == e
    decreases e - k
  {
    if k < e {
      LineEndIs(s, k + 1, e);
    }
  }

  /** The example answer streamed as `>> QUOTE: sky\n` then `>> COMMENT: nice`. */
  lemma SkyExample()
    ensures ParseAIResponse(">> QUOTE: sky\n" + ">> COMMENT: nice") == Parsed(Some("sky"), "nice")
  {
    TrimmedIsFixed("sky", IsJsSpace);
    TrimmedIsFixed("nice", IsJsSpace);
    assert Format("sky", "nice") == ">> QUOTE: sky\n" + ">> COMMENT: nice";
    FormatParseRoundTrip("sky", "nice");
  }
}

=== FILE: anchors.dfy ===
/** Comment anchors in the editor (`components/Editor/TipTapEditor.tsx`): the
    orphan check run after every edit, and the effect that reconciles the
    comment marks of the document with the list of open comments.

    The document is a flat sequence of text nodes, each carrying its text and
    the set of comment ids marked on it (a ProseMirror text node has one mark
    set). A mark step addresses a node and offsets inside it. All steps of
    one reconciliation are computed against the document as it was when the
    effect ran and gathered into one transaction, which is then applied. */
module Anchors {
  import opened Wrappers
  import opened Text
  import opened CommentModel

  datatype TextNode = TextNode(text: string, marks: set<string>)

  type Doc = seq<TextNode>

  /** Some node carries the mark of comment `id`. */
  predicate MarkedAnywhere(doc: Doc, id: string) {
    exists k | 0 <= k < |doc| :: id in doc[k].marks
  }

  /** `editor.getText()`, with block separators left out. */
  function FullText(doc: Doc): string {
    if |doc| == 0 then "" else doc[0].text + FullText(doc[1..])
  }

  // ---------------------------------------------------------------------------
  // Orphan check (`onUpdate`)

  /** An anchored comment whose mark is nowhere in the document. */
  predicate IsOrphan(c: Comment, doc: Doc) {
    HasAnchorQuote(c) && !MarkedAnywhere(doc, c.id)
  }

  /** The ids handed to `onTextNotFound`, in list order. */
  function Orphans(comments: seq<Comment>, doc: Doc): (r: seq<string>)
    ensures |comments| == 0 ==> r == []
    ensures |r| <= |comments|
    ensures forall id :: id in r <==> exists i | 0 <= i < |comments| :: comments[i].id == id && IsOrphan(comments[i], doc)
  {
    if |comments| == 0 then []
    else
      var rest := Orphans(comments[1..], doc);
      assert forall i :: 1 <= i < |comments| ==> comments[i] == comments[1..][i - 1];
      (if IsOrphan(comments[0], doc) then [comments[0].id] else []) + rest
  }

  /** The check fires once per orphaned comment: an id is reported as many
      times as there are orphaned comments carrying it, so exactly once when
      ids are unique. */
  lemma {:induction false} OrphanReportedOnce(comments: seq<Comment>, doc: Doc, id: string)
    ensures multiset(Orphans(comments, doc))[id] <= CountId(comments, id)
    ensures CountId(comments, id) == 1 && (exists i | 0 <= i < |comments| :: comments[i].id == id && IsOrphan(comments[i], doc))
            ==> multiset(Orphans(comments, doc))[id] == 1
  {
    if |comments| > 0 {
      OrphanReportedOnce(comments[1..], doc, id);
      var rest := Orphans(comments[1..], doc);
      var head: seq<string> := if IsOrphan(comments[0], doc) then [comments[0].id] else [];
      assert Orphans(comments, doc) == head + rest;
      assert multiset(head + rest) == multiset(head) + multiset(rest);
      if CountId(comments, id) == 1 && exists i | 0 <= i < |comments| :: comments[i].id == id && IsOrphan(comments[i], doc) {
        var i :| 0 <= i < |comments| && comments[i].id == id && IsOrphan(comments[i], doc);
        if comments[0].id == id {
          CountIdZero(comments[1..], id);
          if i > 0 {
            assert comments[1..][i - 1].id == id;
          }
        } else {
          assert comments[1..][i - 1] == comments[i];
          assert CountId(comments[1..], id) == 1;
        }
      }
    }
  }

  // ---------------------------------------------------------------------------
  // Reconciliation (the effect on `comments`)

  /** A comment the effect tries to anchor: a real quote, and content that is
      not the exact NO_COMMENT sentinel. */
  predicate Anchorable(c: Comment) {
    HasAnchorQuote(c) && !IsNoCommentSentinel(c.content)
  }

  /** An anchorable comment that was not in the previous list and whose mark
      is nowhere in the document. */
  predicate NeedsMark(c: Comment, prev: seq<Comment>, doc: Doc) {
    Anchorable(c) && !HasId(prev, c.id) && !MarkedAnywhere(doc, c.id)
  }

  /** One step of the transaction: add the mark of `id` on offsets
      `[from, to)` of a node, or remove it from a whole node. */
  datatype MarkOp =
    | AddMark(node: nat, from: nat, to: nat, id: string)
    | RemoveMark(node: nat, id: string)

  /** The first occurrence of `q` in each node from `k` on. */
  function NodeAdds(doc: Doc, k: nat, id: string, q: string): (r: seq<MarkOp>)
    requires k <= |doc|
    ensures forall op :: op in r <==>
              && op.AddMark? && op.id == id && k <= op.node < |doc|
              && IndexOf(doc[op.node].text, q) == Some(op.from) && op.to == op.from + |q|
    decreases |doc| - k
  {
    if k == |doc| then []
    else
      var here := match IndexOf(doc[k].text, q)
                  case Some(i) => [AddMark(k, i, i + |q|, id)]
                  case None => [];
      here + NodeAdds(doc, k + 1, id, q)
  }

  /** Step 1: marks for the comments that need one. */
  function AddOps(curr: seq<Comment>, prev: seq<Comment>, doc: Doc): (r: seq<MarkOp>)
    ensures forall op :: op in r <==>
              exists i | 0 <= i < |curr| ::
                && NeedsMark(curr[i], prev, doc)
                && Contains(FullText(doc), curr[i].quote.value)
                && op in NodeAdds(doc, 0, curr[i].id, curr[i].quote.value)
  {
    if |curr| == 0 then []
    else
      var c := curr[0];
      var here := if NeedsMark(c, prev, doc) && Contains(FullText(doc), c.quote.value)
                  then NodeAdds(doc, 0, c.id, c.quote.value) else [];
      assert forall i :: 1 <= i < |curr| ==> curr[i] == curr[1..][i - 1];
      here + AddOps(curr[1..], prev, doc)
  }

  /** Removal of the mark `id` from every node from `k` on that carries it. */
  function NodeRemoves(doc: Doc, k: nat, id: string): (r: seq<MarkOp>)
    requires k <= |doc|
    ensures forall op :: op in r <==> op.RemoveMark? && op.id == id && k <= op.node < |doc| && id in doc[op.node].marks
    decreases |doc| - k
  {
    if k == |doc| then []
    else (if id in doc[k].marks then [RemoveMark(k, id)] else []) + NodeRemoves(doc, k + 1, id)
  }

  /** Step 2: unmark the comments that left the list. */
  function RemoveOps(prev: seq<Comment>, curr: seq<Comment>, doc: Doc): (r: seq<MarkOp>)
    ensures forall op :: op in r <==>
              && op.RemoveMark? && HasId(prev, op.id) && !HasId(curr, op.id)
              && op.node < |doc| && op.id in doc[op.node].marks
  {
    if |prev| == 0 then []
    else
      var p := prev[0];
      assert forall i :: 1 <= i < |prev| ==> prev[i] == prev[1..][i - 1];
      (if !HasId(curr, p.id) then NodeRemoves(doc, 0, p.id) else []) + RemoveOps(prev[1..], curr, doc)
  }

  /** The whole transaction for one run of the effect. */
  function Reconcile(prev: seq<Comment>, curr: seq<Comment>, doc: Doc): seq<MarkOp> {
    AddOps(curr, prev, doc) + RemoveOps(prev, curr, doc)
  }

  /** Every addition comes before every removal, an addition names a
      comment that joined the list and a removal one that left it. */
  lemma ReconcileSteps(prev: seq<Comment>, curr: seq<Comment>, doc: Doc)
    ensures var r := Reconcile(prev, curr, doc);
            forall i, j :: 0 <= i < j < |r| && r[i].RemoveMark? ==> r[j].RemoveMark?
    ensures forall op :: op in Reconcile(prev, curr, doc) && op.AddMark? ==> HasId(curr, op.id) && !HasId(prev, op.id)
    ensures forall op :: op in Reconcile(prev, curr, doc) && op.RemoveMark? ==> HasId(prev, op.id) && !HasId(curr, op.id)
  {
    var adds := AddOps(curr, prev, doc);
    var removes := RemoveOps(prev, curr, doc);
    forall op | op in adds ensures op.AddMark? && HasId(curr, op.id) && !HasId(prev, op.id) {
      var i :| 0 <= i < |curr| && NeedsMark(curr[i], prev, doc) && Contains(FullText(doc), curr[i].quote.value)
               && op in NodeAdds(doc, 0, curr[i].id, curr[i].quote.value);
      assert op.id == curr[i].id;
    }
    assert forall k :: 0 <= k < |adds| ==> adds[k] in adds;
    assert forall k :: 0 <= k < |removes| ==> removes[k] in removes;
  }

  /** A node's own match implies the full-text match, so the full-text gate
      never suppresses a mark that the per-node search would add. */
  lemma {:induction false} NodeMatchInFullText(doc: Doc, k: nat, q: string)
    requires k < |doc| && Contains(doc[k].text, q)
    ensures Contains(FullText(doc), q)
  {
    if k == 0 {
      assert FullText(doc) == doc[0].text + FullText(doc[1..]);
      SliceContains(FullText(doc), 0, |doc[0].text|);
      assert FullText(doc)[..|doc[0].text|] == doc[0].text;
      ContainsTransitive(FullText(doc), doc[0].text, q);
    } else {
      assert doc[1..][k - 1] == doc[k];
      NodeMatchInFullText(doc[1..], k - 1, q);
      var rest := FullText(doc[1..]);
      assert FullText(doc) == doc[0].text + rest;
      assert FullText(doc)[|doc[0].text|..|FullText(doc)|] == rest;
      SliceContains(FullText(doc), |doc[0].text|, |FullText(doc)|);
      ContainsTransitive(FullText(doc), rest, q);
    }
  }

  /** Comment `c` calls for the mark on `[f, t)` of node `k`: it needs a
      mark, and the first occurrence of its quote in the node is there. */
  predicate MarkFor(c: Comment, prev: seq<Comment>, doc: Doc, k: nat, f: nat, t: nat) {
    NeedsMark(c, prev, doc) && k < |doc|
    && IndexOf(doc[k].text, c.quote.value) == Some(f) && t == f + |c.quote.value|
  }

  /** Exactly which marks are added: for a comment needing a mark, in every
      node that contains its quote, the first occurrence of the quote. */
  lemma ReconcileAdds(prev: seq<Comment>, curr: seq<Comment>, doc: Doc, k: nat, f: nat, t: nat, id: string)
    ensures AddMark(k, f, t, id) in Reconcile(prev, curr, doc) <==>
              exists i | 0 <= i < |curr| :: curr[i].id == id && MarkFor(curr[i], prev, doc, k, f, t)
  {
    if exists i | 0 <= i < |curr| :: curr[i].id == id && MarkFor(curr[i], prev, doc, k, f, t) {
      var i :| 0 <= i < |curr| && curr[i].id == id && MarkFor(curr[i], prev, doc, k, f, t);
      NeededMarkAdded(prev, curr, doc, i, k, f);
    }
    if AddMark(k, f, t, id) in Reconcile(prev, curr, doc) {
      AddedMarkHasSource(prev, curr, doc, k, f, t, id);
    }
  }

  lemma AddedMarkHasSource(prev: seq<Comment>, curr: seq<Comment>, doc: Doc, k: nat, f: nat, t: nat, id: string)
    requires AddMark(k, f, t, id) in Reconcile(prev, curr, doc)
    ensures exists i | 0 <= i < |curr| :: curr[i].id == id && MarkFor(curr[i], prev, doc, k, f, t)
  {
    var i := AddOpSource(prev, curr, doc, AddMark(k, f, t, id));
    assert MarkFor(curr[i], prev, doc, k, f, t);
  }

  /** Exactly which marks are removed: those of ids that left the list, on
      every node that carries them. */
  lemma ReconcileRemoves(prev: seq<Comment>, curr: seq<Comment>, doc: Doc, k: nat, id: string)
    ensures RemoveMark(k, id) in Reconcile(prev, curr, doc) <==>
              HasId(prev, id) && !HasId(curr, id) && k < |doc| && id in doc[k].marks
  {
  }

  /** Every added mark covers exactly the quote's text in its node. */
  lemma AddedMarkCoversQuote(prev: seq<Comment>, curr: seq<Comment>, doc: Doc, op: MarkOp)
    requires op in Reconcile(prev, curr, doc) && op.AddMark?
    ensures op.node < |doc| && op.from <= op.to <= |doc[op.node].text|
    ensures exists i | 0 <= i < |curr| ::
              && curr[i].id == op.id && NeedsMark(curr[i], prev, doc)
              && doc[op.node].text[op.from..op.to] == curr[i].quote.value
  {
    var i := AddOpSource(prev, curr, doc, op);
    FirstMatchSlice(doc[op.node].text, curr[i].quote.value, op.from, op.to);
  }

  /** The first match of `q` found by `indexOf`, as a slice. */
  lemma FirstMatchSlice(text: string, q: string, f: nat, t: nat)
    requires IndexOf(text, q) == Some(f) && t == f + |q|
    ensures f <= t <= |text| && text[f..t] == q
  {
  }

  /** The comment an added mark comes from. */
  lemma AddOpSource(prev: seq<Comment>, curr: seq<Comment>, doc: Doc, op: MarkOp) returns (i: nat)
    requires op in Reconcile(prev, curr, doc) && op.AddMark?
    ensures i < |curr| && curr[i].id == op.id && NeedsMark(curr[i], prev, doc) && op.node < |doc|
    ensures IndexOf(doc[op.node].text, curr[i].quote.value) == Some(op.from)
    ensures op.to == op.from + |curr[i].quote.value|
  {
    assert op !in RemoveOps(prev, curr, doc);
    i :| 0 <= i < |curr| && NeedsMark(curr[i], prev, doc)
         && Contains(FullText(doc), curr[i].quote.value)
         && op in NodeAdds(doc, 0, curr[i].id, curr[i].quote.value);
  }

  /** No comment already listed before gets a new mark. */
  lemma {:induction false} NoAddsForListed(curr: seq<Comment>, prev: seq<Comment>, doc: Doc)
    requires forall i :: 0 <= i < |curr| ==> HasId(prev, curr[i].id)
    ensures AddOps(curr, prev, doc) == []
  {
    if |curr| > 0 {
      assert !NeedsMark(curr[0], prev, doc);
      assert forall i :: 1 <= i < |curr| ==> curr[1..][i - 1] == curr[i];
      NoAddsForListed(curr[1..], prev, doc);
    }
  }

  /** No mark is removed while every previous comment is still listed. */
  lemma {:induction false} NoRemovesForKept(prev: seq<Comment>, curr: seq<Comment>, doc: Doc)
    requires forall i :: 0 <= i < |prev| ==> HasId(curr, prev[i].id)
    ensures RemoveOps(prev, curr, doc) == []
  {
    if |prev| > 0 {
      assert forall i :: 1 <= i < |prev| ==> prev[1..][i - 1] == prev[i];
      NoRemovesForKept(prev[1..], curr, doc);
    }
  }

  /** Reconciling against the list already reconciled produces no step. */
  lemma ReconcileIdempotent(comments: seq<Comment>, doc: Doc)
    ensures Reconcile(comments, comments, doc) == []
  {
    forall i | 0 <= i < |comments| ensures HasId(comments, comments[i].id) {
    }
    NoAddsForListed(comments, comments, doc);
    NoRemovesForKept(comments, comments, doc);
  }

  /** Every removal names an id that left the list. */
  lemma RemovedIdsNotCurrent(prev: seq<Comment>, curr: seq<Comment>, doc: Doc, op: MarkOp)
    requires op in Reconcile(prev, curr, doc) && op.RemoveMark?
    ensures !HasId(curr, op.id)
  {
  }

  // ---------------------------------------------------------------------------
  // Applying the transaction

  /** A text node after mark steps: the text and the mark set of each
      character (ProseMirror splits the node into uniformly marked pieces). */
  datatype Styled = Styled(text: string, charMarks: seq<set<string>>)

  /** The document before any step: every character carries its node's marks. */
  function Lift(doc: Doc): (r: seq<Styled>)
    ensures |r| == |doc|
    ensures forall k :: 0 <= k < |doc| ==> r[k].text == doc[k].text && |r[k].charMarks| == |doc[k].text|
    ensures forall k, p :: 0 <= k < |doc| && 0 <= p < |doc[k].text| ==> r[k].charMarks[p] == doc[k].marks
  {
    seq(|doc|, k requires 0 <= k < |doc| =>
      Styled(doc[k].text, seq(|doc[k].text|, p requires 0 <= p < |doc[k].text| => doc[k].marks)))
  }

  /** `tr.addMark` / `tr.removeMark` on one node. */
  function ApplyOp(d: seq<Styled>, op: MarkOp): (r: seq<Styled>)
    ensures |r| == |d|
    ensures forall k :: 0 <= k < |d| ==> r[k].text == d[k].text && |r[k].charMarks| == |d[k].charMarks|
  {
    if op.node >= |d| then d
    else
      var n := d[op.node];
      var cm := match op
        case AddMark(_, f, t, id) =>
          seq(|n.charMarks|, p requires 0 <= p < |n.charMarks| => if f <= p < t then n.charMarks[p] + {id} else n.charMarks[p])
        case RemoveMark(_, id) =>
          seq(|n.charMarks|, p requires 0 <= p < |n.charMarks| => n.charMarks[p] - {id});
      d[op.node := n.(charMarks := cm)]
  }

  /** The transaction, step after step. */
  function ApplyOps(d: seq<Styled>, ops: seq<MarkOp>): (r: seq<Styled>)
    ensures |r| == |d|
    ensures forall k :: 0 <= k < |d| ==> r[k].text == d[k].text && |r[k].charMarks| == |d[k].charMarks|
    decreases |ops|
  {
    if |ops| == 0 then d else ApplyOps(ApplyOp(d, ops[0]), ops[1..])
  }

  /** The mark set of character `p` of node `k` (empty outside the document). */
  function MarksAt(d: seq<Styled>, k: int, p: int): set<string> {
    if 0 <= k < |d| && 0 <= p < |d[k].charMarks| then d[k].charMarks[p] else {}
  }

  /** A step that does not name `x` leaves `x` where it was. */
  lemma OtherOpKeeps(d: seq<Styled>, op: MarkOp, x: string, k: int, p: int)
    requires op.id != x
    ensures x in MarksAt(ApplyOp(d, op), k, p) <==> x in MarksAt(d, k, p)
  {
  }

  /** Steps that never name `x` leave it everywhere as it was. */
  lemma {:induction false} UnnamedIdUnchanged(d: seq<Styled>, ops: seq<MarkOp>, x: string, k: int, p: int)
    requires forall op :: op in ops ==> op.id != x
    ensures x in MarksAt(ApplyOps(d, ops), k, p) <==> x in MarksAt(d, k, p)
    decreases |ops|
  {
    if |ops| > 0 {
      OtherOpKeeps(d, ops[0], x, k, p);
      UnnamedIdUnchanged(ApplyOp(d, ops[0]), ops[1..], x, k, p);
    }
  }

  /** Steps that never add `x` never put it anywhere new. */
  lemma {:induction false} NoAddNoGain(d: seq<Styled>, ops: seq<MarkOp>, x: string, k: int, p: int)
    requires forall op :: op in ops && op.AddMark? ==> op.id != x
    ensures x in MarksAt(ApplyOps(d, ops), k, p) ==> x in MarksAt(d, k, p)
    decreases |ops|
  {
    if |ops| > 0 {
      NoAddNoGain(ApplyOp(d, ops[0]), ops[1..], x, k, p);
    }
  }

  /** Steps that never remove `x` never take it away. */
  lemma {:induction false} NoRemoveNoLoss(d: seq<Styled>, ops: seq<MarkOp>, x: string, k: int, p: int)
    requires forall op :: op in ops && op.RemoveMark? ==> op.id != x
    ensures x in MarksAt(d, k, p) ==> x in MarksAt(ApplyOps(d, ops), k, p)
    decreases |ops|
  {
    if |ops| > 0 {
      NoRemoveNoLoss(ApplyOp(d, ops[0]), ops[1..], x, k, p);
    }
  }

  /** With no later step adding `x`, removing `x` from node `k` clears it
      from every character of that node. */
  lemma {:induction false} RemovedStaysRemoved(d: seq<Styled>, ops: seq<MarkOp>, x: string, k: nat, p: int)
    requires RemoveMark(k, x) in ops
    requires forall op :: op in ops && op.AddMark? ==> op.id != x
    ensures x !in MarksAt(ApplyOps(d, ops), k, p)
    decreases |ops|
  {
    if ops[0] == RemoveMark(k, x) {
      assert x !in MarksAt(ApplyOp(d, ops[0]), k, p);
      NoAddNoGain(ApplyOp(d, ops[0]), ops[1..], x, k, p);
    } else {
      RemovedStaysRemoved(ApplyOp(d, ops[0]), ops[1..], x, k, p);
    }
  }

  /** With no step removing `x`, an added mark of `x` stays on its range. */
  lemma {:induction false} AddedStaysAdded(d: seq<Styled>, ops: seq<MarkOp>, k: int, f: int, t: int, x: string, p: int)
    requires 0 <= k < |d| && 0 <= f <= p < t && t <= |d[k].charMarks|
    requires AddMark(k, f, t, x) in ops
    requires forall op :: op in ops && op.RemoveMark? ==> op.id != x
    ensures x in MarksAt(ApplyOps(d, ops), k, p)
    decreases |ops|
  {
    if ops[0] == AddMark(k, f, t, x) {
      assert x in MarksAt(ApplyOp(d, ops[0]), k, p);
      NoRemoveNoLoss(ApplyOp(d, ops[0]), ops[1..], x, k, p);
    } else {
      AddedStaysAdded(ApplyOp(d, ops[0]), ops[1..], k, f, t, x, p);
    }
  }

  /** The document after the effect's transaction. */
  function AfterReconcile(prev: seq<Comment>, curr: seq<Comment>, doc: Doc): (r: seq<Styled>)
    ensures |r| == |doc|
    ensures forall k :: 0 <= k < |doc| ==> r[k].text == doc[k].text && |r[k].charMarks| == |doc[k].text|
  {
    ApplyOps(Lift(doc), Reconcile(prev, curr, doc))
  }

  /** Every id added by the transaction belongs to a current comment. */
  lemma AddedIdsAreCurrent(prev: seq<Comment>, curr: seq<Comment>, doc: Doc, op: MarkOp)
    requires op in Reconcile(prev, curr, doc) && op.AddMark?
    ensures HasId(curr, op.id)
  {
    var i :| 0 <= i < |curr| && NeedsMark(curr[i], prev, doc)
             && Contains(FullText(doc), curr[i].quote.value)
             && op in NodeAdds(doc, 0, curr[i].id, curr[i].quote.value);
  }

  /** After the effect, a comment that left the list has no mark anywhere. */
  lemma RemovedCommentUnmarked(prev: seq<Comment>, curr: seq<Comment>, doc: Doc, x: string, k: int, p: int)
    requires HasId(prev, x) && !HasId(curr, x)
    ensures x !in MarksAt(AfterReconcile(prev, curr, doc), k, p)
  {
    var ops := Reconcile(prev, curr, doc);
    forall op | op in ops && op.AddMark? ensures op.id != x {
      AddedIdsAreCurrent(prev, curr, doc, op);
    }
    if 0 <= k < |doc| && x in doc[k].marks {
      assert RemoveMark(k, x) in RemoveOps(prev, curr, doc);
      RemovedStaysRemoved(Lift(doc), ops, x, k, p);
    } else {
      NoAddNoGain(Lift(doc), ops, x, k, p);
    }
  }

  /** After the effect, the quote of a comment that needed a mark is marked
      with its id in every node where the quote occurs. */
  lemma NewCommentMarked(prev: seq<Comment>, curr: seq<Comment>, doc: Doc, i: nat, k: nat, f: nat, p: nat)
    requires i < |curr| && NeedsMark(curr[i], prev, doc)
    requires k < |doc| && IndexOf(doc[k].text, curr[i].quote.value) == Some(f)
    requires f <= p < f + |curr[i].quote.value|
    ensures curr[i].id in MarksAt(AfterReconcile(prev, curr, doc), k, p)
  {
    var q := curr[i].quote.value;
    NeededMarkAdded(prev, curr, doc, i, k, f);
    CurrentIdNotRemoved(prev, curr, doc, i);
    AddedStaysAdded(Lift(doc), Reconcile(prev, curr, doc), k, f, f + |q|, curr[i].id, p);
  }

  /** A comment that needs a mark gets one on the first match of its quote
      in each node where it occurs. */
  lemma NeededMarkAdded(prev: seq<Comment>, curr: seq<Comment>, doc: Doc, i: nat, k: nat, f: nat)
    requires i < |curr| && NeedsMark(curr[i], prev, doc)
    requires k < |doc| && IndexOf(doc[k].text, curr[i].quote.value) == Some(f)
    ensures f + |curr[i].quote.value| <= |doc[k].text|
    ensures AddMark(k, f, f + |curr[i].quote.value|, curr[i].id) in Reconcile(prev, curr, doc)
  {
    var q := curr[i].quote.value;
    var op := AddMark(k, f, f + |q|, curr[i].id);
    NodeMatchInFullText(doc, k, q);
    assert op in NodeAdds(doc, 0, curr[i].id, q);
    InAddOps(prev, curr, doc, i, op);
  }

  lemma InAddOps(prev: seq<Comment>, curr: seq<Comment>, doc: Doc, i: nat, op: MarkOp)
    requires i < |curr| && NeedsMark(curr[i], prev, doc) && Contains(FullText(doc), curr[i].quote.value)
    requires op in NodeAdds(doc, 0, curr[i].id, curr[i].quote.value)
    ensures op in Reconcile(prev, curr, doc)
  {
    assert op in AddOps(curr, prev, doc);
  }

  /** No removal step names the id of a listed comment. */
  lemma CurrentIdNotRemoved(prev: seq<Comment>, curr: seq<Comment>, doc: Doc, i: nat)
    requires i < |curr|
    ensures forall op :: op in Reconcile(prev, curr, doc) && op.RemoveMark? ==> op.id != curr[i].id
  {
    assert HasId(curr, curr[i].id);
    forall op | op in Reconcile(prev, curr, doc) && op.RemoveMark? ensures op.id != curr[i].id {
      RemovedIdsNotCurrent(prev, curr, doc, op);
    }
  }

  /** The effect leaves alone every id it neither adds nor removes: ids of
      comments that stay, or were never listed, and that need no new mark. */
  lemma UntouchedIdKept(prev: seq<Comment>, curr: seq<Comment>, doc: Doc, x: string, k: int, p: int)
    requires HasId(prev, x) ==> HasId(curr, x)
    requires forall i :: 0 <= i < |curr| && curr[i].id == x ==> !NeedsMark(curr[i], prev, doc)
    ensures x in MarksAt(AfterReconcile(prev, curr, doc), k, p) <==> x in MarksAt(Lift(doc), k, p)
  {
    var ops := Reconcile(prev, curr, doc);
    forall op | op in ops ensures op.id != x {
      if op.AddMark? {
        var i :| 0 <= i < |curr| && NeedsMark(curr[i], prev, doc)
                 && Contains(FullText(doc), curr[i].quote.value)
                 && op in NodeAdds(doc, 0, curr[i].id, curr[i].quote.value);
      } else {
        assert op in RemoveOps(prev, curr, doc);
      }
    }
    UnnamedIdUnchanged(Lift(doc), ops, x, k, p);
  }
}

=== FILE: articles.dfy ===
/** The article service (`backend/src/services/article.py`): listing a
    user's articles with search, ordering and paging, fetching, updating,
    soft-deleting and reordering them. The table is a sequence of rows;
    `.first()` is the first match in that sequence. */
module Articles {
  import opened Wrappers
  import opened Json
  import opened Text
  import opened Seqs

  /** A row of the `articles` table; times are milliseconds. `content` is
      the editor's JSON document. */
  datatype Article = Article(
    id: string,
    userId: string,
    title: string,
    content: Value,
    position: int,
    updatedAt: int,
    lastScannedAt: Option<int>,
    isDeleted: bool)

  /** Ids are primary keys. */
  predicate UniqueIds(store: seq<Article>) {
    forall i, j :: 0 <= i < j < |store| ==> store[i].id != store[j].id
  }

  // ---------------------------------------------------------------------------
  // Listing

  /** `Article.title.ilike('%search%')`: the search text occurs in the
      title, ignoring the case of ASCII letters. */
  predicate TitleMatches(title: string, search: string) {
    Contains(ToLower(title), ToLower(search))
  }

  /** A row `get_articles` returns for this user and search text; an empty
      search text filters nothing (`if search:`). */
  predicate Listed(a: Article, userId: string, search: string) {
    a.userId == userId && !a.isDeleted && (search == "" || TitleMatches(a.title, search))
  }

  /** `order_by(position.asc(), updated_at.desc())`. */
  function ListKey(a: Article): Key {
    (a.position, -a.updatedAt)
  }

  /** The test `Listed` for one user and search text. */
  function ListedBy(userId: string, search: string): Article -> bool {
    (a: Article) => Listed(a, userId, search)
  }

  /** The user's listed rows, in listing order. */
  function ListAll(store: seq<Article>, userId: string, search: string): (r: seq<Article>)
    ensures forall a :: a in r <==> a in store && Listed(a, userId, search)
    ensures multiset(r) == multiset(Filter(store, ListedBy(userId, search)))
    ensures SortedBy(r, ListKey)
    ensures forall i, j :: 0 <= i < j < |r| ==>
              r[i].position < r[j].position || (r[i].position == r[j].position && r[i].updatedAt >= r[j].updatedAt)
  {
    var kept := Filter(store, ListedBy(userId, search));
    assert forall a :: a in kept <==> a in store && Listed(a, userId, search);
    SortByMembers(kept, ListKey);
    var r := SortBy(kept, ListKey);
    assert forall i, j :: 0 <= i < j < |r| ==> KeyLe(ListKey(r[i]), ListKey(r[j]));
    r
  }

  /** Each listed row occurs in the listing as often as in the store, and
      no other row occurs. */
  lemma ListAllCount(store: seq<Article>, userId: string, search: string, a: Article)
    ensures multiset(ListAll(store, userId, search))[a] == if Listed(a, userId, search) then multiset(store)[a] else 0
  {
    FilterCount(store, ListedBy(userId, search), a);
  }

  /** `.offset(skip).limit(limit)`: the run of at most `limit` rows starting
      at `skip`, empty past the end. */
  function Page(s: seq<Article>, skip: nat, limit: nat): (r: seq<Article>)
    ensures |r| <= limit
    ensures skip >= |s| ==> r == []
    ensures skip < |s| ==> |r| == if skip + limit <= |s| then limit else |s| - skip
    ensures forall i :: 0 <= i < |r| ==> skip + i < |s| && r[i] == s[skip + i]
  {
    if skip >= |s| then []
    else if skip + limit <= |s| then s[skip..skip + limit]
    else s[skip..]
  }

  /** `get_articles(user, skip, limit, search)`: at most `limit` of the
      caller's listed rows, in listing order, none once `skip` passes the
      listing's end. */
  function GetArticles(store: seq<Article>, userId: string, skip: nat, limit: nat, search: string): (r: seq<Article>)
    ensures |r| <= limit
    ensures forall i :: 0 <= i < |r| ==> r[i] in store && Listed(r[i], userId, search)
    ensures SortedBy(r, ListKey)
    ensures skip >= |ListAll(store, userId, search)| ==> r == []
  {
    var s := ListAll(store, userId, search);
    var r := Page(s, skip, limit);
    assert forall i :: 0 <= i < |r| ==> r[i] in s by {
      forall i | 0 <= i < |r| ensures r[i] in s {
        assert r[i] == s[skip + i];
      }
    }
    assert forall i, j :: 0 <= i < j < |r| ==> KeyLe(ListKey(r[i]), ListKey(r[j])) by {
      forall i, j | 0 <= i < j < |r| ensures KeyLe(ListKey(r[i]), ListKey(r[j])) {
        assert r[i] == s[skip + i] && r[j] == s[skip + j];
      }
    }
    r
  }

  /** Paging splits the listing without loss or overlap: two consecutive
      pages are the listing's next rows. */
  lemma PagesAreConsecutive(store: seq<Article>, userId: string, skip: nat, limit: nat, search: string)
    ensures GetArticles(store, userId, skip, limit, search) + GetArticles(store, userId, skip + limit, limit, search)
            == GetArticles(store, userId, skip, limit + limit, search)
  {
    var s := ListAll(store, userId, search);
    var a := Page(s, skip, limit);
    var b := Page(s, skip + limit, limit);
    var c := Page(s, skip, limit + limit);
    assert |a + b| == |c|;
    forall i | 0 <= i < |c| ensures (a + b)[i] == c[i] {
      if i >= |a| {
        assert b[i - |a|] == s[skip + limit + (i - |a|)];
      }
    }
  }

  // ---------------------------------------------------------------------------
  // Fetching, updating, deleting

  /** Index of the first live row with this id owned by the user. */
  function FindLive(store: seq<Article>, id: string, userId: string): (r: Option<nat>)
    ensures r.Some? ==> r.value < |store| && store[r.value].id == id
                        && store[r.value].userId == userId && !store[r.value].isDeleted
    ensures r.None? <==> forall i :: 0 <= i < |store| ==>
                           !(store[i].id == id && store[i].userId == userId && !store[i].isDeleted)
  {
    if |store| == 0 then None
    else if store[0].id == id && store[0].userId == userId && !store[0].isDeleted then Some(0)
    else
      match FindLive(store[1..], id, userId)
      case None => None
      case Some(i) => Some(i + 1)
  }

  /** `get_article(id, user)`: the user's row with this id unless deleted. */
  function GetArticle(store: seq<Article>, id: string, userId: string): (r: Option<Article>)
    ensures r.Some? ==> r.value in store && r.value.id == id && r.value.userId == userId && !r.value.isDeleted
    ensures r.None? <==> forall a :: a in store ==> !(a.id == id && a.userId == userId && !a.isDeleted)
  {
    match FindLive(store, id, userId)
    case None => None
    case Some(i) => Some(store[i])
  }

  /** The fields of an `ArticleUpdate` the client set (`exclude_unset`). */
  datatype ArticleUpdate = ArticleUpdate(title: Option<string>, content: Option<Value>)

  /** The set fields written onto a row; `updatedAt` moves to `now` when
      a field actually changed. */
  function ApplyUpdate(a: Article, u: ArticleUpdate, now: int): (b: Article)
    ensures b.title == u.title.GetOr(a.title) && b.content == u.content.GetOr(a.content)
    ensures b.(title := a.title, content := a.content, updatedAt := a.updatedAt) == a
    ensures b.updatedAt == a.updatedAt || b.updatedAt == now
    ensures b.title == a.title && b.content == a.content ==> b == a
  {
    var b := a.(title := u.title.GetOr(a.title), content := u.content.GetOr(a.content));
    if b == a then a else b.(updatedAt := now)
  }

  /** `update_article`: `None` unless the user has a live row with this id;
      otherwise that row alone is updated. */
  function UpdateArticle(store: seq<Article>, id: string, userId: string, u: ArticleUpdate, now: int)
    : (r: Option<(seq<Article>, Article)>)
    ensures r.None? <==> GetArticle(store, id, userId).None?
    ensures r.Some? ==> |r.value.0| == |store| && exists i | 0 <= i < |store| ::
              store[i] == GetArticle(store, id, userId).value
              && r.value.1 == ApplyUpdate(store[i], u, now) && r.value.0[i] == r.value.1
              && forall j :: 0 <= j < |store| && j != i ==> r.value.0[j] == store[j]
  {
    match FindLive(store, id, userId)
    case None => None
    case Some(i) =>
      var b := ApplyUpdate(store[i], u, now);
      Some((store[i := b], b))
  }

  /** Applying the same update twice at the same time is applying it once. */
  lemma ApplyUpdateIdempotent(a: Article, u: ArticleUpdate, now: int)
    ensures ApplyUpdate(ApplyUpdate(a, u, now), u, now) == ApplyUpdate(a, u, now)
  {
  }

  /** After an update the article reads back as the updated row, and
      repeating the update at the same time changes nothing more. */
  lemma UpdateThenGet(store: seq<Article>, id: string, userId: string, u: ArticleUpdate, now: int)
    requires UpdateArticle(store, id, userId, u, now).Some?
    ensures var r := UpdateArticle(store, id, userId, u, now).value;
            && GetArticle(r.0, id, userId) == Some(r.1)
            && UpdateArticle(r.0, id, userId, u, now) == Some(r)
  {
    var i := FindLive(store, id, userId).value;
    var r := UpdateArticle(store, id, userId, u, now).value;
    FindLiveAfterWrite(store, id, userId, i, r.1);
    ApplyUpdateIdempotent(store[i], u, now);
    assert r.0[i := r.1] == r.0;
  }

  /** Rewriting the found row with one that is still live and has the same
      id and owner leaves it the found row. */
  lemma {:induction false} FindLiveAfterWrite(store: seq<Article>, id: string, userId: string, i: nat, b: Article)
    requires FindLive(store, id, userId) == Some(i)
    requires b.id == id && b.userId == userId && !b.isDeleted
    ensures FindLive(store[i := b], id, userId) == Some(i)
  {
    if i > 0 {
      assert store[i := b][1..] == store[1..][i - 1 := b];
      FindLiveAfterWrite(store[1..], id, userId, i - 1, b);
    }
  }

  /** `delete_article`: a soft delete. `None` unless the user has a live row
      with this id; otherwise that row is flagged deleted, and kept. */
  function DeleteArticle(store: seq<Article>, id: string, userId: string, now: int)
    : (r: Option<(seq<Article>, Article)>)
    ensures r.None? <==> GetArticle(store, id, userId).None?
    ensures r.Some? ==> |r.value.0| == |store| && exists i | 0 <= i < |store| ::
              store[i] == GetArticle(store, id, userId).value
              && r.value.1 == store[i].(isDeleted := true, updatedAt := now) && r.value.0[i] == r.value.1
              && forall j :: 0 <= j < |store| && j != i ==> r.value.0[j] == store[j]
  {
    match FindLive(store, id, userId)
    case None => None
    case Some(i) =>
      var b := store[i].(isDeleted := true, updatedAt := now);
      Some((store[i := b], b))
  }

  /** Once deleted, an article can no longer be fetched or listed, while
      every other article is fetched as before. */
  lemma DeletedIsGone(store: seq<Article>, id: string, userId: string, now: int, other: string, search: string)
    requires UniqueIds(store)
    requires DeleteArticle(store, id, userId, now).Some?
    ensures var after := DeleteArticle(store, id, userId, now).value.0;
            GetArticle(after, id, userId).None?
            && (other != id ==> GetArticle(after, other, userId) == GetArticle(store, other, userId))
            && forall a :: a in ListAll(after, userId, search) ==> a.id != id
  {
    var after := DeleteArticle(store, id, userId, now).value.0;
    var i :| 0 <= i < |store| && store[i] == GetArticle(store, id, userId).value
             && after[i] == store[i].(isDeleted := true, updatedAt := now)
             && forall j :: 0 <= j < |store| && j != i ==> after[j] == store[j];
    assert forall j :: 0 <= j < |after| && j != i ==> after[j].id != id;
    if other != id {
      assert FindLive(after, other, userId) == FindLive(store, other, userId) by {
        FindLiveSame(store, after, other, userId, i);
      }
    }
  }

  /** Rows that differ only at an index whose id is not `id` give the same
      lookup of `id`. */
  lemma {:induction false} FindLiveSame(a: seq<Article>, b: seq<Article>, id: string, userId: string, i: nat)
    requires |a| == |b| && i < |a|
    requires forall j :: 0 <= j < |a| && j != i ==> a[j] == b[j]
    requires a[i].id != id && b[i].id != id
    ensures FindLive(a, id, userId) == FindLive(b, id, userId)
  {
    if |a| > 0 && i > 0 {
      FindLiveSame(a[1..], b[1..], id, userId, i - 1);
    } else if |a| > 0 {
      assert forall j :: 0 <= j < |a| - 1 ==> a[1..][j] == b[1..][j];
      assert a[1..] == b[1..];
    }
  }

  // ---------------------------------------------------------------------------
  // Reordering

  /** One step of `reorder_articles`: every row of the user with this id
      gets the position. Only the position is written. */
  function SetPosition(store: seq<Article>, userId: string, id: string, pos: int): (r: seq<Article>)
    ensures |r| == |store|
    ensures forall j :: 0 <= j < |store| ==> r[j] == if store[j].id == id && store[j].userId == userId
                                                      then store[j].(position := pos) else store[j]
  {
    seq(|store|, j requires 0 <= j < |store| =>
      if store[j].id == id && store[j].userId == userId then store[j].(position := pos) else store[j])
  }

  /** The first `n` steps of the loop over `enumerate(article_ids)`. */
  function ReorderSteps(store: seq<Article>, userId: string, ids: seq<string>, n: nat): (r: seq<Article>)
    requires n <= |ids|
    ensures |r| == |store|
  {
    if n == 0 then store
    else SetPosition(ReorderSteps(store, userId, ids, n - 1), userId, ids[n - 1], n - 1)
  }

  /** `reorder_articles(user, ids)`: each of the user's rows whose id is
      listed takes the last index it is listed at as its position; nothing
      else changes. */
  function Reorder(store: seq<Article>, userId: string, ids: seq<string>): (r: seq<Article>)
    ensures |r| == |store|
    ensures forall j :: 0 <= j < |store| ==> r[j] == store[j].(position := PositionAfter(store[j], userId, ids, |ids|))
  {
    forall j | 0 <= j < |store|
      ensures ReorderSteps(store, userId, ids, |ids|)[j] == store[j].(position := PositionAfter(store[j], userId, ids, |ids|))
    {
      ReorderStepsPositions(store, userId, ids, |ids|, j);
    }
    ReorderSteps(store, userId, ids, |ids|)
  }

  /** The last index below `n` at which `id` is listed. */
  function LastIndexBelow(ids: seq<string>, id: string, n: nat): (r: Option<nat>)
    requires n <= |ids|
    ensures r.Some? ==> r.value < n && ids[r.value] == id && forall k :: r.value < k < n ==> ids[k] != id
    ensures r.None? <==> forall k :: 0 <= k < n ==> ids[k] != id
  {
    if n == 0 then None
    else if ids[n - 1] == id then Some(n - 1)
    else LastIndexBelow(ids, id, n - 1)
  }

  /** The position a row ends up with: the last index of its id in the list
      when it belongs to the user, otherwise the one it had. */
  function PositionAfter(a: Article, userId: string, ids: seq<string>, n: nat): int
    requires n <= |ids|
  {
    if a.userId == userId then
      match LastIndexBelow(ids, a.id, n)
      case Some(k) => k
      case None => a.position
    else a.position
  }

  /** The loop writes each row's position once per listing of its id, so
      the last listing wins; no other field, and no other user's row, is
      touched. */
  lemma {:induction false} ReorderStepsPositions(store: seq<Article>, userId: string, ids: seq<string>, n: nat, j: nat)
    requires n <= |ids| && j < |store|
    ensures ReorderSteps(store, userId, ids, n)[j] == store[j].(position := PositionAfter(store[j], userId, ids, n))
  {
    if n > 0 {
      ReorderStepsPositions(store, userId, ids, n - 1, j);
    }
  }

  /** After a reorder the user's articles are listed in the order of the
      list sent: an article whose id was sent at a later index than
      another's comes after it. */
  lemma ListingFollowsReorder(store: seq<Article>, userId: string, ids: seq<string>, search: string,
                              p: nat, q: nat, i: nat, j: nat)
    requires var l := ListAll(Reorder(store, userId, ids), userId, search);
             p < |l| && q < |l| && i < j < |ids| && ids[i] == l[p].id && ids[j] == l[q].id
             && LastIndexBelow(ids, l[p].id, |ids|) == Some(i) && LastIndexBelow(ids, l[q].id, |ids|) == Some(j)
    ensures p < q
  {
    var l := ListAll(Reorder(store, userId, ids), userId, search);
    ReorderedPosition(store, userId, ids, l[p], i);
    ReorderedPosition(store, userId, ids, l[q], j);
  }

  /** A row of the user after a reorder sits at the last index its id was
      sent at. */
  lemma ReorderedPosition(store: seq<Article>, userId: string, ids: seq<string>, a: Article, k: nat)
    requires a in Reorder(store, userId, ids) && a.userId == userId
    requires LastIndexBelow(ids, a.id, |ids|) == Some(k)
    ensures a.position == k
  {
    var after := Reorder(store, userId, ids);
    var ja :| 0 <= ja < |after| && after[ja] == a;
    ReorderStepsPositions(store, userId, ids, |ids|, ja);
  }

  /** One step of `reorder_articles` as the statement actually runs: an
      UPDATE issued through the ORM also writes the column's `onupdate`
      default, so every row it matches gets `updatedAt := now` as well. */
  function SetPositionAsWritten(store: seq<Article>, userId: string, id: string, pos: int, now: int): (r: seq<Article>)
    ensures |r| == |store|
    ensures forall j :: 0 <= j < |store| ==> r[j] == if store[j].id == id && store[j].userId == userId
                                                      then store[j].(position := pos, updatedAt := now) else store[j]
  {
    seq(|store|, j requires 0 <= j < |store| =>
      if store[j].id == id && store[j].userId == userId then store[j].(position := pos, updatedAt := now) else store[j])
  }

  /** The reorder loop as written. */
  function ReorderAsWritten(store: seq<Article>, userId: string, ids: seq<string>, n: nat, now: int): (r: seq<Article>)
    requires n <= |ids|
    ensures |r| == |store|
    ensures forall j :: 0 <= j < |store| ==> r[j].id == store[j].id && r[j].userId == store[j].userId
    ensures forall j :: 0 <= j < |store| && store[j].userId != userId ==> r[j] == store[j]
  {
    if n == 0 then store
    else SetPositionAsWritten(ReorderAsWritten(store, userId, ids, n - 1, now), userId, ids[n - 1], n - 1, now)
  }

  /** The loop as written sets the intended positions, and also stamps
      `updatedAt` on every row of the user it reordered. */
  lemma {:induction false} ReorderAsWrittenStamps(store: seq<Article>, userId: string, ids: seq<string>, n: nat, now: int, j: nat)
    requires n <= |ids| && j < |store|
    ensures var a := ReorderAsWritten(store, userId, ids, n, now)[j];
            a.id == store[j].id && a.userId == store[j].userId
            && a.position == ReorderSteps(store, userId, ids, n)[j].position
            && a.updatedAt == if store[j].userId == userId && LastIndexBelow(ids, store[j].id, n).Some?
                              then now else store[j].updatedAt
  {
    if n > 0 {
      ReorderAsWrittenStamps(store, userId, ids, n - 1, now, j);
      ReorderStepsPositions(store, userId, ids, n, j);
      ReorderStepsPositions(store, userId, ids, n - 1, j);
    }
  }
}

=== FILE: calendar.dfy ===
/** Events on the calendar (`components/Calendar.tsx`): which events a day
    shows in the month and week views, how the month cell truncates its
    list, the hour labels of the week grid, and how a timed event is clipped
    to the day it is drawn in. Times are epoch milliseconds; a calendar day
    is the interval `[dayStart, dayStart + DayMs)` that `startOfDay` and
    `addDays(_, 1)` produce, so daylight-saving days are not modelled. */
module Calendar {
  import opened Wrappers
  import opened Text
  import opened Seqs

  const DayMs: int := 86400000

  /** An event with the fields the layout reads. */
  datatype Event = Event(id: int, start: int, end: int, allDay: bool)

  /** Half-open interval membership `lo <= t < hi`. */
  predicate InSpan(lo: int, hi: int, t: int) {
    lo <= t < hi
  }

  /** The overlap test both views apply: the event ends after the day starts
      and starts before the next day. */
  predicate OverlapsDay(e: Event, dayStart: int) {
    e.end > dayStart && e.start < dayStart + DayMs
  }

  /** For an event that does not end before it starts, the overlap test
      holds exactly when the event and the day share an instant. */
  lemma OverlapsDayShared(e: Event, dayStart: int)
    requires e.start < e.end
    ensures OverlapsDay(e, dayStart) <==> exists t :: InSpan(e.start, e.end, t) && InSpan(dayStart, dayStart + DayMs, t)
  {
    if OverlapsDay(e, dayStart) {
      var t := if e.start < dayStart then dayStart else e.start;
      assert InSpan(e.start, e.end, t) && InSpan(dayStart, dayStart + DayMs, t);
    }
  }

  // ---------------------------------------------------------------------------
  // Which events a day shows

  /** The month view's `dayEvents`: every event overlapping the day, in the
      order of the event list. */
  function MonthDayEvents(events: seq<Event>, dayStart: int): (r: seq<Event>)
    ensures forall e :: e in r <==> e in events && OverlapsDay(e, dayStart)
  {
    Filter(events, (e: Event) => OverlapsDay(e, dayStart))
  }

  /** The week view's `dayEvents`: the timed (not all-day) events
      overlapping the day. */
  function WeekDayEvents(events: seq<Event>, dayStart: int): (r: seq<Event>)
    ensures forall e :: e in r <==> e in events && !e.allDay && OverlapsDay(e, dayStart)
  {
    Filter(events, (e: Event) => !e.allDay && OverlapsDay(e, dayStart))
  }

  /** The week grid draws the all-day events and the timed events apart:
      a day's month list splits into the week's timed list and its all-day
      events, in the same order. */
  lemma {:induction false} WeekIsMonthWithoutAllDay(events: seq<Event>, dayStart: int)
    ensures WeekDayEvents(events, dayStart) == Filter(MonthDayEvents(events, dayStart), (e: Event) => !e.allDay)
  {
    if |events| > 0 {
      assert events == [events[0]] + events[1..];
      WeekIsMonthWithoutAllDay(events[1..], dayStart);
      FilterDistributes(if OverlapsDay(events[0], dayStart) then [events[0]] else [],
                        MonthDayEvents(events[1..], dayStart), (e: Event) => !e.allDay);
    }
  }

  /** The local calendar day of an instant, for a time-zone offset in
      milliseconds (`isSameDay` compares these). */
  function LocalDay(t: int, offset: int): (d: int)
    ensures d * DayMs <= t + offset < (d + 1) * DayMs
  {
    (t + offset) / DayMs
  }

  /** The all-day row of the week view: all-day events starting on `day`. */
  function AllDayRow(events: seq<Event>, day: int, offset: int): (r: seq<Event>)
    ensures forall e :: e in r <==> e in events && e.allDay && LocalDay(e.start, offset) == day
  {
    Filter(events, (e: Event) => LocalDay(e.start, offset) == day && e.allDay)
  }

  // ---------------------------------------------------------------------------
  // The month cell

  /** The first events listed in a month cell, and how many more there are. */
  datatype Cell = Cell(shown: seq<Event>, more: nat)

  /** `dayEvents.slice(0, 3)` and `dayEvents.length - 3`. */
  function MonthCell(dayEvents: seq<Event>): (r: Cell)
    ensures r.shown <= dayEvents
    ensures |r.shown| + r.more == |dayEvents|
    ensures |r.shown| <= 3 && (r.more > 0 ==> |r.shown| == 3)
  {
    var n := if |dayEvents| < 3 then |dayEvents| else 3;
    Cell(dayEvents[..n], |dayEvents| - n)
  }

  /** The `+N more` link, shown when more than three events fall on the day. */
  function MoreLabel(c: Cell): (s: Option<string>)
    ensures s.Some? <==> c.more > 0
    ensures s.Some? ==> |s.value| > 6 && s.value[0] == '+' && s.value[|s.value| - 5..] == " more"
  {
    if c.more > 0 then Some("+" + NatToString(c.more) + " more") else None
  }

  /** The link names the number of hidden events: reading the digits back
      gives the count, and the shown and hidden events make up the day. */
  lemma MoreLabelCounts(dayEvents: seq<Event>)
    requires |dayEvents| > 3
    ensures var c := MonthCell(dayEvents);
            var s := MoreLabel(c).value;
            && (forall k :: 1 <= k < |s| - 5 ==> '0' <= s[k] <= '9')
            && 3 + DigitsValue(s[1..|s| - 5]) == |dayEvents|
  {
    var c := MonthCell(dayEvents);
    var s := MoreLabel(c).value;
    assert s[1..|s| - 5] == NatToString(c.more);
    NatToStringRoundTrip(c.more);
  }

  // ---------------------------------------------------------------------------
  // Hour labels of the week grid

  /** The label of hour `h` of the day: the twelve-hour clock reading with
      AM for hours before noon. */
  function HourLabel(h: nat): (s: string)
    requires h < 24
    ensures s == NatToString(TwelveHour(h)) + (if h < 12 then " AM" else " PM")
  {
    if h == 0 then TwelveDigits(); "12 AM"
    else if h < 12 then assert TwelveHour(h) == h; NatToString(h) + " AM"
    else if h == 12 then TwelveDigits(); "12 PM"
    else assert TwelveHour(h) == h - 12; NatToString(h - 12) + " PM"
  }

  lemma TwelveDigits()
    ensures NatToString(12) == "12"
  {
    assert NatToString(1) == "1";
  }

  /** The 24 hour labels are pairwise different. */
  lemma HourLabelsDistinct(g: nat, h: nat)
    requires g < 24 && h < 24
    ensures HourLabel(g) == HourLabel(h) ==> g == h
  {
    if HourLabel(g) == HourLabel(h) {
      var sg: string := if g < 12 then " AM" else " PM";
      var sh: string := if h < 12 then " AM" else " PM";
      LabelParts(TwelveHour(g), sg, TwelveHour(h), sh);
      assert sg[1] == sh[1];
      TwelveHourHalf(g, h);
    }
  }

  /** The reading of hour `h` on a twelve-hour clock. */
  function TwelveHour(h: nat): nat {
    if h % 12 == 0 then 12 else h % 12
  }

  /** The clock reading and the half of the day determine the hour. */
  lemma TwelveHourHalf(g: nat, h: nat)
    requires g < 24 && h < 24
    requires TwelveHour(g) == TwelveHour(h) && (g < 12 <==> h < 12)
    ensures g == h
  {
  }

  /** A label is its number followed by a suffix of three characters, so two
      equal labels have equal numbers and equal suffixes. */
  lemma LabelParts(cg: nat, sg: string, ch: nat, sh: string)
    requires |sg| == 3 && |sh| == 3 && NatToString(cg) + sg == NatToString(ch) + sh
    ensures cg == ch && sg == sh
  {
    SplitAtSuffix(NatToString(cg), sg, NatToString(ch), sh);
    NatToStringInjective(cg, ch);
  }

  /** Two strings ending in suffixes of one length are equal only when their
      heads and suffixes are. */
  lemma SplitAtSuffix(d1: string, s1: string, d2: string, s2: string)
    requires |s1| == |s2| && d1 + s1 == d2 + s2
    ensures d1 == d2 && s1 == s2
  {
    var w := d1 + s1;
    assert d1 == w[..|d1|] && d2 == w[..|d2|];
    assert s1 == w[|d1|..] && s2 == w[|d2|..];
  }

  // ---------------------------------------------------------------------------
  // Clipping a timed event to its day

  /** An event as drawn in one day column: its visible start and end. */
  datatype Node = Node(event: Event, start: int, end: int)

  /** The node of `e` in the day starting at `dayStart`: the event's
      interval cut to the day. */
  function Clip(e: Event, dayStart: int): (n: Node)
    ensures n.event == e
    ensures forall t :: InSpan(n.start, n.end, t) <==> InSpan(e.start, e.end, t) && InSpan(dayStart, dayStart + DayMs, t)
    ensures OverlapsDay(e, dayStart) ==> dayStart <= n.start < dayStart + DayMs && dayStart < n.end <= dayStart + DayMs
    ensures OverlapsDay(e, dayStart) && e.start <= e.end ==> n.start <= n.end
  {
    var s := if e.start < dayStart then dayStart else e.start;
    var en := if e.end > dayStart + DayMs then dayStart + DayMs else e.end;
    Node(e, s, en)
  }

  /** The comparator `a.start - b.start || b.end - a.end`: earlier start
      first, and among equal starts the longer node first. */
  function NodeKey(n: Node): Key {
    (n.start, -n.end)
  }

  /** The node of each event, in order. */
  function Clips(evs: seq<Event>, dayStart: int): (r: seq<Node>)
    ensures |r| == |evs|
    ensures forall n :: n in r <==> exists e :: e in evs && n == Clip(e, dayStart)
  {
    var r := seq(|evs|, i requires 0 <= i < |evs| => Clip(evs[i], dayStart));
    forall e | e in evs ensures Clip(e, dayStart) in r {
      var i :| 0 <= i < |evs| && evs[i] == e;
      assert r[i] == Clip(e, dayStart);
    }
    r
  }

  /** The sorted nodes of one day of the week view. */
  function DayNodes(events: seq<Event>, dayStart: int): (r: seq<Node>)
    ensures SortedBy(r, NodeKey)
    ensures forall n :: n in r <==> exists e :: e in WeekDayEvents(events, dayStart) && n == Clip(e, dayStart)
    ensures multiset(r) == multiset(Clips(WeekDayEvents(events, dayStart), dayStart))
    ensures |r| == |WeekDayEvents(events, dayStart)|
  {
    var clipped := Clips(WeekDayEvents(events, dayStart), dayStart);
    SortByMembers(clipped, NodeKey);
    SortBy(clipped, NodeKey)
  }

  /** Every node of a day lies inside the day and, for events that do not
      end before they start, does not end before it starts. */
  lemma DayNodesWellFormed(events: seq<Event>, dayStart: int, n: Node)
    requires forall e :: e in events ==> e.start <= e.end
    requires n in DayNodes(events, dayStart)
    ensures dayStart <= n.start <= n.end <= dayStart + DayMs
  {
    var e :| e in WeekDayEvents(events, dayStart) && n == Clip(e, dayStart);
  }
}

=== FILE: comment_model.dfy ===
/** The comment record as the browser holds it, and the sentinel rules that
    the editor, the sidebar, the dashboard and the API share. */
module CommentModel {
  import opened Wrappers
  import opened Text

  /** One entry of a comment's reply thread; `role` is "user" or "ai". */
  datatype ReplyEntry = ReplyEntry(role: string, content: string, timestamp: int)

  /** A comment in the dashboard's open or resolved list. Placeholders created
      while the model streams have no status and an empty content; records
      returned by the API carry status "active" or "resolved". `content` is
      the empty string where the browser would see it missing. */
  datatype Comment = Comment(
    id: string,
    content: string,
    quote: Option<string>,
    status: Option<string>,
    kind: string,
    isStreaming: bool,
    createdAt: Option<int>,
    reply: seq<ReplyEntry>)

  /** The quote value that means "this comment is not anchored to any text". */
  const NoneQuote: string := "NONE"

  /** The content the model answers with when it has nothing to say. */
  const NoCommentMarker: string := "NO_COMMENT"

  /** The quote is a real anchor: present, non-empty and not the NONE sentinel
      (`comment.quote && comment.quote !== 'NONE'`). */
  predicate HasAnchorQuote(c: Comment) {
    c.quote.Some? && c.quote.value != "" && c.quote.value != NoneQuote
  }

  /** The browser's exact-sentinel test: trimmed content is `NO_COMMENT` or `>> NO_COMMENT`. */
  predicate IsNoCommentSentinel(content: string) {
    JsTrim(content) == NoCommentMarker || JsTrim(content) == ">> " + NoCommentMarker
  }

  /** The broad test used when a response is finalised and when the sidebar
      lists comments: NO_COMMENT anywhere (any ASCII case) or blank content. */
  predicate IsHiddenContent(content: string) {
    Contains(ToUpper(content), NoCommentMarker) || IsBlank(content)
  }

  /** The ten characters of `content` from `i` on, upper-cased letter by
      letter, spell NO_COMMENT. */
  predicate UpperMarkerAt(content: string, i: int) {
    && 0 <= i <= |content| - |NoCommentMarker|
    && forall k :: i <= k < i + |NoCommentMarker| ==> UpperChar(content[k]) == NoCommentMarker[k - i]
  }

  /** Content is hidden exactly when NO_COMMENT appears in it in any mix of
      ASCII cases, or every character is JavaScript white space. */
  lemma HiddenContentIff(content: string)
    ensures IsHiddenContent(content) <==>
              (exists i :: UpperMarkerAt(content, i)) || (forall k :: 0 <= k < |content| ==> IsJsSpace(content[k]))
  {
    JsTrimTrims(content);
    var u := ToUpper(content);
    var m := NoCommentMarker;
    forall i | 0 <= i <= |u| - |m| ensures OccursAt(u, m, i) <==> UpperMarkerAt(content, i) {
      assert forall k :: i <= k < i + |m| ==> u[i..i + |m|][k - i] == u[k];
    }
    if exists i :: UpperMarkerAt(content, i) {
      var i :| UpperMarkerAt(content, i);
      assert OccursAt(u, m, i);
    }
  }

  /** A comment that is neither resolved nor a placeholder-to-be-dropped:
      `c.status !== 'resolved'`. */
  predicate NotResolved(c: Comment) {
    c.status != Some("resolved")
  }

  /** Whether `id` is the id of some entry of `cs`. */
  predicate HasId(cs: seq<Comment>, id: string) {
    exists i | 0 <= i < |cs| :: cs[i].id == id
  }

  /** Content that trims to the exact sentinel is also caught by the broad
      test, so whatever the broad test keeps is never the exact sentinel. */
  lemma ExactSentinelIsHidden(content: string)
    requires IsNoCommentSentinel(content)
    ensures IsHiddenContent(content)
  {
    var t := JsTrim(content);
    assert Contains(content, t);
    var word := NoCommentMarker;
    MarkerIsUpper();
    if t == word {
      assert OccursAt(t, word, 0);
    } else {
      assert t == ">> " + word;
      assert t[3..3 + |word|] == word;
      assert OccursAt(t, word, 3);
    }
    assert Contains(t, word);
    ContainsTransitive(content, t, word);
    UpperKeepsOccurrence(content, word);
  }

  lemma MarkerIsUpper()
    ensures ToUpper(NoCommentMarker) == NoCommentMarker
  {
    var u := ToUpper(NoCommentMarker);
    assert forall k :: 0 <= k < |u| ==> u[k] == NoCommentMarker[k];
  }

  // ---------------------------------------------------------------------------
  // List helpers

  /** Entries of `cs` whose id differs from `id`, in order (`cs.filter(c => c.id !== id)`). */
  function DropId(cs: seq<Comment>, id: string): (r: seq<Comment>)
    ensures |r| <= |cs|
    ensures forall c :: c in r <==> c in cs && c.id != id
    ensures !HasId(r, id)
    ensures !HasId(cs, id) ==> r == cs
  {
    if |cs| == 0 then []
    else
      var rest := DropId(cs[1..], id);
      assert !HasId(cs, id) ==> !HasId(cs[1..], id) by {
        if HasId(cs[1..], id) {
          var i :| 0 <= i < |cs[1..]| && cs[1..][i].id == id;
          assert cs[i + 1].id == id;
        }
      }
      assert cs == [cs[0]] + cs[1..];
      (if cs[0].id == id then [] else [cs[0]]) + rest
  }

  /** Dropping an id works piece by piece, so the kept entries stay in
      order and keep their repetitions. */
  lemma {:induction false} DropIdDistributes(a: seq<Comment>, b: seq<Comment>, id: string)
    ensures DropId(a + b, id) == DropId(a, id) + DropId(b, id)
  {
    if |a| > 0 {
      var ab := a + b;
      var head := if a[0].id == id then [] else [a[0]];
      assert ab[0] == a[0] && ab[1..] == a[1..] + b;
      DropIdDistributes(a[1..], b, id);
      assert DropId(ab, id) == head + DropId(ab[1..], id);
      assert DropId(a, id) == head + DropId(a[1..], id);
    } else {
      assert a + b == b;
    }
  }

  /** One entry is kept, once, exactly when it has another id. */
  lemma DropIdOne(c: Comment, id: string)
    ensures DropId([c], id) == if c.id == id then [] else [c]
  {
    assert [c][1..] == [];
  }

  /** Number of entries of `cs` with id `id`. */
  function CountId(cs: seq<Comment>, id: string): nat {
    if |cs| == 0 then 0 else (if cs[0].id == id then 1 else 0) + CountId(cs[1..], id)
  }

  /** Dropping an id removes exactly its entries. */
  lemma {:induction false} DropIdCount(cs: seq<Comment>, id: string)
    ensures |DropId(cs, id)| == |cs| - CountId(cs, id)
  {
    if |cs| > 0 {
      DropIdCount(cs[1..], id);
    }
  }

  lemma {:induction false} CountIdPositive(cs: seq<Comment>, id: string)
    requires HasId(cs, id)
    ensures CountId(cs, id) >= 1
  {
    if cs[0].id != id {
      var i :| 0 <= i < |cs| && cs[i].id == id;
      assert cs[1..][i - 1].id == id;
      CountIdPositive(cs[1..], id);
    }
  }

  lemma CountIdZero(cs: seq<Comment>, id: string)
    requires CountId(cs, id) == 0
    ensures !HasId(cs, id)
  {
    if HasId(cs, id) {
      CountIdPositive(cs, id);
    }
  }

  /** First index holding `id` (`cs.find(c => c.id === id)`). */
  function FindById(cs: seq<Comment>, id: string): (r: Option<nat>)
    ensures r.Some? ==> r.value < |cs| && cs[r.value].id == id
    ensures r.Some? ==> forall k :: 0 <= k < r.value ==> cs[k].id != id
    ensures r.None? <==> !HasId(cs, id)
  {
    if |cs| == 0 then None
    else if cs[0].id == id then Some(0)
    else
      match FindById(cs[1..], id)
      case None =>
        assert forall i :: 1 <= i < |cs| ==> cs[i] == cs[1..][i - 1];
        None
      case Some(k) =>
        assert cs[k + 1] == cs[1..][k];
        Some(k + 1)
  }
}

=== FILE: comments_api.dfy ===
/** The comment endpoints of the API (`backend/src/api/comments.py`): creating
    a comment, with the server-side NO_COMMENT backstop, resolving one, and
    replying to one, which appends the user's message and the model's answer
    to the comment's thread. Rows are those of the `comments` table; the
    model's streamed answer is an input. */
module CommentsApi {
  import opened Wrappers
  import opened Json
  import opened Text
  import CommentModel

  type ReplyEntry = CommentModel.ReplyEntry

  const NotFound: int := 404

  /** What the `reply` JSON column may hold: nothing (rows from before the
      column had a default), a string (the old single-reply format), or a
      thread. */
  datatype StoredReply = NoReply | LegacyText(text: string) | Thread(entries: seq<ReplyEntry>)

  /** A row of the `comments` table. */
  datatype Row = Row(
    id: string,
    articleId: string,
    userId: string,
    quote: Option<string>,
    range: Option<Value>,
    content: string,
    kind: string,
    status: string,
    reply: StoredReply,
    createdAt: int)

  /** The body of `POST /comments/`; a `kind` of `None` is a request without
      a `type`, which is stored as a suggestion. */
  datatype CreateRequest = CreateRequest(articleId: string, content: string, quote: Option<string>,
                                         range: Option<Value>, kind: Option<string>)

  /** The `type` of a comment created without one. */
  const DefaultKind: string := "suggestion"

  /** The answer of `POST /comments/`: a skip notice, or the new row. */
  datatype CreateOutcome = Skipped | Created(row: Row)

  // ---------------------------------------------------------------------------
  // Creating

  /** Content the endpoint refuses to store: it strips to `NO_COMMENT` or
      `>> NO_COMMENT`. */
  predicate IsSkippedContent(content: string) {
    PyStrip(content) == ">> " + CommentModel.NoCommentMarker || PyStrip(content) == CommentModel.NoCommentMarker
  }

  /** `create_comment`: `newId` is the row's fresh id and `now` its
      creation time. */
  function CreateComment(rows: seq<Row>, userId: string, req: CreateRequest, newId: string, now: int)
    : (r: (seq<Row>, CreateOutcome))
    ensures r.1.Skipped? <==> IsSkippedContent(req.content)
    ensures r.1.Skipped? ==> r.0 == rows
    ensures r.1.Created? ==>
              && r.0 == rows + [r.1.row]
              && r.1.row.status == "active" && r.1.row.reply == Thread([])
              && r.1.row.userId == userId && r.1.row.articleId == req.articleId
              && r.1.row.content == req.content && r.1.row.quote == req.quote
              && r.1.row.range == req.range && r.1.row.kind == req.kind.GetOr(DefaultKind)
  {
    if IsSkippedContent(req.content) then (rows, Skipped)
    else
      var row := Row(newId, req.articleId, userId, req.quote, req.range, req.content, req.kind.GetOr(DefaultKind), "active", Thread([]), now);
      (rows + [row], Created(row))
  }

  /** The server's skip rule is a backstop: whatever it refuses, the
      browser's broader NO_COMMENT test would already have dropped. */
  lemma SkippedIsHidden(content: string)
    requires IsSkippedContent(content)
    ensures CommentModel.IsHiddenContent(content)
  {
    var t := PyStrip(content);
    var word := CommentModel.NoCommentMarker;
    assert Contains(content, t);
    assert ToUpper(word) == word;
    if t == word {
      assert OccursAt(t, word, 0);
    } else {
      assert t[3..3 + |word|] == word;
      assert OccursAt(t, word, 3);
    }
    ContainsTransitive(content, t, word);
    UpperKeepsOccurrence(content, word);
  }

  /** Surrounding whitespace does not get a sentinel past the endpoint. */
  lemma PaddedSentinelIsSkipped()
    ensures IsSkippedContent("  NO_COMMENT\n")
    ensures !IsSkippedContent("NO_COMMENT here")
  {
    PaddedStrip();
    TrimmedIsFixed("NO_COMMENT here", IsPySpace);
  }

  lemma PaddedStrip()
    ensures PyStrip("  NO_COMMENT\n") == "NO_COMMENT"
  {
    var s := "  NO_COMMENT\n";
    assert CutsSpaces(s, 2, 12, IsPySpace);
    TrimUnique(s, IsPySpace, 2, 12);
    assert s[2..12] == "NO_COMMENT";
  }

  // ---------------------------------------------------------------------------
  // Looking up and resolving

  /** Index of the first row with this id that belongs to the user (the
      `Comment.id == comment_id, Comment.user_id == user` query). */
  function FindOwned(rows: seq<Row>, userId: string, id: string): (r: Option<nat>)
    ensures r.Some? ==> r.value < |rows| && rows[r.value].id == id && rows[r.value].userId == userId
    ensures r.None? <==> forall k :: 0 <= k < |rows| ==> !(rows[k].id == id && rows[k].userId == userId)
  {
    if |rows| == 0 then None
    else if rows[0].id == id && rows[0].userId == userId then Some(0)
    else
      match FindOwned(rows[1..], userId, id)
      case None => None
      case Some(k) => Some(k + 1)
  }

  /** `resolve_comment`: 404 for an id the user has no comment under;
      otherwise that row's status becomes `resolved` and nothing else
      changes. */
  function Resolve(rows: seq<Row>, userId: string, id: string): (r: Result<seq<Row>, int>)
    ensures r.Failure? <==> forall k :: 0 <= k < |rows| ==> !(rows[k].id == id && rows[k].userId == userId)
    ensures r.Failure? ==> r.error == NotFound
    ensures r.Success? ==>
              var i := FindOwned(rows, userId, id).value;
              |r.value| == |rows| && r.value[i] == rows[i].(status := "resolved")
              && forall k :: 0 <= k < |rows| && k != i ==> r.value[k] == rows[k]
  {
    match FindOwned(rows, userId, id)
    case None => Failure(NotFound)
    case Some(i) => Success(rows[i := rows[i].(status := "resolved")])
  }

  /** Resolving twice is resolving once. */
  lemma ResolveIdempotent(rows: seq<Row>, userId: string, id: string)
    requires Resolve(rows, userId, id).Success?
    ensures Resolve(Resolve(rows, userId, id).value, userId, id) == Resolve(rows, userId, id)
  {
    var once := Resolve(rows, userId, id).value;
    var i := FindOwned(rows, userId, id).value;
    assert forall k :: 0 <= k < |rows| ==> once[k].id == rows[k].id && once[k].userId == rows[k].userId;
    assert FindOwned(once, userId, id) == Some(i) by {
      FindOwnedSameKeys(rows, once, userId, id);
    }
    assert once[i := once[i].(status := "resolved")] == once;
  }

  /** The lookup only reads ids and owners. */
  lemma {:induction false} FindOwnedSameKeys(a: seq<Row>, b: seq<Row>, userId: string, id: string)
    requires |a| == |b|
    requires forall k :: 0 <= k < |a| ==> a[k].id == b[k].id && a[k].userId == b[k].userId
    ensures FindOwned(a, userId, id) == FindOwned(b, userId, id)
  {
    if |a| > 0 {
      FindOwnedSameKeys(a[1..], b[1..], userId, id);
    }
  }

  // ---------------------------------------------------------------------------
  // Replying

  /** The thread a stored reply stands for: nothing and the empty string
      are an empty thread, any other string one user entry stamped `now`,
      a thread itself. */
  function Normalize(reply: StoredReply, now: int): (r: seq<ReplyEntry>)
    ensures reply.NoReply? ==> r == []
    ensures reply.LegacyText? ==> (r == [] <==> reply.text == "")
    ensures reply.LegacyText? && reply.text != "" ==> r == [CommentModel.ReplyEntry("user", reply.text, now)]
    ensures reply.Thread? ==> r == reply.entries
  {
    match reply
    case NoReply => []
    case LegacyText(t) => if t != "" then [CommentModel.ReplyEntry("user", t, now)] else []
    case Thread(es) => es
  }

  /** The answer of `POST /comments/{id}/reply`: the model answered, or it
      failed after the user's message was saved. */
  datatype ReplyOutcome =
    | Replied(aiResponse: string, thread: seq<ReplyEntry>)
    | SavedUserReplyOnly(thread: seq<ReplyEntry>)

  /** `reply_comment`. `answer` is the model's stream for the thread that
      ends with the user's message: its chunks, or `None` when generation
      raised. `now` stamps the user's message (and a converted legacy
      reply), `aiAt` the model's. */
  function ReplyComment(rows: seq<Row>, userId: string, id: string, content: string,
                        answer: Option<seq<string>>, now: int, aiAt: int): (r: Result<(seq<Row>, ReplyOutcome), int>)
    ensures r.Failure? <==> FindOwned(rows, userId, id).None?
    ensures r.Failure? ==> r.error == NotFound
    ensures r.Success? ==>
              var i := FindOwned(rows, userId, id).value;
              var before := Normalize(rows[i].reply, now);
              var thread := r.value.1.thread;
              && |r.value.0| == |rows|
              && r.value.0[i] == rows[i].(reply := Thread(thread))
              && (forall k :: 0 <= k < |rows| && k != i ==> r.value.0[k] == rows[k])
              // earlier entries are kept, then the user's message
              && |thread| >= |before| + 1 && thread[..|before|] == before
              && thread[|before|] == CommentModel.ReplyEntry("user", content, now)
              // and then the model's answer when there is one
              && (answer.None? <==> r.value.1.SavedUserReplyOnly?)
              && (answer.None? ==> |thread| == |before| + 1)
              && (answer.Some? ==> |thread| == |before| + 2 && r.value.1.aiResponse == Concat(answer.value)
                                   && thread[|before| + 1] == CommentModel.ReplyEntry("ai", Concat(answer.value), aiAt))
  {
    match FindOwned(rows, userId, id)
    case None => Failure(NotFound)
    case Some(i) =>
      var history := Normalize(rows[i].reply, now) + [CommentModel.ReplyEntry("user", content, now)];
      match answer
      case None =>
        Success((rows[i := rows[i].(reply := Thread(history))], SavedUserReplyOnly(history)))
      case Some(chunks) =>
        var full := Concat(chunks);
        var thread := history + [CommentModel.ReplyEntry("ai", full, aiAt)];
        Success((rows[i := rows[i].(reply := Thread(thread))], Replied(full, thread)))
  }

  /** A second reply keeps the whole first exchange: the thread only grows. */
  lemma RepliesAccumulate(rows: seq<Row>, userId: string, id: string, c1: string, a1: Option<seq<string>>,
                          c2: string, a2: Option<seq<string>>, t1: int, u1: int, t2: int, u2: int)
    requires ReplyComment(rows, userId, id, c1, a1, t1, u1).Success?
    ensures var first := ReplyComment(rows, userId, id, c1, a1, t1, u1).value;
            var second := ReplyComment(first.0, userId, id, c2, a2, t2, u2);
            second.Success? && first.1.thread <= second.value.1.thread
            && |second.value.1.thread| > |first.1.thread|
  {
    var first := ReplyComment(rows, userId, id, c1, a1, t1, u1).value;
    var i := FindOwned(rows, userId, id).value;
    FindOwnedSameKeys(rows, first.0, userId, id);
    assert Normalize(first.0[i].reply, t2) == first.1.thread;
  }

  /** The reply endpoint's test: an empty thread, the user writes `My reply`
      and the model streams `Here `, `is `, `a `, `reply.`; the answer is the
      joined text and the thread holds the two messages. */
  lemma ReplyFlowExample(row: Row, now: int, aiAt: int)
    requires row.reply == Thread([])
    ensures var r := ReplyComment([row], row.userId, row.id, "My reply", Some(["Here ", "is ", "a ", "reply."]), now, aiAt);
            && r.Success? && r.value.1.Replied?
            && r.value.1.aiResponse == "Here is a reply."
            && |r.value.1.thread| == 2
            && r.value.1.thread[0].role == "user" && r.value.1.thread[0].content == "My reply"
            && r.value.1.thread[1].role == "ai" && r.value.1.thread[1].content == "Here is a reply."
  {
    var chunks := ["Here ", "is ", "a ", "reply."];
    assert Concat(chunks) == "Here " + Concat(chunks[1..]);
    assert Concat(chunks[1..]) == "is " + Concat(chunks[2..]);
    assert Concat(chunks[2..]) == "a " + Concat(chunks[3..]);
    assert Concat(chunks[3..]) == "reply." + Concat(chunks[4..]);
  }
}

=== FILE: dashboard.dfy ===
/** The dashboard's handling of inline AI comments for the open article
    (`pages/Dashboard.tsx`): the per-article open/resolved store, the gate
    that decides whether an edit starts an analysis, the streaming
    placeholder, the finalise step with its NO_COMMENT and duplicate-quote
    rules, the replacement of the placeholder by the saved record, and the
    local move of a resolved comment. Timers, HTTP calls and React state are
    replaced by explicit states and sequential steps. */
module Dashboard {
  import opened Wrappers
  import opened Text
  import opened CommentModel
  import opened AiResponse
  import Seqs

  // ---------------------------------------------------------------------------
  // Per-article store (`articleComments`, `setComments`, `setResolvedComments`)

  datatype Lists = Lists(open: seq<Comment>, resolved: seq<Comment>)

  type Store = map<string, Lists>

  /** `prev[id] || { open: [], resolved: [] }`. */
  function ListsOf(store: Store, article: string): Lists {
    if article in store then store[article] else Lists([], [])
  }

  /** `setComments(update)`: replaces the open list of the current article; a
      no-op when no article is open. */
  function SetOpen(store: Store, current: Option<string>, update: seq<Comment> -> seq<Comment>): (r: Store)
    ensures current.None? ==> r == store
    ensures current.Some? ==>
              var before := ListsOf(store, current.value);
              ListsOf(r, current.value) == Lists(update(before.open), before.resolved)
    ensures forall a :: a in store && (current.None? || a != current.value) ==> a in r && r[a] == store[a]
    ensures r.Keys == store.Keys + (if current.Some? then {current.value} else {})
  {
    match current
    case None => store
    case Some(a) =>
      var before := ListsOf(store, a);
      store[a := before.(open := update(before.open))]
  }

  /** `setResolvedComments(update)`. */
  function SetResolved(store: Store, current: Option<string>, update: seq<Comment> -> seq<Comment>): (r: Store)
    ensures current.None? ==> r == store
    ensures current.Some? ==>
              var before := ListsOf(store, current.value);
              ListsOf(r, current.value) == Lists(before.open, update(before.resolved))
    ensures forall a :: a in store && (current.None? || a != current.value) ==> a in r && r[a] == store[a]
    ensures r.Keys == store.Keys + (if current.Some? then {current.value} else {})
  {
    match current
    case None => store
    case Some(a) =>
      var before := ListsOf(store, a);
      store[a := before.(resolved := update(before.resolved))]
  }

  /** Two open-list updates in a row are one update by their composition. */
  lemma SetOpenTwice(store: Store, current: Option<string>, f: seq<Comment> -> seq<Comment>,
                     g: seq<Comment> -> seq<Comment>)
    ensures SetOpen(SetOpen(store, current, f), current, g) == SetOpen(store, current, xs => g(f(xs)))
  {
  }

  /** Two resolved-list updates in a row are one update by their composition. */
  lemma SetResolvedTwice(store: Store, current: Option<string>, f: seq<Comment> -> seq<Comment>,
                         g: seq<Comment> -> seq<Comment>)
    ensures SetResolved(SetResolved(store, current, f), current, g) == SetResolved(store, current, xs => g(f(xs)))
  {
  }

  /** The test `c.status === st`. */
  function StatusIs(st: string): Comment -> bool {
    (c: Comment) => c.status == Some(st)
  }

  /** `comments.filter(c => c.status === st)`: the entries of `cs` whose
      status is `st`, in order. */
  function WithStatus(cs: seq<Comment>, st: string): (r: seq<Comment>)
    ensures |r| <= |cs|
    ensures forall c :: c in r <==> c in cs && c.status == Some(st)
  {
    Seqs.Filter(cs, StatusIs(st))
  }

  /** The status filter works piece by piece, so it keeps the order and the
      multiplicity of the kept comments. */
  lemma WithStatusDistributes(a: seq<Comment>, b: seq<Comment>, st: string)
    ensures WithStatus(a + b, st) == WithStatus(a, st) + WithStatus(b, st)
  {
    Seqs.FilterDistributes(a, b, StatusIs(st));
  }

  /** One comment is kept, once, exactly when it has the status. */
  lemma WithStatusOne(c: Comment, st: string)
    ensures WithStatus([c], st) == if c.status == Some(st) then [c] else []
  {
    assert [c][1..] == [];
  }

  /** A list whose comments all have the status is kept whole. */
  lemma WithStatusKeepsAll(cs: seq<Comment>, st: string)
    requires forall i :: 0 <= i < |cs| ==> cs[i].status == Some(st)
    ensures WithStatus(cs, st) == cs
  {
    Seqs.FilterKeepsAll(cs, StatusIs(st));
  }

  /** `fetchComments`: active comments are open, resolved ones resolved. */
  function SplitFetched(cs: seq<Comment>): (r: Lists)
    ensures forall c :: c in r.open <==> c in cs && c.status == Some("active")
    ensures forall c :: c in r.resolved <==> c in cs && c.status == Some("resolved")
  {
    Lists(WithStatus(cs, "active"), WithStatus(cs, "resolved"))
  }

  /** The split of a concatenation is the concatenation of the splits, and a
      single comment goes, once, to the list of its status: together these fix
      both lists' order and multiplicity. */
  lemma SplitFetchedOrder(a: seq<Comment>, b: seq<Comment>, c: Comment)
    ensures SplitFetched(a + b) == Lists(SplitFetched(a).open + SplitFetched(b).open,
                                         SplitFetched(a).resolved + SplitFetched(b).resolved)
    ensures SplitFetched([c]).open == if c.status == Some("active") then [c] else []
    ensures SplitFetched([c]).resolved == if c.status == Some("resolved") then [c] else []
  {
    WithStatusDistributes(a, b, "active");
    WithStatusDistributes(a, b, "resolved");
    WithStatusOne(c, "active");
    WithStatusOne(c, "resolved");
  }

  /** The split is a partition: no comment lands in both lists, and when
      every fetched comment is active or resolved none is lost. */
  lemma {:induction false} SplitPartitions(cs: seq<Comment>)
    ensures forall c :: !(c in SplitFetched(cs).open && c in SplitFetched(cs).resolved)
    ensures (forall i :: 0 <= i < |cs| ==> cs[i].status == Some("active") || cs[i].status == Some("resolved"))
            ==> |SplitFetched(cs).open| + |SplitFetched(cs).resolved| == |cs|
  {
    if |cs| > 0 {
      SplitPartitions(cs[1..]);
      assert forall i :: 1 <= i < |cs| ==> cs[1..][i - 1] == cs[i];
    }
  }

  // ---------------------------------------------------------------------------
  // Request gate

  /** The settings the gate reads; `requestInterval` is the stored value with
      a missing or falsy one already read as 0 (`|| 0`). */
  datatype AiSettings = AiSettings(aiEnabled: bool, maxOpenComments: Option<int>, requestInterval: int)

  const DefaultMaxOpenComments: int := 5

  /** `max_open_comments`, 5 when the settings or the field are missing. */
  function MaxOpen(settings: Option<AiSettings>): int {
    if settings.Some? && settings.value.maxOpenComments.Some? then settings.value.maxOpenComments.value
    else DefaultMaxOpenComments
  }

  function RequestInterval(settings: Option<AiSettings>): int {
    if settings.Some? then settings.value.requestInterval else 0
  }

  /** What the editor-change handler and its timer see for the open article. */
  datatype Session = Session(
    settings: Option<AiSettings>,
    article: Option<string>,
    open: seq<Comment>,
    lastAnalyzed: string,
    lastRequest: map<string, int>)

  /** `lastRequestTime[id] || 0`. */
  function LastRequestOf(s: Session, a: string): int {
    if a in s.lastRequest then s.lastRequest[a] else 0
  }

  predicate AiDisabled(s: Session) {
    s.settings.Some? && !s.settings.value.aiEnabled
  }

  predicate AtCommentLimit(s: Session) {
    |s.open| >= MaxOpen(s.settings)
  }

  predicate TooSoon(s: Session, now: int) {
    RequestInterval(s.settings) > 0 && s.article.Some?
    && now - LastRequestOf(s, s.article.value) < RequestInterval(s.settings)
  }

  /** The streaming placeholder appended when an analysis starts. */
  function Placeholder(id: string): (c: Comment)
    ensures c.id == id && c.content == "" && c.isStreaming && !HasAnchorQuote(c)
  {
    Comment(id, "", None, None, "analyzing...", true, None, [])
  }

  /** An edit of the open article whose debounce timer fires: the gate is
      read at `changeTime`, the timer at `fireTime`, and `newId` is the fresh
      id the placeholder receives. Without an open article `setComments`
      returns early, so the open list stays as it is; the editor is only
      shown with an article open, so that case does not arise in practice. */
  function OnEditorChange(s: Session, text: string, changeTime: int, fireTime: int, newId: string): (r: Session)
    ensures AiDisabled(s) ==> r == s
    ensures AtCommentLimit(s) ==> r == s
    ensures TooSoon(s, changeTime) ==> r == s
    ensures text == s.lastAnalyzed ==> r == s
    ensures !AiDisabled(s) && !AtCommentLimit(s) && !TooSoon(s, changeTime) && text != s.lastAnalyzed ==>
              && r.open == (if s.article.Some? then s.open + [Placeholder(newId)] else s.open)
              && r.lastAnalyzed == text
              && (s.article.Some? ==> LastRequestOf(r, s.article.value) == fireTime)
    ensures r.settings == s.settings && r.article == s.article
  {
    if AiDisabled(s) || AtCommentLimit(s) || TooSoon(s, changeTime) || text == s.lastAnalyzed then s
    else
      s.(open := if s.article.Some? then s.open + [Placeholder(newId)] else s.open,
         lastAnalyzed := text,
         lastRequest := if s.article.Some? then s.lastRequest[s.article.value := fireTime] else s.lastRequest)
  }

  /** Once an analysis has started for a text, editing to the same text again
      starts nothing. */
  lemma NoRestartForSameText(s: Session, text: string, c1: int, f1: int, id1: string, c2: int, f2: int, id2: string)
    requires OnEditorChange(s, text, c1, f1, id1) != s
    ensures var r := OnEditorChange(s, text, c1, f1, id1);
            OnEditorChange(r, text, c2, f2, id2) == r
  {
  }

  /** Starts never push the open list past the limit it was under. */
  lemma OpenLimitKept(s: Session, text: string, c: int, f: int, id: string)
    requires |s.open| <= MaxOpen(s.settings)
    ensures |OnEditorChange(s, text, c, f, id).open| <= MaxOpen(s.settings)
  {
  }

  /** With a positive request interval, no second analysis starts for the
      same article until the interval has elapsed since the last start. */
  lemma IntervalThrottles(s: Session, t1: string, c1: int, f1: int, id1: string, t2: string, c2: int, f2: int, id2: string)
    requires s.article.Some? && RequestInterval(s.settings) > 0
    requires OnEditorChange(s, t1, c1, f1, id1) != s
    requires c2 - f1 < RequestInterval(s.settings)
    ensures var r := OnEditorChange(s, t1, c1, f1, id1);
            OnEditorChange(r, t2, c2, f2, id2) == r
  {
  }

  // ---------------------------------------------------------------------------
  // Streaming

  function WithChunk(c: Comment, chunk: string): Comment {
    c.(content := c.content + chunk, kind := "suggestion", isStreaming := false)
  }

  /** One stream chunk for the comment `id`. */
  function ApplyChunk(cs: seq<Comment>, id: string, chunk: string): (r: seq<Comment>)
    ensures |r| == |cs|
    ensures forall i :: 0 <= i < |cs| && cs[i].id != id ==> r[i] == cs[i]
    ensures forall i :: 0 <= i < |cs| && cs[i].id == id ==>
              r[i].content == cs[i].content + chunk && !r[i].isStreaming && r[i].id == id
  {
    seq(|cs|, i requires 0 <= i < |cs| => if cs[i].id == id then WithChunk(cs[i], chunk) else cs[i])
  }

  /** The chunks in order, applied one by one: the list keeps its length
      and ids, and entries with another id are untouched. */
  function ApplyChunks(cs: seq<Comment>, id: string, chunks: seq<string>): (r: seq<Comment>)
    ensures |r| == |cs|
    ensures forall i :: 0 <= i < |cs| ==> r[i].id == cs[i].id
    ensures forall i :: 0 <= i < |cs| && cs[i].id != id ==> r[i] == cs[i]
    decreases |chunks|
  {
    if |chunks| == 0 then cs else ApplyChunks(ApplyChunk(cs, id, chunks[0]), id, chunks[1..])
  }

  /** Streaming appends the whole response, chunk after chunk, to the
      comment `id` and leaves every other entry and the length unchanged. */
  lemma {:induction false} StreamAppends(cs: seq<Comment>, id: string, chunks: seq<string>)
    ensures |ApplyChunks(cs, id, chunks)| == |cs|
    ensures forall i :: 0 <= i < |cs| && cs[i].id != id ==> ApplyChunks(cs, id, chunks)[i] == cs[i]
    ensures forall i :: 0 <= i < |cs| && cs[i].id == id ==>
              ApplyChunks(cs, id, chunks)[i].content == cs[i].content + Concat(chunks)
    ensures forall i :: 0 <= i < |cs| && cs[i].id == id && |chunks| > 0 ==>
              !ApplyChunks(cs, id, chunks)[i].isStreaming
    decreases |chunks|
  {
    if |chunks| > 0 {
      var next := ApplyChunk(cs, id, chunks[0]);
      StreamAppends(next, id, chunks[1..]);
      forall i | 0 <= i < |cs| && cs[i].id == id
        ensures ApplyChunks(cs, id, chunks)[i].content == cs[i].content + Concat(chunks)
      {
        assert next[i].content == cs[i].content + chunks[0];
      }
      forall i | 0 <= i < |cs| && cs[i].id == id
        ensures !ApplyChunks(cs, id, chunks)[i].isStreaming
      {
        if |chunks| == 1 {
          assert chunks[1..] == [];
        }
      }
    }
  }

  // ---------------------------------------------------------------------------
  // Finalising a response

  /** A quote that takes part in deduplication (a truthy string). */
  predicate IsQuoteKey(q: Option<string>) {
    q.Some? && q.value != ""
  }

  /** `c.quote === quote && c.status !== 'resolved'`. */
  predicate HoldsQuote(c: Comment, q: string) {
    c.quote == Some(q) && NotResolved(c)
  }

  predicate QuoteHeld(cs: seq<Comment>, q: string) {
    exists i | 0 <= i < |cs| :: HoldsQuote(cs[i], q)
  }

  /** What the finalise callback does with the placeholder: drop it, leave it
      (no article is open), or post the parsed comment. */
  datatype Outcome = Discard | Abandon | Save(quote: Option<string>, content: string)

  /** The finalise callback for a complete response. `snapshot` is the open
      list `comments` of the render whose edit handler set the timer: the
      callback closes over that list, so it is the list as it was when the
      timer was set, not when it fired or when the response completed. */
  function DecideFinalize(snapshot: seq<Comment>, fullText: string, hasArticle: bool): (d: Outcome)
    ensures var p := ParseAIResponse(fullText);
            d.Discard? <==> IsHiddenContent(p.content)
                            || (hasArticle && IsQuoteKey(p.quote) && QuoteHeld(snapshot, p.quote.value))
    ensures d.Abandon? <==> !IsHiddenContent(ParseAIResponse(fullText).content) && !hasArticle
    ensures d.Save? ==> d.quote == ParseAIResponse(fullText).quote && d.content == ParseAIResponse(fullText).content
  {
    var p := ParseAIResponse(fullText);
    if IsHiddenContent(p.content) then Discard
    else if !hasArticle then Abandon
    else if IsQuoteKey(p.quote) && QuoteHeld(snapshot, p.quote.value) then Discard
    else Save(p.quote, p.content)
  }

  /** A saved comment has visible content and does not repeat a quote held by
      a non-resolved comment of the snapshot. */
  lemma SavedIsFresh(snapshot: seq<Comment>, fullText: string, hasArticle: bool)
    requires DecideFinalize(snapshot, fullText, hasArticle).Save?
    ensures var d := DecideFinalize(snapshot, fullText, hasArticle);
            && !IsHiddenContent(d.content)
            && (IsQuoteKey(d.quote) ==> forall i :: 0 <= i < |snapshot| ==> !HoldsQuote(snapshot[i], d.quote.value))
  {
  }

  /** Some entry other than `id` already holds `q`. */
  predicate HeldByOther(cs: seq<Comment>, id: string, q: string) {
    exists j | 0 <= j < |cs| :: cs[j].id != id && HoldsQuote(cs[j], q)
  }

  /** Replacing the placeholder `id` by the saved record, or dropping it when
      another non-resolved comment already holds the quote. */
  function ReplaceAfterSave(prev: seq<Comment>, id: string, quote: Option<string>, saved: Comment): (r: seq<Comment>)
    ensures IsQuoteKey(quote) && HeldByOther(prev, id, quote.value) ==> r == DropId(prev, id)
    ensures !(IsQuoteKey(quote) && HeldByOther(prev, id, quote.value)) ==>
              && |r| == |prev|
              && (forall i :: 0 <= i < |prev| && prev[i].id != id ==> r[i] == prev[i])
              && (forall i :: 0 <= i < |prev| && prev[i].id == id ==> r[i] == saved.(isStreaming := false))
  {
    if IsQuoteKey(quote) && HeldByOther(prev, id, quote.value) then DropId(prev, id)
    else seq(|prev|, i requires 0 <= i < |prev| => if prev[i].id == id then saved.(isStreaming := false) else prev[i])
  }

  /** When no other comment holds `q`, no entry with another id does. */
  lemma NotHeldByOther(cs: seq<Comment>, id: string, q: string, i: nat)
    requires !HeldByOther(cs, id, q) && i < |cs| && cs[i].id != id
    ensures !HoldsQuote(cs[i], q)
  {
  }

  /** No two comments with different ids both hold the same quote while
      neither is resolved. */
  predicate DistinctOpenQuotes(cs: seq<Comment>) {
    forall x, y :: x in cs && y in cs && x.id != y.id && IsQuoteKey(x.quote) && NotResolved(x)
      ==> !HoldsQuote(y, x.quote.value)
  }

  /** Replacing the placeholder keeps quotes distinct, given that the saved
      record carries the posted quote. */
  lemma ReplaceKeepsQuotesDistinct(prev: seq<Comment>, id: string, quote: Option<string>, saved: Comment)
    requires DistinctOpenQuotes(prev)
    requires saved.quote == quote
    ensures DistinctOpenQuotes(ReplaceAfterSave(prev, id, quote, saved))
  {
    var r := ReplaceAfterSave(prev, id, quote, saved);
    if !(IsQuoteKey(quote) && HeldByOther(prev, id, quote.value)) {
      forall x, y | x in r && y in r
        ensures x.id != y.id && IsQuoteKey(x.quote) && NotResolved(x) ==> !HoldsQuote(y, x.quote.value)
      {
        var i :| 0 <= i < |r| && r[i] == x;
        var j :| 0 <= j < |r| && r[j] == y;
        if prev[i].id != id && prev[j].id != id {
          assert x == prev[i] && y == prev[j];
        } else if prev[i].id != id {
          assert x == prev[i] && y.quote == quote;
          if IsQuoteKey(quote) {
            NotHeldByOther(prev, id, quote.value, i);
          }
        } else if prev[j].id != id {
          assert y == prev[j] && x.quote == quote;
        }
      }
    }
  }

  // ---------------------------------------------------------------------------
  // Resolving

  /** `resolveComment` after the API accepted it: the first open comment with
      `id` is prepended to the resolved list with status "resolved" and every
      open entry with that id is removed. */
  function ResolveLocal(l: Lists, id: string): (r: Lists)
    ensures !HasId(l.open, id) ==> r == l
    ensures HasId(l.open, id) ==>
              && r.open == DropId(l.open, id)
              && |r.resolved| == |l.resolved| + 1
              && r.resolved[1..] == l.resolved
              && r.resolved[0].id == id
              && r.resolved[0].status == Some("resolved")
              && r.resolved[0].(status := l.open[FindById(l.open, id).value].status) == l.open[FindById(l.open, id).value]
  {
    match FindById(l.open, id)
    case None => l
    case Some(k) => Lists(DropId(l.open, id), [l.open[k].(status := Some("resolved"))] + l.resolved)
  }

  /** With unique open ids, resolving moves exactly one comment from the
      open list to the resolved list. */
  lemma ResolveMovesOne(l: Lists, id: string)
    requires HasId(l.open, id)
    requires CountId(l.open, id) <= 1
    ensures |ResolveLocal(l, id).open| == |l.open| - 1
    ensures |ResolveLocal(l, id).open| + |ResolveLocal(l, id).resolved| == |l.open| + |l.resolved|
  {
    DropIdCount(l.open, id);
    CountIdPositive(l.open, id);
  }
}

=== FILE: day_events.dfy ===
/** The list of a day's events in the "view more" dialog
    (`components/DayEventsModal.tsx`): all-day events first, then by start
    time, and the time label of each entry. */
module DayEvents {
  import opened Seqs
  import opened Calendar

  /** The comparator: an all-day event before a timed one, otherwise by
      start time. */
  function DayKey(e: Event): Key {
    (if e.allDay then 0 else 1, e.start)
  }

  /** `[...events].sort(cmp)`: a sorted copy; the input is not touched, as
      every value here is immutable. */
  function SortDayEvents(events: seq<Event>): (r: seq<Event>)
    ensures multiset(r) == multiset(events)
    ensures forall i, j :: 0 <= i < j < |r| && r[j].allDay ==> r[i].allDay
    ensures forall i, j :: 0 <= i < j < |r| && r[i].allDay == r[j].allDay ==> r[i].start <= r[j].start
  {
    var r := SortBy(events, DayKey);
    assert forall i, j :: 0 <= i < j < |r| ==> KeyLe(DayKey(r[i]), DayKey(r[j]));
    r
  }

  /** Events with the same flag and the same start keep their order from the
      input. */
  lemma SortDayEventsStable(events: seq<Event>, allDay: bool, start: int)
    ensures var k := (if allDay then 0 else 1, start);
            WithKey(SortDayEvents(events), DayKey, k) == WithKey(events, DayKey, k)
  {
    SortStable(events, DayKey, (if allDay then 0 else 1, start));
  }

  /** The time line of an entry: `All-day`, times only, or times with dates. */
  datatype TimeLabel = AllDayLabel | TimesOnly(from: int, to: int) | TimesWithDates(from: int, to: int)

  /** The label of `e` for a time-zone offset in milliseconds. */
  function Label(e: Event, offset: int): (l: TimeLabel)
    ensures e.allDay <==> l.AllDayLabel?
    ensures !l.AllDayLabel? ==> l.from == e.start && l.to == e.end
    ensures l.TimesOnly? <==> !e.allDay && LocalDay(e.start, offset) == LocalDay(e.end, offset)
  {
    if e.allDay then AllDayLabel
    else if LocalDay(e.start, offset) == LocalDay(e.end, offset) then TimesOnly(e.start, e.end)
    else TimesWithDates(e.start, e.end)
  }

  /** Instant `t` falls on local day `d`. */
  predicate OnDay(t: int, offset: int, d: int) {
    d * DayMs <= t + offset < (d + 1) * DayMs
  }

  /** A timed entry shows times only exactly when one local day holds both
      its start and its end. */
  lemma TimesOnlyWithinOneDay(e: Event, offset: int)
    requires !e.allDay
    ensures Label(e, offset).TimesOnly? <==> exists d :: OnDay(e.start, offset, d) && OnDay(e.end, offset, d)
  {
    OnLocalDay(e.start, offset);
    OnLocalDay(e.end, offset);
    if exists d :: OnDay(e.start, offset, d) && OnDay(e.end, offset, d) {
      var d :| OnDay(e.start, offset, d) && OnDay(e.end, offset, d);
      OnDayUnique(e.start, offset, d, LocalDay(e.start, offset));
      OnDayUnique(e.end, offset, d, LocalDay(e.end, offset));
    }
  }

  lemma OnLocalDay(t: int, offset: int)
    ensures OnDay(t, offset, LocalDay(t, offset))
  {
  }

  lemma OnDayUnique(t: int, offset: int, d1: int, d2: int)
    requires OnDay(t, offset, d1) && OnDay(t, offset, d2)
    ensures d1 == d2
  {
  }
}

=== FILE: json.dfy ===
/** JSON values as they travel between the browser, the API and the JSON
    columns (user settings, memory values, article bodies), with the two
    truthiness rules the code applies to them. */
module Json {
  import opened Wrappers

  datatype Value =
    | JNull
    | JBool(b: bool)
    | JInt(i: int)
    | JStr(s: string)
    | JArr(items: seq<Value>)
    | JObj(fields: map<string, Value>)

  /** Python `bool(v)`: empty containers, `0`, `""`, `False` and `None` are false. */
  predicate PyTruthy(v: Value) {
    match v
    case JNull => false
    case JBool(b) => b
    case JInt(i) => i != 0
    case JStr(s) => s != ""
    case JArr(a) => |a| > 0
    case JObj(m) => |m| > 0
  }

  /** JavaScript `!!v`: every array and object is true. */
  predicate JsTruthy(v: Value) {
    match v
    case JNull => false
    case JBool(b) => b
    case JInt(i) => i != 0
    case JStr(s) => s != ""
    case JArr(_) => true
    case JObj(_) => true
  }

  /** `m.get(k)` / `m[k]` with an absent key as `None`. */
  function Get(m: map<string, Value>, k: string): Option<Value> {
    if k in m then Some(m[k]) else None
  }
}

=== FILE: memories.dfy ===
/** The memory bank on the server (`backend/src/api/memories.py`): the
    record, the key slug derived from a memory's content, and creating,
    updating and deleting a memory on behalf of its owner. The database is
    a sequence of records; `.first()` is the first match in that sequence. */
module Memories {
  import opened Wrappers
  import opened Text
  import opened Json
  import opened Seqs

  /** A row of the `memories` table. `value` is the JSON object holding the
      memory's `content` and `emoji`; `updatedAt` is the row's last write,
      in milliseconds. */
  datatype Memory = Memory(
    id: string,
    userId: string,
    key: string,
    value: map<string, Value>,
    category: string,
    isLocked: bool,
    confidence: string,
    sourceArticleId: Option<string>,
    updatedBy: string,
    updatedAt: int)

  /** The HTTP status of every lookup failure here. */
  const NotFound: int := 404

  /** The emoji a memory created through the API gets when none is given. */
  const DefaultEmoji: string := "\U{1F4DD}"

  /** The category and confidence of a memory created without them. */
  const DefaultCategory: string := "Knowledge"
  const DefaultConfidence: string := "low"

  // ---------------------------------------------------------------------------
  // Key slugs

  /** The characters a slug keeps besides whitespace: `[a-z0-9]`. */
  predicate IsSlugChar(c: char) {
    'a' <= c <= 'z' || '0' <= c <= '9'
  }

  /** What Python's `str.lower()` makes of `c`, as far as the slug can tell.
      Only ASCII capitals, the dotted capital I (whose lower case is `i`
      followed by a combining dot, which the slug drops) and the Kelvin sign
      become slug characters; every other character either stays itself or
      becomes a character the slug drops anyway. */
  function SlugFold(c: char): char {
    if 'A' <= c <= 'Z' then LowerChar(c)
    else if c == '\U{0130}' then 'i'
    else if c == '\U{212A}' then 'k'
    else c
  }

  function Folded(content: string): (r: string)
    ensures |r| == |content| && forall k :: 0 <= k < |content| ==> r[k] == SlugFold(content[k])
  {
    seq(|content|, k requires 0 <= k < |content| => SlugFold(content[k]))
  }

  /** Survives `re.sub(r'[^a-z0-9\s]', '', ...)`. */
  predicate SlugKept(c: char) {
    IsSlugChar(c) || IsPySpace(c)
  }

  /** Neither whitespace nor an underscore. */
  predicate Solid(c: char) {
    !IsPySpace(c) && c != '_'
  }

  predicate NotUnderscore(c: char) {
    c != '_'
  }

  /** `re.sub(r'\s+', '_', s)`: every maximal run of whitespace becomes one
      underscore. */
  function Collapse(s: string): (r: string)
    ensures |r| <= |s|
    ensures |r| == 0 <==> |s| == 0
    ensures |s| > 0 && IsPySpace(s[0]) ==> r[0] == '_'
    ensures |s| > 0 && !IsPySpace(s[0]) ==> r[0] == s[0]
    ensures forall k :: 0 <= k < |r| ==> r[k] == '_' || (r[k] in s && !IsPySpace(r[k]))
    decreases |s|
  {
    if |s| == 0 then []
    else if IsPySpace(s[0]) then
      var n := LeadingCount(s, IsPySpace);
      var rest := Collapse(s[n..]);
      assert forall k :: 0 <= k < |rest| && rest[k] in s[n..] ==> rest[k] in s;
      ['_'] + rest
    else
      var rest := Collapse(s[1..]);
      assert forall k :: 0 <= k < |rest| && rest[k] in s[1..] ==> rest[k] in s;
      [s[0]] + rest
  }

  /** Underscores at `k` and `k + 1`. */
  predicate UnderscorePairAt(r: string, k: int) {
    0 <= k && k + 1 < |r| && r[k] == '_' && r[k + 1] == '_'
  }

  /** Collapsing a string with no underscores of its own never puts two
      underscores side by side: after each run comes a character that is
      not whitespace. */
  lemma {:induction false} CollapseNoPair(s: string)
    requires forall k :: 0 <= k < |s| ==> s[k] != '_'
    ensures forall k :: !UnderscorePairAt(Collapse(s), k)
    decreases |s|
  {
    if |s| > 0 {
      var r := Collapse(s);
      if IsPySpace(s[0]) {
        var n := LeadingCount(s, IsPySpace);
        var rest := Collapse(s[n..]);
        CollapseNoPair(s[n..]);
        assert r == ['_'] + rest;
        forall k ensures !UnderscorePairAt(r, k) {
          if k >= 1 {
            assert !UnderscorePairAt(rest, k - 1);
          } else if |rest| > 0 {
            assert rest[0] == s[n];
          }
        }
      } else {
        var rest := Collapse(s[1..]);
        CollapseNoPair(s[1..]);
        assert r == [s[0]] + rest;
        forall k ensures !UnderscorePairAt(r, k) {
          if k >= 1 {
            assert !UnderscorePairAt(rest, k - 1);
          }
        }
      }
    }
  }

  /** Collapsing keeps every character that is neither whitespace nor an
      underscore, in order, and adds no other such character. */
  lemma {:induction false} CollapseKeepsSolid(s: string)
    ensures Filter(Collapse(s), NotUnderscore) == Filter(s, Solid)
    decreases |s|
  {
    if |s| > 0 {
      if IsPySpace(s[0]) {
        var n := LeadingCount(s, IsPySpace);
        var rest := Collapse(s[n..]);
        CollapseKeepsSolid(s[n..]);
        FilterDistributes(['_'], rest, NotUnderscore);
        assert s == s[..n] + s[n..];
        FilterDistributes(s[..n], s[n..], Solid);
        FilterDropsAll(s[..n], Solid);
      } else {
        var rest := Collapse(s[1..]);
        CollapseKeepsSolid(s[1..]);
        assert ([s[0]] + rest)[1..] == rest;
      }
    }
  }

  /** The slug of `content` before truncation: built from `[a-z0-9]` and
      single underscores only. */
  function Slug(content: string): (r: string)
    ensures forall k :: 0 <= k < |r| ==> IsSlugChar(r[k]) || r[k] == '_'
    ensures forall k :: !UnderscorePairAt(r, k)
  {
    var kept := Filter(Folded(content), SlugKept);
    CollapseNoPair(kept);
    Collapse(kept)
  }

  /** `generate_key(content)`; `uuidHex` is the fresh `uuid4().hex` used
      when the slug comes out empty. */
  function GenerateKey(content: string, uuidHex: string): (key: string)
    requires |uuidHex| >= 8
    ensures 1 <= |key| <= 50
    ensures Slug(content) == [] ==> key == "memory_" + uuidHex[..8]
    ensures Slug(content) != [] ==> forall k :: 0 <= k < |key| ==> IsSlugChar(key[k]) || key[k] == '_'
    ensures Slug(content) != [] ==> forall k :: !UnderscorePairAt(key, k)
    ensures Slug(content) != [] ==> |key| <= |Slug(content)| && key == Slug(content)[..|key|] && (|key| < 50 ==> key == Slug(content))
  {
    var slug := Slug(content);
    if slug == [] then "memory_" + uuidHex[..8]
    else
      var key := if |slug| <= 50 then slug else slug[..50];
      assert forall k :: UnderscorePairAt(key, k) ==> UnderscorePairAt(slug, k);
      key
  }

  /** Apart from the underscores, a non-empty key is the start of the
      content's letters and digits, lower-cased, in order: nothing is
      invented and, before the 50-character cut, nothing is lost. */
  lemma KeyKeepsLettersAndDigits(content: string)
    ensures Filter(Slug(content), NotUnderscore) == Filter(Folded(content), IsSlugChar)
  {
    var folded := Folded(content);
    var kept := Filter(folded, SlugKept);
    CollapseKeepsSolid(kept);
    FilterFilter(folded, SlugKept, Solid, IsSlugChar);
  }

  /** Content made only of whitespace has a slug, so it does not get the
      `memory_` fallback: its key is a lone underscore. */
  lemma WhitespaceContentKey(uuidHex: string)
    requires |uuidHex| >= 8
    ensures GenerateKey("  ", uuidHex) == "_"
  {
    var kept := Filter(Folded("  "), SlugKept);
    assert Folded("  ") == "  ";
    assert kept == "  ";
    assert LeadingCount(kept, IsPySpace) == 2;
    assert kept[2..] == [];
  }

  // ---------------------------------------------------------------------------
  // The store

  /** The user already has a memory with this key. */
  predicate HasKey(store: seq<Memory>, userId: string, key: string) {
    exists i | 0 <= i < |store| :: store[i].userId == userId && store[i].key == key
  }

  /** Number of the user's memories with this key. */
  function CountKey(store: seq<Memory>, userId: string, key: string): (n: nat)
    ensures n <= |store|
    ensures n == 0 <==> !HasKey(store, userId, key)
  {
    if |store| == 0 then 0
    else
      assert forall i :: 1 <= i < |store| ==> store[1..][i - 1] == store[i];
      (if store[0].userId == userId && store[0].key == key then 1 else 0) + CountKey(store[1..], userId, key)
  }

  lemma {:induction false} CountKeyAppend(store: seq<Memory>, m: Memory, userId: string, key: string)
    ensures CountKey(store + [m], userId, key) == CountKey(store, userId, key) + (if m.userId == userId && m.key == key then 1 else 0)
  {
    if |store| > 0 {
      assert (store + [m])[1..] == store[1..] + [m];
      CountKeyAppend(store[1..], m, userId, key);
    } else {
      assert (store + [m])[1..] == [];
    }
  }

  /** Index of the first record with this id that belongs to the user (the
      `Memory.id == memory_id, Memory.user_id == user` query). */
  function FindOwned(store: seq<Memory>, userId: string, id: string): (r: Option<nat>)
    ensures r.Some? ==> r.value < |store| && store[r.value].id == id && store[r.value].userId == userId
    ensures r.Some? ==> forall i :: 0 <= i < r.value ==> !(store[i].id == id && store[i].userId == userId)
    ensures r.None? <==> forall i :: 0 <= i < |store| ==> !(store[i].id == id && store[i].userId == userId)
  {
    if |store| == 0 then None
    else if store[0].id == id && store[0].userId == userId then Some(0)
    else
      match FindOwned(store[1..], userId, id)
      case None => None
      case Some(i) => Some(i + 1)
  }

  // ---------------------------------------------------------------------------
  // Create

  /** The `MemoryCreate` body; `None` is a field the client left out, which
      takes its declared default. */
  datatype CreateRequest = CreateRequest(content: string, category: Option<string>, confidence: Option<string>,
                                         emoji: Option<string>)

  /** `create_memory`: the generated key, suffixed with `_` and four fresh
      hex digits when the user already has a memory under it. `uuidHex`
      and `suffixHex` stand for the two `uuid4().hex` draws. */
  function CreateMemory(store: seq<Memory>, userId: string, req: CreateRequest, newId: string,
                        now: int, uuidHex: string, suffixHex: string): (r: (seq<Memory>, Memory))
    requires |uuidHex| >= 8 && |suffixHex| >= 4
    ensures r.0 == store + [r.1]
    ensures r.1.userId == userId && r.1.id == newId && r.1.updatedAt == now
    ensures var key := GenerateKey(req.content, uuidHex);
            r.1.key == if HasKey(store, userId, key) then key + "_" + suffixHex[..4] else key
    ensures r.1.value == map["content" := JStr(req.content), "emoji" := JStr(req.emoji.GetOr(DefaultEmoji))]
    ensures r.1.category == req.category.GetOr(DefaultCategory)
    ensures r.1.confidence == req.confidence.GetOr(DefaultConfidence)
    ensures r.1.updatedBy == "user" && !r.1.isLocked && r.1.sourceArticleId == None
  {
    var key0 := GenerateKey(req.content, uuidHex);
    var key := if HasKey(store, userId, key0) then key0 + "_" + suffixHex[..4] else key0;
    var m := Memory(newId, userId, key,
                    map["content" := JStr(req.content), "emoji" := JStr(req.emoji.GetOr(DefaultEmoji))],
                    req.category.GetOr(DefaultCategory), false, req.confidence.GetOr(DefaultConfidence),
                    None, "user", now);
    (store + [m], m)
  }

  /** Creating adds exactly one memory under its key. That key is new to the
      user whenever the generated key was, and otherwise whenever the
      suffixed one is: a collision is resolved with one fresh suffix, and
      the suffixed key itself is not checked again. */
  lemma CreateKeepsKeysUnique(store: seq<Memory>, userId: string, req: CreateRequest, newId: string,
                              now: int, uuidHex: string, suffixHex: string)
    requires |uuidHex| >= 8 && |suffixHex| >= 4
    requires var key := GenerateKey(req.content, uuidHex);
             HasKey(store, userId, key) ==> !HasKey(store, userId, key + "_" + suffixHex[..4])
    ensures var r := CreateMemory(store, userId, req, newId, now, uuidHex, suffixHex);
            CountKey(r.0, userId, r.1.key) == 1
  {
    var r := CreateMemory(store, userId, req, newId, now, uuidHex, suffixHex);
    CountKeyAppend(store, r.1, userId, r.1.key);
  }

  // ---------------------------------------------------------------------------
  // Update

  /** The `MemoryUpdate` body; an absent field is `None`. */
  datatype UpdateRequest = UpdateRequest(
    isLocked: Option<bool>,
    content: Option<string>,
    confidence: Option<string>,
    category: Option<string>,
    emoji: Option<string>)

  /** The confidence levels an update may set. */
  predicate IsConfidenceLevel(s: string) {
    s == "high" || s == "medium" || s == "low"
  }

  /** The field changes of `update_memory` on one record; the row's
      `updatedAt` moves to `now` when a field actually changed. */
  function ApplyUpdate(m: Memory, u: UpdateRequest, now: int): (n: Memory)
    ensures n.id == m.id && n.userId == m.userId && n.key == m.key && n.sourceArticleId == m.sourceArticleId
    ensures n.isLocked == u.isLocked.GetOr(m.isLocked)
    ensures u.content.Some? ==> "content" in n.value && n.value["content"] == JStr(u.content.value)
    ensures u.emoji.Some? ==> "emoji" in n.value && n.value["emoji"] == JStr(u.emoji.value)
    ensures forall k :: k in m.value && k != "content" && k != "emoji" ==> k in n.value && n.value[k] == m.value[k]
    ensures u.content.None? && u.emoji.None? ==> n.value == m.value && n.updatedBy == m.updatedBy
    ensures u.content.Some? || u.emoji.Some? ==> n.updatedBy == "user"
    ensures u.confidence.Some? && IsConfidenceLevel(u.confidence.value) ==> n.confidence == u.confidence.value
    ensures u.confidence.None? || !IsConfidenceLevel(u.confidence.value) ==> n.confidence == m.confidence
    ensures n.category == u.category.GetOr(m.category)
    ensures n.updatedAt == m.updatedAt || n.updatedAt == now
    // the timestamp moves exactly when some other column changed
    ensures n.(updatedAt := m.updatedAt) == m ==> n == m
    ensures n.(updatedAt := m.updatedAt) != m ==> n.updatedAt == now
  {
    var locked := u.isLocked.GetOr(m.isLocked);
    var edited := u.content.Some? || u.emoji.Some?;
    var v1 := if u.content.Some? then m.value["content" := JStr(u.content.value)] else m.value;
    var v2 := if u.emoji.Some? then v1["emoji" := JStr(u.emoji.value)] else v1;
    var conf := if u.confidence.Some? && IsConfidenceLevel(u.confidence.value) then u.confidence.value else m.confidence;
    var n := m.(isLocked := locked,
                value := if edited then v2 else m.value,
                updatedBy := if edited then "user" else m.updatedBy,
                confidence := conf,
                category := u.category.GetOr(m.category));
    if n == m then m else n.(updatedAt := now)
  }

  /** An update with every field absent changes nothing. */
  lemma EmptyUpdateChangesNothing(m: Memory, now: int)
    ensures ApplyUpdate(m, UpdateRequest(None, None, None, None, None), now) == m
  {
  }

  /** Sending the same update twice leaves the memory as the first one did. */
  lemma UpdateIdempotent(m: Memory, u: UpdateRequest, now: int)
    ensures ApplyUpdate(ApplyUpdate(m, u, now), u, now) == ApplyUpdate(m, u, now)
  {
    var n := ApplyUpdate(m, u, now);
    var n2 := ApplyUpdate(n, u, now);
    assert n2.value == n.value;
  }

  /** `update_memory`: 404 unless the user owns a memory with this id;
      otherwise that record is updated in place and returned. */
  function UpdateMemory(store: seq<Memory>, userId: string, id: string, u: UpdateRequest, now: int)
    : (r: Result<(seq<Memory>, Memory), int>)
    ensures r.Failure? <==> forall i :: 0 <= i < |store| ==> !(store[i].id == id && store[i].userId == userId)
    ensures r.Failure? ==> r.error == NotFound
    ensures r.Success? ==> |r.value.0| == |store|
    ensures r.Success? ==> exists i | 0 <= i < |store| ::
              store[i].id == id && store[i].userId == userId
              && r.value.1 == ApplyUpdate(store[i], u, now) && r.value.0[i] == r.value.1
              && forall j :: 0 <= j < |store| && j != i ==> r.value.0[j] == store[j]
  {
    match FindOwned(store, userId, id)
    case None => Failure(NotFound)
    case Some(i) =>
      var n := ApplyUpdate(store[i], u, now);
      Success((store[i := n], n))
  }

  // ---------------------------------------------------------------------------
  // Delete

  /** `delete_memory`: 404 unless the user owns a memory with this id;
      otherwise that record is removed and every other one is kept in order. */
  function DeleteMemory(store: seq<Memory>, userId: string, id: string): (r: Result<seq<Memory>, int>)
    ensures r.Failure? <==> forall i :: 0 <= i < |store| ==> !(store[i].id == id && store[i].userId == userId)
    ensures r.Failure? ==> r.error == NotFound
    ensures r.Success? ==> |r.value| == |store| - 1
    ensures r.Success? ==> exists i | 0 <= i < |store| ::
              store[i].id == id && store[i].userId == userId && r.value == store[..i] + store[i + 1..]
  {
    match FindOwned(store, userId, id)
    case None => Failure(NotFound)
    case Some(i) => Success(store[..i] + store[i + 1..])
  }

  /** Ids are primary keys. */
  predicate UniqueIds(store: seq<Memory>) {
    forall i, j :: 0 <= i < j < |store| ==> store[i].id != store[j].id
  }

  /** A length no id in the store exceeds. */
  function MaxIdLength(store: seq<Memory>): (n: nat)
    ensures forall m :: m in store ==> |m.id| <= n
  {
    if |store| == 0 then 0
    else
      var rest := MaxIdLength(store[1..]);
      assert forall m :: m in store ==> m == store[0] || m in store[1..];
      if |store[0].id| > rest then |store[0].id| else rest
  }

  /** An id that no row of the store has: what `uuid4()` is relied on for
      when a row is inserted. */
  function FreshId(store: seq<Memory>): (r: string)
    ensures forall m :: m in store ==> m.id != r
  {
    seq(MaxIdLength(store) + 1, _ => 'x')
  }

  /** After a delete the memory is gone, and only it: every other memory is
      still there. */
  lemma DeleteRemovesOnlyIt(store: seq<Memory>, userId: string, id: string, m: Memory)
    requires UniqueIds(store)
    requires DeleteMemory(store, userId, id).Success?
    requires m in store
    ensures m in DeleteMemory(store, userId, id).value <==> m.id != id
  {
    var r := DeleteMemory(store, userId, id).value;
    var i :| 0 <= i < |store| && store[i].id == id && store[i].userId == userId && r == store[..i] + store[i + 1..];
    var j :| 0 <= j < |store| && store[j] == m;
    if m.id != id {
      assert j != i;
      if j < i {
        assert r[j] == m;
      } else {
        assert r[j - 1] == m;
      }
    } else {
      assert j == i;
      forall k | 0 <= k < |r| ensures r[k] != m {
        if k < i {
          assert r[k] == store[k];
        } else {
          assert r[k] == store[k + 1];
        }
      }
    }
  }
}

=== FILE: memory_page.dfy ===
/** The memory page (`pages/Memory.tsx`): the category tabs, the list shown
    for a tab, multi-selection, deletion, locking and adding, over the list
    of memories the page holds. */
module MemoryPage {
  import opened Text
  import opened Seqs
  import opened StrOrder

  /** A memory as the page holds it. */
  datatype Card = Card(id: string, key: string, content: string, emoji: string,
                       category: string, isLocked: bool, confidence: string)

  const AllTab: string := "All"
  const DefaultCategory: string := "Knowledge"
  const BuiltInCategories: seq<string> := ["Preferences", "Knowledge", "Concept", "Event"]

  /** `m.category || 'Knowledge'`: an empty category counts as Knowledge. */
  function CategoryOf(m: Card): (c: string)
    ensures c != ""
    ensures m.category != "" ==> c == m.category
  {
    if m.category == "" then DefaultCategory else m.category
  }

  function Categories(ms: seq<Card>): (r: seq<string>)
    ensures |r| == |ms| && forall i :: 0 <= i < |ms| ==> r[i] == CategoryOf(ms[i])
  {
    seq(|ms|, i requires 0 <= i < |ms| => CategoryOf(ms[i]))
  }

  /** `categories`: All, then the distinct categories of the memories and
      the four built-in ones, sorted; `.filter(Boolean)` drops nothing, as
      no category is empty. */
  function Tabs(ms: seq<Card>): (r: seq<string>)
    ensures |r| >= 1 && r[0] == AllTab
    ensures StrictlySorted(r[1..])
    ensures Elems(r[1..]) == Elems(Categories(ms)) + Elems(BuiltInCategories)
  {
    var all := Categories(ms) + BuiltInCategories;
    var kept := Filter(all, (c: string) => c != "");
    assert forall c :: c in all ==> c != "";
    FilterKeepsAll(all, (c: string) => c != "");
    assert Elems(all) == Elems(Categories(ms)) + Elems(BuiltInCategories);
    var r := [AllTab] + SortedDistinct(kept);
    assert r[1..] == SortedDistinct(kept);
    r
  }

  /** The tab list is the one sorted, duplicate-free listing of the
      categories in use together with the built-in ones, after All. */
  lemma TabsAreTheSortedCategories(ms: seq<Card>, listing: seq<string>)
    requires StrictlySorted(listing)
    requires Elems(listing) == Elems(Categories(ms)) + Elems(BuiltInCategories)
    ensures Tabs(ms) == [AllTab] + listing
  {
    var r := Tabs(ms);
    StrictlySortedUnique(r[1..], listing);
    assert r == [r[0]] + r[1..];
  }

  /** `filteredMemories`: every memory on the All tab, otherwise those of
      the tab's category, in order. */
  function ShownOn(ms: seq<Card>, tab: string): (r: seq<Card>)
    ensures tab == AllTab ==> r == ms
    ensures tab != AllTab ==> forall m :: m in r <==> m in ms && CategoryOf(m) == tab
    ensures tab != AllTab ==> forall i :: 0 <= i < |r| ==> CategoryOf(r[i]) == tab
  {
    if tab == AllTab then ms else Filter(ms, (m: Card) => CategoryOf(m) == tab)
  }

  /** Apart from All, the tabs split the memories: each memory shows on the
      tab of its category and on no other. */
  lemma EachMemoryOnItsTab(ms: seq<Card>, m: Card, tab: string)
    requires m in ms && tab != AllTab
    ensures m in ShownOn(ms, tab) <==> tab == CategoryOf(m)
    ensures CategoryOf(m) in Tabs(ms)[1..]
  {
    var r := Tabs(ms);
    var i :| 0 <= i < |ms| && ms[i] == m;
    assert Categories(ms)[i] == CategoryOf(m);
    assert CategoryOf(m) in Elems(Categories(ms));
    assert CategoryOf(m) in Elems(r[1..]);
  }

  // ---------------------------------------------------------------------------
  // Selection

  /** `toggleSelection(id)`: remove `id` when selected, else append it. */
  function ToggleSelection(sel: seq<string>, id: string): (r: seq<string>)
    ensures id in r <==> id !in sel
    ensures forall x :: x != id ==> (x in r <==> x in sel)
  {
    if id in sel then Filter(sel, (x: string) => x != id) else sel + [id]
  }

  /** Toggling twice restores the selected set; when the id was not
      selected it restores the list itself. */
  lemma ToggleTwice(sel: seq<string>, id: string)
    ensures Elems(ToggleSelection(ToggleSelection(sel, id), id)) == Elems(sel)
    ensures id !in sel ==> ToggleSelection(ToggleSelection(sel, id), id) == sel
  {
    var once := ToggleSelection(sel, id);
    var twice := ToggleSelection(once, id);
    assert forall x :: x in twice <==> x in sel;
    if id !in sel {
      FilterDistributes(sel, [id], (x: string) => x != id);
      FilterKeepsAll(sel, (x: string) => x != id);
    }
  }

  // ---------------------------------------------------------------------------
  // Deleting, locking, adding

  /** `handleBulkDelete`: the memories not selected, and an empty selection. */
  function BulkDelete(ms: seq<Card>, sel: seq<string>): (r: (seq<Card>, seq<string>))
    ensures forall m :: m in r.0 <==> m in ms && m.id !in sel
    ensures r.1 == []
  {
    (Filter(ms, (m: Card) => m.id !in sel), [])
  }

  /** `confirmDelete`: every memory but the deleted id. */
  function DeleteOne(ms: seq<Card>, id: string): (r: seq<Card>)
    ensures forall m :: m in r <==> m in ms && m.id != id
  {
    Filter(ms, (m: Card) => m.id != id)
  }

  /** Deleting one memory is a bulk delete of the selection holding just
      its id. */
  lemma {:induction false} DeleteOneIsBulk(ms: seq<Card>, id: string)
    ensures DeleteOne(ms, id) == BulkDelete(ms, [id]).0
  {
    if |ms| > 0 {
      DeleteOneIsBulk(ms[1..], id);
    }
  }

  /** `toggleLock` after the server answered with lock state `locked`. */
  function SetLock(ms: seq<Card>, id: string, locked: bool): (r: seq<Card>)
    ensures |r| == |ms|
    ensures forall i :: 0 <= i < |ms| ==> r[i].(isLocked := ms[i].isLocked) == ms[i]
    ensures forall i :: 0 <= i < |ms| ==> r[i].isLocked == if ms[i].id == id then locked else ms[i].isLocked
  {
    seq(|ms|, i requires 0 <= i < |ms| => if ms[i].id == id then ms[i].(isLocked := locked) else ms[i])
  }

  /** Locking and then unlocking with the previous state restores the list
      when the memories with that id agreed on their lock. */
  lemma SetLockUndo(ms: seq<Card>, id: string, was: bool)
    requires forall i :: 0 <= i < |ms| && ms[i].id == id ==> ms[i].isLocked == was
    ensures SetLock(SetLock(ms, id, !was), id, was) == ms
  {
    var back := SetLock(SetLock(ms, id, !was), id, was);
    assert forall i :: 0 <= i < |ms| ==> back[i] == ms[i];
  }

  /** `handleAddMemory`: nothing for blank content; otherwise the created
      memory goes first. */
  function AddMemory(ms: seq<Card>, draftContent: string, created: Card): (r: seq<Card>)
    ensures IsBlank(draftContent) ==> r == ms
    ensures !IsBlank(draftContent) ==> |r| == |ms| + 1 && r[0] == created && r[1..] == ms
  {
    if IsBlank(draftContent) then ms else [created] + ms
  }

  /** Deleting the memory just added, whose id was new to the list, gives
      the list back. */
  lemma AddThenDelete(ms: seq<Card>, draftContent: string, created: Card)
    requires forall i :: 0 <= i < |ms| ==> ms[i].id != created.id
    ensures DeleteOne(AddMemory(ms, draftContent, created), created.id) == ms
  {
    var p := (m: Card) => m.id != created.id;
    FilterKeepsAll(ms, p);
    if !IsBlank(draftContent) {
      FilterDistributes([created], ms, p);
      assert [created][1..] == [];
    }
  }
}

=== FILE: memory_worker.dfy ===
/** `MemoryService.add_memory` (`backend/src/services/ai/memory_worker.py`):
    the upsert the background scanner uses to write what it extracted. A
    locked memory is never written; otherwise the user's memory under the
    key is overwritten, or created when there is none. */
module MemoryWorker {
  import opened Wrappers
  import opened Json
  import opened Memories

  /** The parameter defaults of `add_memory`. */
  const DefaultConfidence: string := "medium"
  const DefaultCategory: string := "knowledge"

  /** Index of the user's first memory under `key` (the
      `Memory.user_id == user, Memory.key == key` query's `.first()`). */
  function FindKey(store: seq<Memory>, userId: string, key: string): (r: Option<nat>)
    ensures r.Some? ==> r.value < |store| && store[r.value].userId == userId && store[r.value].key == key
    ensures r.Some? ==> forall i :: 0 <= i < r.value ==> !(store[i].userId == userId && store[i].key == key)
    ensures r.None? <==> !HasKey(store, userId, key)
  {
    if |store| == 0 then None
    else if store[0].userId == userId && store[0].key == key then Some(0)
    else
      assert forall i :: 1 <= i < |store| ==> store[1..][i - 1] == store[i];
      match FindKey(store[1..], userId, key)
      case None => None
      case Some(i) => Some(i + 1)
  }

  /** The user's memory under `key` exists and is locked, so the upsert
      leaves it alone. */
  predicate HasLockedKey(store: seq<Memory>, userId: string, key: string) {
    FindKey(store, userId, key).Some? && store[FindKey(store, userId, key).value].isLocked
  }

  /** The overwrite of an unlocked memory: value, confidence and category
      always, the source article only when one is given (`if
      source_article_id:`). The row's `updatedAt` moves to `now` when a
      field actually changed; `updatedBy` is left as it was. */
  function Overwrite(m: Memory, value: map<string, Value>, confidence: string, category: string,
                     sourceArticleId: Option<string>, now: int): (n: Memory)
    ensures n.id == m.id && n.userId == m.userId && n.key == m.key && n.isLocked == m.isLocked
    ensures n.value == value && n.confidence == confidence && n.category == category
    ensures n.sourceArticleId == if sourceArticleId.Some? then sourceArticleId else m.sourceArticleId
    ensures n.updatedBy == m.updatedBy
    ensures n.updatedAt == m.updatedAt || n.updatedAt == now
    // the timestamp moves exactly when some other column changed
    ensures n.(updatedAt := m.updatedAt) == m ==> n == m
    ensures n.(updatedAt := m.updatedAt) != m ==> n.updatedAt == now
  {
    var n := m.(value := value, confidence := confidence, category := category,
                sourceArticleId := if sourceArticleId.Some? then sourceArticleId else m.sourceArticleId);
    if n == m then m else n.(updatedAt := now)
  }

  /** `add_memory(user, key, value, confidence, category, source)`; `newId`
      is the fresh id a created row gets. Returns the store after the call
      and the memory returned. */
  function AddMemory(store: seq<Memory>, userId: string, key: string, value: map<string, Value>,
                     confidence: string, category: string, sourceArticleId: Option<string>,
                     newId: string, now: int): (r: (seq<Memory>, Memory))
    ensures r.1.userId == userId && r.1.key == key
    ensures r.1 in r.0
    // a locked memory is returned untouched and nothing is written
    ensures FindKey(store, userId, key).Some? && store[FindKey(store, userId, key).value].isLocked ==>
              r.0 == store && r.1 == store[FindKey(store, userId, key).value]
    // an unlocked one is overwritten in place
    ensures FindKey(store, userId, key).Some? && !store[FindKey(store, userId, key).value].isLocked ==>
              var i := FindKey(store, userId, key).value;
              r.1 == Overwrite(store[i], value, confidence, category, sourceArticleId, now) && r.0 == store[i := r.1]
    // with no memory under the key exactly one is created, by the system
    ensures !HasKey(store, userId, key) ==>
              r.0 == store + [r.1]
              && r.1 == Memory(newId, userId, key, value, category, false, confidence, sourceArticleId, "system", now)
  {
    match FindKey(store, userId, key)
    case Some(i) =>
      if store[i].isLocked then (store, store[i])
      else
        var n := Overwrite(store[i], value, confidence, category, sourceArticleId, now);
        assert store[i := n][i] == n;
        (store[i := n], n)
    case None =>
      var m := Memory(newId, userId, key, value, category, false, confidence, sourceArticleId, "system", now);
      (store + [m], m)
  }

  /** The only row the upsert can introduce is the memory it returns. */
  lemma AddMemoryNewRow(store: seq<Memory>, userId: string, key: string, value: map<string, Value>,
                        confidence: string, category: string, sourceArticleId: Option<string>,
                        newId: string, now: int)
    ensures var r := AddMemory(store, userId, key, value, confidence, category, sourceArticleId, newId, now);
            forall m :: m in r.0 && m !in store ==> m == r.1
  {
    var r := AddMemory(store, userId, key, value, confidence, category, sourceArticleId, newId, now);
    match FindKey(store, userId, key)
    case Some(i) =>
      if !store[i].isLocked {
        assert forall j :: 0 <= j < |r.0| && j != i ==> r.0[j] == store[j];
      }
    case None =>
  }

  /** Replacing a record by one with the same owner and key keeps every
      owner's count under every key. */
  lemma {:induction false} CountKeyReplace(store: seq<Memory>, i: nat, n: Memory, u: string, k: string)
    requires i < |store| && n.userId == store[i].userId && n.key == store[i].key
    ensures CountKey(store[i := n], u, k) == CountKey(store, u, k)
  {
    if i > 0 {
      assert store[i := n][1..] == store[1..][i - 1 := n];
      CountKeyReplace(store[1..], i - 1, n, u, k);
    } else {
      assert store[i := n][1..] == store[1..];
    }
  }

  /** The upsert never makes a second memory under a key the user already
      has: afterwards the user has the key once if it had it at most once,
      and no other owner or key gains or loses a memory. */
  lemma AddMemoryCounts(store: seq<Memory>, userId: string, key: string, value: map<string, Value>,
                        confidence: string, category: string, sourceArticleId: Option<string>,
                        newId: string, now: int, u: string, k: string)
    ensures var r := AddMemory(store, userId, key, value, confidence, category, sourceArticleId, newId, now);
            CountKey(r.0, u, k) == if u == userId && k == key && CountKey(store, u, k) == 0 then 1 else CountKey(store, u, k)
  {
    var r := AddMemory(store, userId, key, value, confidence, category, sourceArticleId, newId, now);
    match FindKey(store, userId, key)
    case Some(i) =>
      if !store[i].isLocked {
        CountKeyReplace(store, i, r.1, u, k);
      }
    case None =>
      CountKeyAppend(store, r.1, u, k);
  }

  /** Every memory the upsert cannot write survives it: locked ones, and
      those of other users or under other keys. */
  lemma AddMemoryKeepsOthers(store: seq<Memory>, userId: string, key: string, value: map<string, Value>,
                             confidence: string, category: string, sourceArticleId: Option<string>,
                             newId: string, now: int, m: Memory)
    requires m in store
    requires m.isLocked || m.userId != userId || m.key != key
    ensures m in AddMemory(store, userId, key, value, confidence, category, sourceArticleId, newId, now).0
  {
    var j :| 0 <= j < |store| && store[j] == m;
    var r := AddMemory(store, userId, key, value, confidence, category, sourceArticleId, newId, now);
    match FindKey(store, userId, key)
    case Some(i) =>
      if !store[i].isLocked {
        assert j != i;
        assert r.0[j] == m;
      }
    case None =>
      assert r.0[j] == m;
  }

  /** Repeating the same upsert changes nothing more. */
  lemma AddMemoryIdempotent(store: seq<Memory>, userId: string, key: string, value: map<string, Value>,
                            confidence: string, category: string, sourceArticleId: Option<string>,
                            newId: string, now: int)
    ensures var r := AddMemory(store, userId, key, value, confidence, category, sourceArticleId, newId, now);
            AddMemory(r.0, userId, key, value, confidence, category, sourceArticleId, newId, now) == r
  {
    var r := AddMemory(store, userId, key, value, confidence, category, sourceArticleId, newId, now);
    match FindKey(store, userId, key)
    case Some(i) =>
      assert forall j :: 0 <= j < i ==> r.0[j] == store[j];
      assert r.0[i].userId == userId && r.0[i].key == key;
      assert HasKey(r.0, userId, key);
      assert FindKey(r.0, userId, key) == Some(i);
      if !store[i].isLocked {
        assert Overwrite(r.1, value, confidence, category, sourceArticleId, now) == r.1;
        assert r.0[i := r.1] == r.0;
      }
    case None =>
      assert forall j :: 0 <= j < |store| ==> r.0[j] == store[j];
      assert r.0[|store|] == r.1;
      assert HasKey(r.0, userId, key);
      assert FindKey(r.0, userId, key) == Some(|store|);
      assert Overwrite(r.1, value, confidence, category, sourceArticleId, now) == r.1;
      assert r.0[|store| := r.1] == r.0;
  }

  /** With an id no row has for a created memory, the upsert keeps ids
      unique. */
  lemma AddMemoryKeepsIdsUnique(store: seq<Memory>, userId: string, key: string, value: map<string, Value>,
                                confidence: string, category: string, sourceArticleId: Option<string>,
                                newId: string, now: int)
    requires UniqueIds(store)
    requires forall m :: m in store ==> m.id != newId
    ensures UniqueIds(AddMemory(store, userId, key, value, confidence, category, sourceArticleId, newId, now).0)
  {
    var r := AddMemory(store, userId, key, value, confidence, category, sourceArticleId, newId, now);
    match FindKey(store, userId, key)
    case Some(i) =>
    case None =>
      assert forall j :: 0 <= j < |store| ==> r.0[j] == store[j] && store[j] in store;
  }
}

=== FILE: scanner.dfy ===
/** The background memory scanner (`backend/src/services/ai/background_scanner.py`)
    for one user: the scan and age-cutoff intervals read from the user's
    settings, the choice of articles to scan, the rule that skips a scan
    when nothing new was written, applying the changes the model extracted
    from an article, and the plain text of an editor document. Times are
    milliseconds; the model's answers are an oracle. */
module Scanner {
  import opened Wrappers
  import opened Json
  import opened Seqs
  import Settings
  import Memories
  import MemoryWorker
  import Articles

  type Memory = Memories.Memory
  type Article = Articles.Article

  // ---------------------------------------------------------------------------
  // Intervals

  /** The `background_scan` block when settings have none (`{}`). */
  const EmptyBlock: Settings.StoredScan := Settings.StoredScan(None, None, None, None, None)

  /** How long after a scan an article may be scanned again: the interval
      value in minutes, hours or days, by default 24 hours; any other unit
      means 24 hours whatever the value. */
  function ScanDeltaMs(b: Settings.StoredScan): int
  {
    var unit := b.intervalUnit.GetOr("hours");
    var value := b.intervalValue.GetOr(24);
    if unit == "minutes" then value * 60 * 1000
    else if unit == "hours" then value * 3600 * 1000
    else if unit == "days" then value * 86400 * 1000
    else 24 * 3600 * 1000
  }

  /** How old an article may be and still be scanned: the value in days,
      months of 30 days or years of 365 days, by default 14 days; any other
      unit means 14 days whatever the value. */
  function SkipDeltaMs(b: Settings.StoredScan): int
  {
    var unit := b.skipUnit.GetOr("days");
    var value := b.skipValue.GetOr(14);
    if unit == "days" then value * 86400000
    else if unit == "months" then value * 30 * 86400000
    else if unit == "years" then value * 365 * 86400000
    else 14 * 86400000
  }

  /** The scan interval in milliseconds: minutes, hours and days as the
      settings dialog means them, and a unit it does not know ignored. */
  lemma ScanDeltaUnits(b: Settings.StoredScan)
    ensures var unit := b.intervalUnit.GetOr("hours");
            var value := b.intervalValue.GetOr(24);
            && (unit == "minutes" ==> ScanDeltaMs(b) == value * Settings.MinuteMs)
            && (unit == "hours" ==> ScanDeltaMs(b) == value * Settings.HourMs)
            && (unit == "days" ==> ScanDeltaMs(b) == value * Settings.DayMs)
            && (unit != "minutes" && unit != "hours" && unit != "days" ==> ScanDeltaMs(b) == 24 * Settings.HourMs)
  {
  }

  /** The age limit in milliseconds, with a month of 30 days and a year of
      365. */
  lemma SkipDeltaUnits(b: Settings.StoredScan)
    ensures var unit := b.skipUnit.GetOr("days");
            var value := b.skipValue.GetOr(14);
            && (unit == "days" ==> SkipDeltaMs(b) == value * Settings.DayMs)
            && (unit == "months" ==> SkipDeltaMs(b) == value * 30 * Settings.DayMs)
            && (unit == "years" ==> SkipDeltaMs(b) == value * 365 * Settings.DayMs)
            && (unit != "days" && unit != "months" && unit != "years" ==> SkipDeltaMs(b) == 14 * Settings.DayMs)
  {
  }

  /** What the settings dialog writes before the user touches the scan
      fields gives the same intervals as a missing block: 24 hours between
      scans and a 14-day age limit. */
  lemma DialogDefaultsMatchScanner()
    ensures var b := Settings.Save(Settings.InitialForm).backgroundScan.value;
            ScanDeltaMs(b) == ScanDeltaMs(EmptyBlock) == 24 * Settings.HourMs
            && SkipDeltaMs(b) == SkipDeltaMs(EmptyBlock) == 14 * Settings.DayMs
            && b.enabled == Some(false)
  {
  }

  /** A longer interval in a known unit never shortens the wait. */
  lemma ScanDeltaMonotone(b: Settings.StoredScan, v: int, w: int)
    requires v <= w
    ensures ScanDeltaMs(b.(intervalValue := Some(v))) <= ScanDeltaMs(b.(intervalValue := Some(w)))
  {
  }

  // ---------------------------------------------------------------------------
  // Candidates and the skip rule

  /** An article the scan picks: the user's, not deleted, updated since the
      cutoff, and either never scanned or scanned before the threshold and
      updated after that scan. */
  predicate IsCandidate(a: Article, userId: string, cutoff: int, threshold: int) {
    a.userId == userId && !a.isDeleted && a.updatedAt >= cutoff
    && (a.lastScannedAt.None? || (a.lastScannedAt.value < threshold && a.updatedAt > a.lastScannedAt.value))
  }

  function UpdatedKey(a: Article): Key {
    (a.updatedAt, 0)
  }

  /** The test `IsCandidate` for one user, cutoff and threshold. */
  function CandidateBy(userId: string, cutoff: int, threshold: int): Article -> bool {
    (a: Article) => IsCandidate(a, userId, cutoff, threshold)
  }

  /** The candidate query, oldest update first. */
  function Candidates(articles: seq<Article>, userId: string, cutoff: int, threshold: int): (r: seq<Article>)
    ensures forall a :: a in r <==> a in articles && IsCandidate(a, userId, cutoff, threshold)
    ensures multiset(r) == multiset(Filter(articles, CandidateBy(userId, cutoff, threshold)))
    ensures forall i, j :: 0 <= i < j < |r| ==> r[i].updatedAt <= r[j].updatedAt
  {
    var kept := Filter(articles, CandidateBy(userId, cutoff, threshold));
    assert forall a :: a in kept <==> a in articles && IsCandidate(a, userId, cutoff, threshold);
    SortByMembers(kept, UpdatedKey);
    var r := SortBy(kept, UpdatedKey);
    assert forall i, j :: 0 <= i < j < |r| ==> KeyLe(UpdatedKey(r[i]), UpdatedKey(r[j]));
    r
  }

  /** Each candidate is picked as often as it occurs among the articles,
      and nothing else is picked. */
  lemma CandidatesCount(articles: seq<Article>, userId: string, cutoff: int, threshold: int, a: Article)
    ensures multiset(Candidates(articles, userId, cutoff, threshold))[a]
            == if IsCandidate(a, userId, cutoff, threshold) then multiset(articles)[a] else 0
  {
    FilterCount(articles, CandidateBy(userId, cutoff, threshold), a);
  }

  /** `updated_at` of the user's newest memory written by the system, `None`
      (`datetime.min`) when there is none. */
  function LatestSystemUpdate(memories: seq<Memory>, userId: string): (r: Option<int>)
    ensures r.None? <==> forall m :: m in memories ==> !(m.userId == userId && m.updatedBy == "system")
    ensures r.Some? ==> exists m :: m in memories && m.userId == userId && m.updatedBy == "system" && m.updatedAt == r.value
    ensures r.Some? ==> forall m :: m in memories && m.userId == userId && m.updatedBy == "system" ==> m.updatedAt <= r.value
  {
    if |memories| == 0 then None
    else
      var rest := LatestSystemUpdate(memories[1..], userId);
      var m := memories[0];
      assert forall x :: x in memories <==> x == m || x in memories[1..];
      if m.userId == userId && m.updatedBy == "system" then
        if rest.None? || rest.value < m.updatedAt then Some(m.updatedAt) else rest
      else rest
  }

  /** `max(a.updated_at for a in articles)`. */
  function MaxUpdated(cands: seq<Article>): (r: int)
    requires |cands| > 0
    ensures forall a :: a in cands ==> a.updatedAt <= r
    ensures exists a :: a in cands && a.updatedAt == r
  {
    if |cands| == 1 then cands[0].updatedAt
    else
      var rest := MaxUpdated(cands[1..]);
      assert forall x :: x in cands <==> x == cands[0] || x in cands[1..];
      if cands[0].updatedAt > rest then cands[0].updatedAt else rest
  }

  /** The scan goes ahead: there are candidates and the newest is not
      older than the newest memory the system wrote. */
  predicate ShouldScan(cands: seq<Article>, latest: Option<int>) {
    |cands| > 0 && (latest.None? || !(MaxUpdated(cands) < latest.value))
  }

  /** The skip rule in terms of single articles: a scan happens exactly
      when some candidate was updated no earlier than the newest system
      memory (any candidate will do when there is no such memory). */
  lemma ShouldScanIff(cands: seq<Article>, latest: Option<int>)
    ensures ShouldScan(cands, latest) <==> exists a :: a in cands && (latest.None? || a.updatedAt >= latest.value)
  {
    if ShouldScan(cands, latest) {
      var top := MaxUpdated(cands);
      var a :| a in cands && a.updatedAt == top;
      assert latest.None? || a.updatedAt >= latest.value;
    }
  }

  // ---------------------------------------------------------------------------
  // Applying extracted changes

  /** One entry of the model's answer. `action` and `key` are `""` when
      absent; `emoji`, `category` and `confidence` are `None` when absent. */
  datatype Change = Change(
    action: string,
    key: string,
    content: Value,
    emoji: Option<Value>,
    category: Option<string>,
    confidence: Option<string>)

  /** The fallback emoji as the source file spells it: the bytes of the
      memo emoji read as Windows-1252 text, the undefined byte dropped. */
  const EmojiAsWritten: string := "\U{00F0}\U{0178}\U{201C}"

  /** The memory value built from a change, as written. */
  function ChangeValueAsWritten(c: Change): (v: map<string, Value>)
    ensures v.Keys == {"content", "emoji"} && v["content"] == c.content
    ensures c.emoji.None? ==> v["emoji"] == JStr(EmojiAsWritten)
  {
    map["content" := c.content, "emoji" := c.emoji.GetOr(JStr(EmojiAsWritten))]
  }

  /** The memory value built from a change: its content, and its emoji or
      the memo emoji the API also falls back to. */
  function ChangeValue(c: Change): (v: map<string, Value>)
    ensures v.Keys == {"content", "emoji"} && v["content"] == c.content
    ensures v["emoji"] == c.emoji.GetOr(JStr(Memories.DefaultEmoji))
  {
    map["content" := c.content, "emoji" := c.emoji.GetOr(JStr(Memories.DefaultEmoji))]
  }

  /** A change without an emoji gets, as written, a string that is not the
      emoji a memory created through the API falls back to. */
  lemma FallbackEmojiAsWrittenDiffers(c: Change)
    requires c.emoji.None?
    ensures ChangeValueAsWritten(c)["emoji"] != JStr(Memories.DefaultEmoji)
  {
    assert EmojiAsWritten[0] != Memories.DefaultEmoji[0];
  }

  /** With the corrected fallback, a change without an emoji is stored with
      the same emoji as a memory created through the API without one. */
  lemma FallbackEmojiMatchesApi(c: Change, store: seq<Memory>, userId: string, content: string, newId: string,
                                now: int, uuidHex: string, suffixHex: string)
    requires c.emoji.None?
    requires |uuidHex| >= 8 && |suffixHex| >= 4
    ensures var created := Memories.CreateMemory(store, userId,
              Memories.CreateRequest(content, None, None, None), newId, now, uuidHex, suffixHex).1;
            ChangeValue(c)["emoji"] == created.value["emoji"]
  {
  }

  /** The first memory of the snapshot under `key`
      (`next(m for m in existing_memories if m.key == key)`). */
  function FindInSnapshot(snap: seq<Memory>, key: string): (r: Option<Memory>)
    ensures r.Some? ==> r.value in snap && r.value.key == key
    ensures r.None? ==> forall m :: m in snap ==> m.key != key
  {
    if |snap| == 0 then None
    else if snap[0].key == key then Some(snap[0])
    else FindInSnapshot(snap[1..], key)
  }

  /** `db.delete(existing)`: the row with this id goes. */
  function RemoveId(store: seq<Memory>, id: string): (r: seq<Memory>)
    ensures forall m :: m in r <==> m in store && m.id != id
    ensures Memories.UniqueIds(store) ==> Memories.UniqueIds(r)
  {
    if |store| == 0 then []
    else
      var rest := RemoveId(store[1..], id);
      assert forall m :: m in store <==> m == store[0] || m in store[1..];
      assert Memories.UniqueIds(store) ==> Memories.UniqueIds(store[1..]);
      if store[0].id == id then rest
      else
        assert Memories.UniqueIds(store) ==> forall m :: m in rest ==> m.id != store[0].id;
        [store[0]] + rest
  }

  /** One change applied to the store. `snap` is the user's memories as read
      before the article was processed; a created memory gets an id no row
      has. */
  function ApplyChange(store: seq<Memory>, snap: seq<Memory>, userId: string, articleId: string,
                       c: Change, now: int): (r: seq<Memory>)
    ensures c.key == "" || c.action == "" ==> r == store
    ensures c.key != "" && c.action != "" && FindInSnapshot(snap, c.key).Some? && FindInSnapshot(snap, c.key).value.isLocked
            ==> r == store
    ensures c.action != "delete" && c.action != "create" && c.action != "update" ==> r == store
    ensures c.action == "delete" ==> forall m :: m in r ==> m in store
    ensures c.action == "delete" && c.key != "" && FindInSnapshot(snap, c.key).Some?
            && !FindInSnapshot(snap, c.key).value.isLocked
            ==> r == RemoveId(store, FindInSnapshot(snap, c.key).value.id)
    ensures c.action == "delete" && FindInSnapshot(snap, c.key).None? ==> r == store
    // a row the change introduces is the user's, under the key, with the change's value and the article as source
    ensures forall m :: m in r && m !in store ==>
              m.userId == userId && m.key == c.key && m.value == ChangeValue(c) && m.sourceArticleId == Some(articleId)
    // a create or update the store does not lock writes the change under its key
    ensures (c.action == "create" || c.action == "update") && c.key != ""
            && !(FindInSnapshot(snap, c.key).Some? && FindInSnapshot(snap, c.key).value.isLocked)
            && !MemoryWorker.HasLockedKey(store, userId, c.key)
            ==> exists m :: m in r && m.userId == userId && m.key == c.key && m.value == ChangeValue(c)
                            && m.sourceArticleId == Some(articleId)
  {
    if c.key == "" || c.action == "" then store
    else
      var existing := FindInSnapshot(snap, c.key);
      if existing.Some? && existing.value.isLocked then store
      else if c.action == "delete" && existing.Some? then RemoveId(store, existing.value.id)
      else if c.action == "create" || c.action == "update" then
        MemoryWorker.AddMemoryNewRow(store, userId, c.key, ChangeValue(c),
                                     c.confidence.GetOr(MemoryWorker.DefaultConfidence),
                                     c.category.GetOr(MemoryWorker.DefaultCategory),
                                     Some(articleId), Memories.FreshId(store), now);
        MemoryWorker.AddMemory(store, userId, c.key, ChangeValue(c),
                               c.confidence.GetOr(MemoryWorker.DefaultConfidence),
                               c.category.GetOr(MemoryWorker.DefaultCategory),
                               Some(articleId), Memories.FreshId(store), now).0
      else store
  }

  /** The loop over the model's answer: a row it introduces is the user's
      and has the article as its source. */
  function ApplyChanges(store: seq<Memory>, snap: seq<Memory>, userId: string, articleId: string,
                        cs: seq<Change>, now: int): (r: seq<Memory>)
    ensures |cs| == 0 ==> r == store
    ensures forall m :: m in r && m !in store ==> m.userId == userId && m.sourceArticleId == Some(articleId)
    decreases |cs|
  {
    if |cs| == 0 then store
    else ApplyChanges(ApplyChange(store, snap, userId, articleId, cs[0], now), snap, userId, articleId, cs[1..], now)
  }

  // ---------------------------------------------------------------------------
  // The plain text of an article

  /** `text += node.get("text", "")` for a node whose type is `text`:
      `None` when the text is not a string (a `TypeError`). */
  function OwnText(f: map<string, Value>): Option<string> {
    if "type" in f && f["type"] == JStr("text") then
      if "text" !in f then Some("")
      else match f["text"]
        case JStr(s) => Some(s)
        case _ => None
    else Some("")
  }

  /** `extract_text(node)`: `None` where the code raises (a node that is not
      an object, a `content` that is not a list, a text that is not a
      string). Iterating an empty string or object raises nothing. */
  function ExtractText(node: Value): (r: Option<string>)
    ensures r.Some? ==> node.JObj?
    ensures node.JObj? && "content" !in node.fields ==> r == OwnText(node.fields)
    ensures node.JObj? && OwnText(node.fields).None? ==> r.None?
  {
    match node
    case JObj(f) =>
      (match OwnText(f)
       case None => None
       case Some(own) =>
         if "content" !in f then Some(own)
         else
           (match f["content"]
            case JArr(items) =>
              (match ExtractChildren(items)
               case None => None
               case Some(t) => Some(own + t))
            case JObj(m) => if |m| == 0 then Some(own) else None
            case JStr(s) => if s == "" then Some(own) else None
            case _ => None))
    case _ => None
  }

  /** Each child's text followed by a newline; one child that raises makes
      the whole loop raise. */
  function ExtractChildren(items: seq<Value>): (r: Option<string>)
    ensures r.None? <==> exists i :: 0 <= i < |items| && ExtractText(items[i]).None?
    ensures r.Some? ==> |r.value| >= |items|
  {
    if |items| == 0 then Some("")
    else
      match ExtractText(items[0])
      case None => None
      case Some(t) =>
        match ExtractChildren(items[1..])
        case None => None
        case Some(rest) => Some(t + "\n" + rest)
  }

  /** `_get_article_text`: `""` for empty content and wherever extraction
      raises. */
  function ArticleText(content: Value): (r: string)
    ensures !PyTruthy(content) ==> r == ""
    ensures PyTruthy(content) && ExtractText(content).Some? ==> r == ExtractText(content).value
    ensures ExtractText(content).None? ==> r == ""
  {
    if !PyTruthy(content) then ""
    else ExtractText(content).GetOr("")
  }

  /** An editor document as a tree: text leaves and typed blocks. */
  datatype DocNode = TextLeaf(text: string) | Block(kind: string, children: seq<DocNode>)

  /** The editor's JSON for a tree. */
  function Encode(n: DocNode): Value {
    match n
    case TextLeaf(t) => JObj(map["type" := JStr("text"), "text" := JStr(t)])
    case Block(k, cs) => JObj(map["type" := JStr(k), "content" := JArr(EncodeAll(cs))])
  }

  function EncodeAll(cs: seq<DocNode>): (r: seq<Value>)
    ensures |r| == |cs|
  {
    if |cs| == 0 then [] else [Encode(cs[0])] + EncodeAll(cs[1..])
  }

  /** The text of a tree: a leaf's text; for a block, each child's text
      followed by a newline. */
  function PlainText(n: DocNode): string {
    match n
    case TextLeaf(t) => t
    case Block(_, cs) => PlainTextAll(cs)
  }

  function PlainTextAll(cs: seq<DocNode>): string {
    if |cs| == 0 then "" else PlainText(cs[0]) + "\n" + PlainTextAll(cs[1..])
  }

  /** Extraction never fails on a well-formed document and yields its text. */
  lemma {:induction false} ExtractEncoded(n: DocNode)
    ensures ExtractText(Encode(n)) == Some(PlainText(n))
    decreases n, 1
  {
    match n
    case TextLeaf(t) =>
    case Block(k, cs) =>
      ExtractEncodedAll(cs);
      var f := map["type" := JStr(k), "content" := JArr(EncodeAll(cs))];
      assert OwnText(f) == Some("");
      assert "content" in f && f["content"] == JArr(EncodeAll(cs));
      assert "" + PlainTextAll(cs) == PlainTextAll(cs);
  }

  lemma {:induction false} ExtractEncodedAll(cs: seq<DocNode>)
    ensures ExtractChildren(EncodeAll(cs)) == Some(PlainTextAll(cs))
    decreases cs, 0
  {
    if |cs| > 0 {
      ExtractEncoded(cs[0]);
      ExtractEncodedAll(cs[1..]);
      assert EncodeAll(cs)[1..] == EncodeAll(cs[1..]);
    }
  }

  /** A document holding one paragraph with the text `Hi` reads as `Hi`
      followed by two newlines, one per level. */
  lemma ParagraphText()
    ensures ArticleText(Encode(Block("doc", [Block("paragraph", [TextLeaf("Hi")])]))) == "Hi\n\n"
  {
    ExtractEncoded(Block("doc", [Block("paragraph", [TextLeaf("Hi")])]));
  }

  /** An empty document has no text, so such an article is marked scanned
      without asking the model. */
  lemma EmptyDocumentHasNoText()
    ensures ArticleText(Encode(Block("doc", []))) == ""
    ensures ArticleText(JObj(map[])) == ""
  {
    ExtractEncoded(Block("doc", []));
  }

  // ---------------------------------------------------------------------------
  // Marking articles scanned

  /** `article.last_scanned_at = now` as it runs: the flush also writes the
      `updated_at` column's `onupdate` default, taken later, at `flushAt`. */
  function MarkScannedAsWritten(articles: seq<Article>, id: string, scanAt: int, flushAt: int): (r: seq<Article>)
    ensures |r| == |articles|
    ensures forall j :: 0 <= j < |articles| ==>
              r[j] == if articles[j].id == id then articles[j].(lastScannedAt := Some(scanAt), updatedAt := flushAt)
                      else articles[j]
  {
    seq(|articles|, j requires 0 <= j < |articles| =>
      if articles[j].id == id then articles[j].(lastScannedAt := Some(scanAt), updatedAt := flushAt) else articles[j])
  }

  /** As written, an article the scan has just processed is picked again by
      the next scan once the interval has passed, although nobody edited
      it: its `updated_at` lands after its `last_scanned_at`. */
  lemma ScannedAsWrittenIsPickedAgain(a: Article, userId: string, scanAt: int, flushAt: int, cutoff: int, threshold: int)
    requires a.userId == userId && !a.isDeleted
    requires scanAt < flushAt && cutoff <= flushAt && scanAt < threshold
    ensures IsCandidate(MarkScannedAsWritten([a], a.id, scanAt, flushAt)[0], userId, cutoff, threshold)
  {
  }

  /** `article.last_scanned_at = now`, with `updated_at` left alone. */
  function MarkScanned(articles: seq<Article>, id: string, now: int): (r: seq<Article>)
    ensures |r| == |articles|
    ensures forall j :: 0 <= j < |articles| ==>
              r[j] == if articles[j].id == id then articles[j].(lastScannedAt := Some(now)) else articles[j]
  {
    seq(|articles|, j requires 0 <= j < |articles| =>
      if articles[j].id == id then articles[j].(lastScannedAt := Some(now)) else articles[j])
  }

  /** A scanned article is not picked again until it is edited after the
      scan. */
  lemma ScannedIsNotPickedAgain(a: Article, userId: string, now: int, cutoff: int, threshold: int)
    requires a.updatedAt <= now
    ensures !IsCandidate(MarkScanned([a], a.id, now)[0], userId, cutoff, threshold)
    ensures forall t :: t > now ==>
              (IsCandidate(MarkScanned([a], a.id, now)[0].(updatedAt := t), userId, cutoff, threshold)
               <==> a.userId == userId && !a.isDeleted && t >= cutoff && now < threshold)
  {
  }

  /** With reordering as written, an article already scanned turns into a
      candidate again, although only its position changed. */
  lemma ReorderAsWrittenRescans(a: Article, userId: string, now: int, cutoff: int, threshold: int)
    requires a.userId == userId && !a.isDeleted && a.lastScannedAt.Some?
    requires a.updatedAt <= a.lastScannedAt.value < threshold && a.lastScannedAt.value < now && cutoff <= now
    ensures !IsCandidate(a, userId, cutoff, threshold)
    ensures IsCandidate(Articles.ReorderAsWritten([a], userId, [a.id], 1, now)[0], userId, cutoff, threshold)
  {
    Articles.ReorderAsWrittenStamps([a], userId, [a.id], 1, now, 0);
  }

  /** The corrected reorder leaves every article's candidacy as it was. */
  lemma ReorderKeepsCandidates(store: seq<Article>, userId: string, ids: seq<string>, j: nat,
                               u: string, cutoff: int, threshold: int)
    requires j < |store|
    ensures IsCandidate(Articles.Reorder(store, userId, ids)[j], u, cutoff, threshold)
            <==> IsCandidate(store[j], u, cutoff, threshold)
  {
    Articles.ReorderStepsPositions(store, userId, ids, |ids|, j);
  }

  // ---------------------------------------------------------------------------
  // One article, and the whole scan of a user

  /** The model's answer for an article, given its text and the user's
      memories: `None` when the call raises (a failed stream, or an answer
      whose entries are not objects); a reply that does not parse as JSON is
      an empty list. */
  type Extractor = (string, seq<Memory>) -> Option<seq<Change>>

  /** `process_article`: the store after it, or `None` when the model call
      raised (the article is then not marked). Empty text skips the model. */
  function ProcessArticle(store: seq<Memory>, userId: string, a: Article, extract: Extractor, now: int)
    : (r: Option<seq<Memory>>)
    ensures ArticleText(a.content) == "" ==> r == Some(store)
  {
    var text := ArticleText(a.content);
    if text == "" then Some(store)
    else
      var snap := Filter(store, (m: Memory) => m.userId == userId);
      match extract(text, snap)
      case None => None
      case Some(cs) => Some(ApplyChanges(store, snap, userId, a.id, cs, now))
  }

  /** The loop over the candidates, oldest first; stops at the first article
      whose model call raised. Returns the memories, the articles and how
      many candidates were processed. */
  function ProcessAll(store: seq<Memory>, articles: seq<Article>, cands: seq<Article>, userId: string,
                      extract: Extractor, now: int): (r: (seq<Memory>, seq<Article>, nat))
    ensures r.2 <= |cands| && |r.1| == |articles|
    decreases |cands|
  {
    if |cands| == 0 then (store, articles, 0)
    else
      match ProcessArticle(store, userId, cands[0], extract, now)
      case None => (store, articles, 0)
      case Some(store2) =>
        var rest := ProcessAll(store2, MarkScanned(articles, cands[0].id, now), cands[1..], userId, extract, now);
        (rest.0, rest.1, rest.2 + 1)
  }

  /** The state a scan reads and writes. */
  datatype ScanState = ScanState(memories: seq<Memory>, articles: seq<Article>, isScanning: bool)

  /** The outcome of `scan_user_articles`: the state after it, and whether
      an exception escaped. */
  datatype ScanResult = ScanResult(state: ScanState, raised: bool)

  /** `scan_user_articles` once the settings are read: the candidates for
      the cutoff (oldest update still scanned) and the threshold (latest
      scan that is due again), the skip rule, then every candidate in turn
      with the scanning flag set, cleared at the end whatever happened. */
  function ScanArticles(st: ScanState, userId: string, cutoff: int, threshold: int, extract: Extractor, now: int)
    : (r: ScanResult)
    ensures |r.state.articles| == |st.articles|
    ensures r.raised ==> !r.state.isScanning
    ensures ShouldScan(Candidates(st.articles, userId, cutoff, threshold), LatestSystemUpdate(st.memories, userId))
            ==> !r.state.isScanning
  {
    var cands := Candidates(st.articles, userId, cutoff, threshold);
    if !ShouldScan(cands, LatestSystemUpdate(st.memories, userId)) then ScanResult(st, false)
    else
      var p := ProcessAll(st.memories, st.articles, cands, userId, extract, now);
      ScanResult(ScanState(p.0, p.1, false), p.2 < |cands|)
  }

  /** `scan_user_articles(user)` at time `now`; `block` is the user's
      `background_scan` settings, `None` when absent. A scan that is not
      enabled does nothing. */
  function ScanUser(st: ScanState, userId: string, block: Option<Settings.StoredScan>, extract: Extractor, now: int)
    : (r: ScanResult)
    ensures !block.GetOr(EmptyBlock).enabled.GetOr(false) ==> r == ScanResult(st, false)
    ensures |r.state.articles| == |st.articles|
  {
    var b := block.GetOr(EmptyBlock);
    if !b.enabled.GetOr(false) then ScanResult(st, false)
    else ScanArticles(st, userId, now - SkipDeltaMs(b), now - ScanDeltaMs(b), extract, now)
  }

  /** The ids of these articles, in order. */
  function IdsOf(s: seq<Article>): (r: seq<string>)
    ensures |r| == |s| && forall k :: 0 <= k < |s| ==> r[k] == s[k].id
  {
    if |s| == 0 then [] else [s[0].id] + IdsOf(s[1..])
  }

  /** Every article with one of these ids marked scanned at `now`, one id
      after the other. */
  function MarkAll(articles: seq<Article>, ids: seq<string>, now: int): (r: seq<Article>)
    ensures |r| == |articles|
    ensures forall j :: 0 <= j < |articles| ==> r[j].id == articles[j].id
    ensures forall j :: 0 <= j < |articles| && articles[j].id !in ids ==> r[j] == articles[j]
    decreases |ids|
  {
    if |ids| == 0 then articles else MarkAll(MarkScanned(articles, ids[0], now), ids[1..], now)
  }

  /** Marking a list of ids marks exactly the rows with one of them. */
  lemma {:induction false} MarkAllRows(articles: seq<Article>, ids: seq<string>, now: int, j: nat)
    requires j < |articles|
    ensures MarkAll(articles, ids, now)[j]
            == if articles[j].id in ids then articles[j].(lastScannedAt := Some(now)) else articles[j]
    decreases |ids|
  {
    if |ids| > 0 {
      MarkAllRows(MarkScanned(articles, ids[0], now), ids[1..], now, j);
      assert ids == [ids[0]] + ids[1..];
    }
  }

  /** The loop's articles are the input with the processed candidates
      marked. */
  lemma {:induction false} ProcessAllMarksProcessed(store: seq<Memory>, articles: seq<Article>, cands: seq<Article>,
                                                    userId: string, extract: Extractor, now: int)
    ensures var r := ProcessAll(store, articles, cands, userId, extract, now);
            r.1 == MarkAll(articles, IdsOf(cands[..r.2]), now)
    decreases |cands|
  {
    if |cands| > 0 {
      match ProcessArticle(store, userId, cands[0], extract, now)
      case None =>
      case Some(store2) =>
        var marked := MarkScanned(articles, cands[0].id, now);
        ProcessAllMarksProcessed(store2, marked, cands[1..], userId, extract, now);
        var rest := ProcessAll(store2, marked, cands[1..], userId, extract, now);
        assert ProcessAll(store, articles, cands, userId, extract, now) == (rest.0, rest.1, rest.2 + 1);
        MarkAllFirst(articles, cands, rest.2, now);
    }
  }

  /** Marking the ids of the first `n + 1` candidates is marking the first
      one, then the ids of the next `n`. */
  lemma MarkAllFirst(articles: seq<Article>, cands: seq<Article>, n: nat, now: int)
    requires n < |cands|
    ensures MarkAll(articles, IdsOf(cands[..n + 1]), now)
            == MarkAll(MarkScanned(articles, cands[0].id, now), IdsOf(cands[1..][..n]), now)
  {
    assert cands[..n + 1] == [cands[0]] + cands[1..][..n];
    var ids := IdsOf(cands[..n + 1]);
    assert ids[0] == cands[0].id;
    assert ids[1..] == IdsOf(cands[1..][..n]);
  }

  /** The loop marks exactly the processed candidates scanned. */
  lemma ProcessAllMarks(store: seq<Memory>, articles: seq<Article>, cands: seq<Article>,
                        userId: string, extract: Extractor, now: int, j: nat)
    requires j < |articles|
    ensures var r := ProcessAll(store, articles, cands, userId, extract, now);
            r.1[j] == if articles[j].id in IdsOf(cands[..r.2]) then articles[j].(lastScannedAt := Some(now))
                      else articles[j]
  {
    ProcessAllMarksProcessed(store, articles, cands, userId, extract, now);
    var r := ProcessAll(store, articles, cands, userId, extract, now);
    MarkAllRows(articles, IdsOf(cands[..r.2]), now, j);
  }

  /** The loop stops early only when a model call raised. */
  lemma {:induction false} ProcessAllStops(store: seq<Memory>, articles: seq<Article>, cands: seq<Article>,
                                           userId: string, extract: Extractor, now: int)
    ensures var r := ProcessAll(store, articles, cands, userId, extract, now);
            r.2 < |cands| ==> ProcessArticle(r.0, userId, cands[r.2], extract, now).None?
    decreases |cands|
  {
    if |cands| > 0 {
      match ProcessArticle(store, userId, cands[0], extract, now)
      case None =>
      case Some(store2) =>
        var marked := MarkScanned(articles, cands[0].id, now);
        ProcessAllStops(store2, marked, cands[1..], userId, extract, now);
        var rest := ProcessAll(store2, marked, cands[1..], userId, extract, now);
        if rest.2 < |cands| - 1 {
          assert cands[1..][rest.2] == cands[rest.2 + 1];
        }
    }
  }

  /** A scan that was not skipped and ran to the end leaves every
      candidate marked scanned at `now` and every other article as it was;
      a skipped scan changes nothing. */
  lemma ScanMarksCandidates(st: ScanState, userId: string, cutoff: int, threshold: int,
                            extract: Extractor, now: int, j: nat)
    requires j < |st.articles|
    ensures var cands := Candidates(st.articles, userId, cutoff, threshold);
            var r := ScanArticles(st, userId, cutoff, threshold, extract, now);
            ShouldScan(cands, LatestSystemUpdate(st.memories, userId)) && !r.raised ==>
              r.state.articles[j]
              == if st.articles[j].id in IdsOf(cands) then st.articles[j].(lastScannedAt := Some(now)) else st.articles[j]
    ensures var cands := Candidates(st.articles, userId, cutoff, threshold);
            !ShouldScan(cands, LatestSystemUpdate(st.memories, userId)) ==>
              ScanArticles(st, userId, cutoff, threshold, extract, now) == ScanResult(st, false)
  {
    var cands := Candidates(st.articles, userId, cutoff, threshold);
    if ShouldScan(cands, LatestSystemUpdate(st.memories, userId)) {
      var p := ProcessAll(st.memories, st.articles, cands, userId, extract, now);
      assert ScanArticles(st, userId, cutoff, threshold, extract, now) == ScanResult(ScanState(p.0, p.1, false), p.2 < |cands|);
      if p.2 == |cands| {
        ProcessAllMarks(st.memories, st.articles, cands, userId, extract, now, j);
        assert cands[..p.2] == cands;
      }
    }
  }

  // ---------------------------------------------------------------------------
  // What a scan may not touch

  /** The memories a change may not touch: locked ones and other users'. */
  predicate Protected(m: Memory, userId: string) {
    m.isLocked || m.userId != userId
  }

  /** The snapshot still describes the store: a row with the id of a
      snapshot row has its owner and lock, and locked snapshot rows are all
      still there. */
  predicate SnapAgrees(store: seq<Memory>, snap: seq<Memory>) {
    && (forall s, x :: s in snap && x in store && x.id == s.id ==> x.userId == s.userId && x.isLocked == s.isLocked)
    && (forall s :: s in snap && s.isLocked ==> s in store)
  }

  /** The snapshot a processed article starts from agrees with the store. */
  lemma SnapshotAgrees(store: seq<Memory>, userId: string)
    requires Memories.UniqueIds(store)
    ensures SnapAgrees(store, Filter(store, (m: Memory) => m.userId == userId))
  {
    var snap := Filter(store, (m: Memory) => m.userId == userId);
    forall s, x | s in snap && x in store && x.id == s.id
      ensures x.userId == s.userId && x.isLocked == s.isLocked
    {
      var i :| 0 <= i < |store| && store[i] == s;
      var j :| 0 <= j < |store| && store[j] == x;
      assert i == j;
    }
  }

  /** The upsert keeps the snapshot in agreement and ids unique. */
  lemma AddMemoryAgrees(store: seq<Memory>, snap: seq<Memory>, userId: string, key: string,
                        value: map<string, Value>, confidence: string, category: string,
                        sourceArticleId: Option<string>, now: int)
    requires Memories.UniqueIds(store) && SnapAgrees(store, snap)
    requires forall s :: s in snap ==> s.userId == userId
    ensures var r := MemoryWorker.AddMemory(store, userId, key, value, confidence, category, sourceArticleId,
                                            Memories.FreshId(store), now).0;
            SnapAgrees(r, snap) && Memories.UniqueIds(r)
  {
    var newId := Memories.FreshId(store);
    MemoryWorker.AddMemoryKeepsIdsUnique(store, userId, key, value, confidence, category, sourceArticleId, newId, now);
    var r := MemoryWorker.AddMemory(store, userId, key, value, confidence, category, sourceArticleId, newId, now);
    match MemoryWorker.FindKey(store, userId, key)
    case Some(i) =>
      if !store[i].isLocked {
        forall x | x in r.0 ensures x in store || (x == r.1 && x.id == store[i].id && x.userId == store[i].userId && !x.isLocked) {
          var j :| 0 <= j < |r.0| && r.0[j] == x;
          if j != i {
            assert x == store[j];
          }
        }
        forall s | s in snap && s.isLocked ensures s in r.0 {
          var j :| 0 <= j < |store| && store[j] == s;
          assert j != i;
          assert r.0[j] == s;
        }
      }
    case None =>
      forall x | x in r.0 ensures x in store || x == r.1 {
        var j :| 0 <= j < |r.0| && r.0[j] == x;
        if j < |store| {
          assert x == store[j];
        }
      }
      forall s | s in snap && s.isLocked ensures s in r.0 {
        var j :| 0 <= j < |store| && store[j] == s;
        assert r.0[j] == s;
      }
  }

  /** One change keeps every protected memory, unique ids and the snapshot's
      agreement with the store. */
  lemma ApplyChangeKeepsProtected(store: seq<Memory>, snap: seq<Memory>, userId: string, articleId: string,
                                  c: Change, now: int, m: Memory)
    requires Memories.UniqueIds(store) && SnapAgrees(store, snap)
    requires forall s :: s in snap ==> s.userId == userId
    requires m in store && Protected(m, userId)
    ensures var r := ApplyChange(store, snap, userId, articleId, c, now);
            m in r && Memories.UniqueIds(r) && SnapAgrees(r, snap)
  {
    if c.key != "" && c.action != "" {
      var existing := FindInSnapshot(snap, c.key);
      if !(existing.Some? && existing.value.isLocked) {
        if c.action == "delete" && existing.Some? {
          var e := existing.value;
          forall s | s in snap && s.isLocked ensures s.id != e.id {
            assert s in store;
          }
        } else if c.action == "create" || c.action == "update" {
          var conf := c.confidence.GetOr(MemoryWorker.DefaultConfidence);
          var cat := c.category.GetOr(MemoryWorker.DefaultCategory);
          MemoryWorker.AddMemoryKeepsOthers(store, userId, c.key, ChangeValue(c), conf, cat,
            Some(articleId), Memories.FreshId(store), now, m);
          AddMemoryAgrees(store, snap, userId, c.key, ChangeValue(c), conf, cat, Some(articleId), now);
        }
      }
    }
  }

  /** Over all the changes of one article, protected memories survive and
      ids stay unique. */
  lemma {:induction false} ApplyChangesKeepsProtected(store: seq<Memory>, snap: seq<Memory>, userId: string,
                                                      articleId: string, cs: seq<Change>, now: int, m: Memory)
    requires Memories.UniqueIds(store) && SnapAgrees(store, snap)
    requires forall s :: s in snap ==> s.userId == userId
    requires m in store && Protected(m, userId)
    ensures var r := ApplyChanges(store, snap, userId, articleId, cs, now);
            m in r && Memories.UniqueIds(r) && SnapAgrees(r, snap)
    decreases |cs|
  {
    if |cs| > 0 {
      ApplyChangeKeepsProtected(store, snap, userId, articleId, cs[0], now, m);
      ApplyChangesKeepsProtected(ApplyChange(store, snap, userId, articleId, cs[0], now), snap, userId,
                                 articleId, cs[1..], now, m);
    }
  }

  /** A whole scan, whatever the model answers, deletes or rewrites no
      locked memory and none of another user, and keeps ids unique. */
  lemma {:induction false} ProcessAllKeepsProtected(store: seq<Memory>, articles: seq<Article>, cands: seq<Article>,
                                                    userId: string, extract: Extractor, now: int, m: Memory)
    requires Memories.UniqueIds(store)
    requires m in store && Protected(m, userId)
    ensures var r := ProcessAll(store, articles, cands, userId, extract, now);
            m in r.0 && Memories.UniqueIds(r.0)
    decreases |cands|
  {
    if |cands| > 0 {
      var a := cands[0];
      var text := ArticleText(a.content);
      if text != "" {
        var snap := Filter(store, (x: Memory) => x.userId == userId);
        SnapshotAgrees(store, userId);
        match extract(text, snap)
        case None =>
        case Some(cs) =>
          ApplyChangesKeepsProtected(store, snap, userId, a.id, cs, now, m);
          var store2 := ApplyChanges(store, snap, userId, a.id, cs, now);
          ProcessAllKeepsProtected(store2, MarkScanned(articles, a.id, now), cands[1..], userId, extract, now, m);
      } else {
        ProcessAllKeepsProtected(store, MarkScanned(articles, a.id, now), cands[1..], userId, extract, now, m);
      }
    }
  }

  /** A scan, for any cutoff and threshold the settings give, keeps every
      locked memory and every memory of another user. */
  lemma ScanKeepsProtected(st: ScanState, userId: string, cutoff: int, threshold: int,
                           extract: Extractor, now: int, m: Memory)
    requires Memories.UniqueIds(st.memories)
    requires m in st.memories && Protected(m, userId)
    ensures var r := ScanArticles(st, userId, cutoff, threshold, extract, now);
            m in r.state.memories && Memories.UniqueIds(r.state.memories)
  {
    var cands := Candidates(st.articles, userId, cutoff, threshold);
    ProcessAllKeepsProtected(st.memories, st.articles, cands, userId, extract, now, m);
  }
}

=== FILE: seqs.dfy ===
/** Sequence operations the interface code uses through `Array.prototype`:
    `filter`, and the stable `sort` with a comparator that orders by a pair
    of integers. */
module Seqs {

  // ---------------------------------------------------------------------------
  // Filtering

  /** `s.filter(p)`. */
  function Filter<T(!new)>(s: seq<T>, p: T -> bool): (r: seq<T>)
    ensures |r| <= |s|
    ensures forall x :: x in r <==> x in s && p(x)
    ensures forall i :: 0 <= i < |r| ==> p(r[i])
  {
    if |s| == 0 then []
    else
      assert s == [s[0]] + s[1..];
      (if p(s[0]) then [s[0]] else []) + Filter(s[1..], p)
  }

  /** Filtering works piece by piece, so it keeps the kept elements in order. */
  lemma {:induction false} FilterDistributes<T(!new)>(a: seq<T>, b: seq<T>, p: T -> bool)
    ensures Filter(a + b, p) == Filter(a, p) + Filter(b, p)
  {
    if |a| > 0 {
      assert (a + b)[1..] == a[1..] + b;
      FilterDistributes(a[1..], b, p);
    } else {
      assert a + b == b;
    }
  }

  /** A sequence whose elements all pass is its own filter. */
  lemma {:induction false} FilterKeepsAll<T(!new)>(s: seq<T>, p: T -> bool)
    requires forall i :: 0 <= i < |s| ==> p(s[i])
    ensures Filter(s, p) == s
  {
    if |s| > 0 {
      assert forall i :: 1 <= i < |s| ==> s[1..][i - 1] == s[i];
      FilterKeepsAll(s[1..], p);
    }
  }

  /** A sequence none of whose elements pass filters to nothing. */
  lemma FilterDropsAll<T(!new)>(s: seq<T>, p: T -> bool)
    requires forall i :: 0 <= i < |s| ==> !p(s[i])
    ensures Filter(s, p) == []
  {
  }

  /** Filtering twice is filtering once by both tests. */
  lemma {:induction false} FilterFilter<T(!new)>(s: seq<T>, p: T -> bool, q: T -> bool, both: T -> bool)
    requires forall x :: both(x) == (p(x) && q(x))
    ensures Filter(Filter(s, p), q) == Filter(s, both)
  {
    if |s| > 0 {
      FilterFilter(s[1..], p, q, both);
      var head := if p(s[0]) then [s[0]] else [];
      FilterDistributes(head, Filter(s[1..], p), q);
      if p(s[0]) {
        assert ([s[0]] + Filter(s[1..], p))[1..] == Filter(s[1..], p);
      }
    }
  }

  /** Filtering keeps every passing element as often as it occurs, and
      no other. */
  lemma {:induction false} FilterCount<T(!new)>(s: seq<T>, p: T -> bool, x: T)
    ensures multiset(Filter(s, p))[x] == if p(x) then multiset(s)[x] else 0
  {
    if |s| > 0 {
      FilterCount(s[1..], p, x);
      assert s == [s[0]] + s[1..];
    }
  }

  /** How many elements of `s` pass `p`. */
  function CountWhere<T>(s: seq<T>, p: T -> bool): nat {
    if |s| == 0 then 0 else (if p(s[0]) then 1 else 0) + CountWhere(s[1..], p)
  }

  /** No element is counted exactly when none passes. */
  lemma {:induction false} CountWhereZero<T>(s: seq<T>, p: T -> bool)
    ensures CountWhere(s, p) == 0 <==> forall i :: 0 <= i < |s| ==> !p(s[i])
  {
    if |s| > 0 {
      CountWhereZero(s[1..], p);
      assert forall i :: 1 <= i < |s| ==> s[1..][i - 1] == s[i];
    }
  }

  /** The kept elements and the counted rejected ones make up the sequence. */
  lemma {:induction false} FilterPlusCount<T(!new)>(s: seq<T>, p: T -> bool, q: T -> bool)
    requires forall x :: q(x) == !p(x)
    ensures |Filter(s, p)| + CountWhere(s, q) == |s|
  {
    if |s| > 0 {
      FilterPlusCount(s[1..], p, q);
    }
  }

  // ---------------------------------------------------------------------------
  // Stable sorting by an integer pair

  type Key = (int, int)

  /** Lexicographic order on keys: what a comparator `a.x - b.x || a.y - b.y` decides. */
  predicate KeyLe(a: Key, b: Key) {
    a.0 < b.0 || (a.0 == b.0 && a.1 <= b.1)
  }

  predicate SortedBy<T>(s: seq<T>, key: T -> Key) {
    forall i, j :: 0 <= i < j < |s| ==> KeyLe(key(s[i]), key(s[j]))
  }

  /** The elements of `s` whose key is `k`, in order. */
  function WithKey<T>(s: seq<T>, key: T -> Key, k: Key): seq<T> {
    if |s| == 0 then [] else (if key(s[0]) == k then [s[0]] else []) + WithKey(s[1..], key, k)
  }

  /** `x` placed before the first element whose key is not below its own. */
  function Insert<T>(x: T, s: seq<T>, key: T -> Key): (r: seq<T>)
    ensures |r| == |s| + 1
    ensures multiset(r) == multiset(s) + multiset{x}
    ensures SortedBy(s, key) ==> SortedBy(r, key)
  {
    if |s| == 0 then [x]
    else if KeyLe(key(x), key(s[0])) then [x] + s
    else
      var rest := Insert(x, s[1..], key);
      assert s == [s[0]] + s[1..];
      assert SortedBy(s, key) ==> SortedBy([s[0]] + rest, key) by {
        if SortedBy(s, key) {
          forall j | 0 < j < |rest| + 1 ensures KeyLe(key(s[0]), key(([s[0]] + rest)[j])) {
            var y := rest[j - 1];
            assert y in multiset(rest);
            assert y in multiset(s[1..]) + multiset{x};
            if y != x {
              assert y in s[1..];
            }
          }
        }
      }
      [s[0]] + rest
  }

  /** `[...s].sort(cmp)` for a comparator ordering by `key`. */
  function SortBy<T>(s: seq<T>, key: T -> Key): (r: seq<T>)
    ensures |r| == |s|
    ensures multiset(r) == multiset(s)
    ensures SortedBy(r, key)
  {
    if |s| == 0 then []
    else
      assert s == [s[0]] + s[1..];
      Insert(s[0], SortBy(s[1..], key), key)
  }

  /** Inserting `x` keeps the order among every other key, and puts `x`
      before the elements sharing its key. */
  lemma {:induction false} InsertWithKey<T>(x: T, s: seq<T>, key: T -> Key, k: Key)
    ensures WithKey(Insert(x, s, key), key, k) == (if key(x) == k then [x] else []) + WithKey(s, key, k)
  {
    if |s| == 0 || KeyLe(key(x), key(s[0])) {
      assert Insert(x, s, key) == [x] + s;
      WithKeyCons(x, s, key, k);
    } else {
      var xs: seq<T> := if key(x) == k then [x] else [];
      var head: seq<T> := if key(s[0]) == k then [s[0]] else [];
      var rest := Insert(x, s[1..], key);
      assert Insert(x, s, key) == [s[0]] + rest;
      InsertWithKey(x, s[1..], key, k);
      WithKeyCons(s[0], rest, key, k);
      assert s == [s[0]] + s[1..];
      WithKeyCons(s[0], s[1..], key, k);
      assert head + xs == xs + head;
    }
  }

  lemma WithKeyCons<T>(y: T, s: seq<T>, key: T -> Key, k: Key)
    ensures WithKey([y] + s, key, k) == (if key(y) == k then [y] else []) + WithKey(s, key, k)
  {
    assert ([y] + s)[1..] == s;
  }

  /** Sorting keeps exactly the elements it was given. */
  lemma SortByMembers<T>(s: seq<T>, key: T -> Key)
    ensures forall x :: x in SortBy(s, key) <==> x in s
  {
    var r := SortBy(s, key);
    forall x ensures x in r <==> x in s {
      assert x in r <==> x in multiset(r);
      assert x in s <==> x in multiset(s);
    }
  }

  /** The sort is stable: elements with equal keys keep their input order. */
  lemma {:induction false} SortStable<T>(s: seq<T>, key: T -> Key, k: Key)
    ensures WithKey(SortBy(s, key), key, k) == WithKey(s, key, k)
  {
    if |s| > 0 {
      SortStable(s[1..], key, k);
      InsertWithKey(s[0], SortBy(s[1..], key), key, k);
    }
  }
}

=== FILE: settings.dfy ===
/** The settings dialog (`components/Settings/SettingsModal.tsx`): how the
    stored millisecond intervals are shown as a value and a unit, how the
    form is written back, and how the number inputs are clamped. */
module Settings {
  import opened Wrappers

  const SecondMs: int := 1000
  const MinuteMs: int := 60000
  const HourMs: int := 3600000
  const DayMs: int := 86400000

  /** Units of the AI trigger interval. */
  datatype IntervalUnit = Seconds | Minutes | Hours | Days

  /** Units of the per-article request interval. */
  datatype RequestUnit = ReqMinutes | ReqHours | ReqDays

  /** The stored background-scan block; absent fields are `None`. */
  datatype StoredScan = StoredScan(
    enabled: Option<bool>,
    intervalValue: Option<int>,
    intervalUnit: Option<string>,
    skipValue: Option<int>,
    skipUnit: Option<string>)

  /** The stored user settings the dialog reads and writes. */
  datatype Stored = Stored(
    aiEnabled: Option<bool>,
    maxOpenComments: Option<int>,
    aiInterval: Option<int>,
    requestInterval: Option<int>,
    backgroundScan: Option<StoredScan>)

  /** The dialog's form state. */
  datatype Form = Form(
    aiEnabled: bool,
    intervalValue: int,
    intervalUnit: IntervalUnit,
    maxComments: int,
    requestValue: int,
    requestUnit: RequestUnit,
    scanEnabled: bool,
    scanIntervalValue: int,
    scanIntervalUnit: string,
    scanSkipValue: int,
    scanSkipUnit: string)

  /** The form before any settings are loaded. */
  const InitialForm: Form := Form(true, 30, Seconds, 5, 30, ReqMinutes, false, 24, "hours", 14, "days")

  // ---------------------------------------------------------------------------
  // Milliseconds to value and unit

  function IntervalFactor(u: IntervalUnit): int {
    match u
    case Seconds => SecondMs
    case Minutes => MinuteMs
    case Hours => HourMs
    case Days => DayMs
  }

  function RequestFactor(u: RequestUnit): int {
    match u
    case ReqMinutes => MinuteMs
    case ReqHours => HourMs
    case ReqDays => DayMs
  }

  /** The stored AI interval as value and unit: the largest of days, hours
      and minutes that it is a whole positive number of, else whole seconds
      rounded down. */
  function ShowInterval(ms: int): (r: (int, IntervalUnit))
    ensures r.1 == Days <==> ms >= DayMs && ms % DayMs == 0
    ensures r.1 == Hours <==> !(ms >= DayMs && ms % DayMs == 0) && ms >= HourMs && ms % HourMs == 0
    ensures r.1 == Seconds <==> !(ms >= MinuteMs && ms % MinuteMs == 0)
    ensures r.1 != Seconds ==> r.0 >= 1 && r.0 * IntervalFactor(r.1) == ms
    ensures r.1 == Seconds ==> r.0 * SecondMs <= ms < (r.0 + 1) * SecondMs
  {
    if ms >= DayMs && ms % DayMs == 0 then (ms / DayMs, Days)
    else if ms >= HourMs && ms % HourMs == 0 then (ms / HourMs, Hours)
    else if ms >= MinuteMs && ms % MinuteMs == 0 then (ms / MinuteMs, Minutes)
    else (ms / SecondMs, Seconds)
  }

  /** The stored request interval, when positive, as value and unit: whole
      days or hours when exact, else whole minutes rounded down. */
  function ShowRequest(ms: int): (r: (int, RequestUnit))
    requires ms > 0
    ensures r.1 == ReqDays <==> ms >= DayMs && ms % DayMs == 0
    ensures r.1 == ReqHours <==> !(ms >= DayMs && ms % DayMs == 0) && ms >= HourMs && ms % HourMs == 0
    ensures r.1 != ReqMinutes ==> r.0 >= 1 && r.0 * RequestFactor(r.1) == ms
    ensures r.1 == ReqMinutes ==> r.0 >= 0 && r.0 * MinuteMs <= ms < (r.0 + 1) * MinuteMs
  {
    if ms >= DayMs && ms % DayMs == 0 then (ms / DayMs, ReqDays)
    else if ms >= HourMs && ms % HourMs == 0 then (ms / HourMs, ReqHours)
    else (ms / MinuteMs, ReqMinutes)
  }

  // ---------------------------------------------------------------------------
  // Value and unit to milliseconds

  /** `ai_interval` written on save. */
  function IntervalMs(value: int, u: IntervalUnit): (ms: int)
    ensures ms == value * IntervalFactor(u)
  {
    var ms := value * 1000;
    if u == Minutes then ms * 60
    else if u == Hours then ms * 3600
    else if u == Days then ms * 86400
    else ms
  }

  /** `article_request_interval` written on save: zero for a value that is
      not positive. */
  function RequestMs(value: int, u: RequestUnit): (ms: int)
    ensures value <= 0 ==> ms == 0
    ensures value > 0 ==> ms == value * RequestFactor(u)
  {
    if value > 0 then
      var ms := value * 60000;
      if u == ReqHours then ms * 60
      else if u == ReqDays then ms * 1440
      else ms
    else 0
  }

  /** Showing a positive whole number of seconds and saving it again gives
      back the stored interval. */
  lemma IntervalRoundTrip(ms: int)
    requires ms > 0 && ms % SecondMs == 0
    ensures var r := ShowInterval(ms); IntervalMs(r.0, r.1) == ms
  {
  }

  /** Showing a positive whole number of minutes and saving it again gives
      back the stored request interval. */
  lemma RequestRoundTrip(ms: int)
    requires ms > 0 && ms % MinuteMs == 0
    ensures var r := ShowRequest(ms); RequestMs(r.0, r.1) == ms
  {
  }

  // ---------------------------------------------------------------------------
  // Loading and saving the form

  /** `fetchSettings`: each present setting overwrites its form fields. An
      AI interval that is absent or zero, an absent request interval and an
      absent scan block leave their fields as they were; a present scan block
      sets all five scan fields, each absent one to its default. */
  function Load(f: Form, s: Stored): (g: Form)
    ensures g.aiEnabled == s.aiEnabled.GetOr(f.aiEnabled)
    ensures g.maxComments == s.maxOpenComments.GetOr(f.maxComments)
    ensures s.aiInterval.None? || s.aiInterval == Some(0) ==>
              g.intervalValue == f.intervalValue && g.intervalUnit == f.intervalUnit
    ensures s.aiInterval.Some? && s.aiInterval.value != 0 ==>
              (g.intervalValue, g.intervalUnit) == ShowInterval(s.aiInterval.value)
    ensures s.requestInterval.None? ==> g.requestValue == f.requestValue && g.requestUnit == f.requestUnit
    ensures s.requestInterval.Some? && s.requestInterval.value <= 0 ==>
              g.requestValue == 0 && g.requestUnit == f.requestUnit
    ensures s.requestInterval.Some? && s.requestInterval.value > 0 ==>
              (g.requestValue, g.requestUnit) == ShowRequest(s.requestInterval.value)
    ensures s.backgroundScan.None? ==>
              g.scanEnabled == f.scanEnabled && g.scanIntervalValue == f.scanIntervalValue
              && g.scanIntervalUnit == f.scanIntervalUnit && g.scanSkipValue == f.scanSkipValue
              && g.scanSkipUnit == f.scanSkipUnit
    ensures s.backgroundScan.Some? ==>
              var b := s.backgroundScan.value;
              && g.scanEnabled == b.enabled.GetOr(false)
              && g.scanIntervalValue == b.intervalValue.GetOr(24)
              && g.scanIntervalUnit == b.intervalUnit.GetOr("hours")
              && g.scanSkipValue == b.skipValue.GetOr(14)
              && g.scanSkipUnit == b.skipUnit.GetOr("days")
  {
    var f1 := f.(aiEnabled := s.aiEnabled.GetOr(f.aiEnabled),
                 maxComments := s.maxOpenComments.GetOr(f.maxComments));
    var f2 :=
      if s.aiInterval.Some? && s.aiInterval.value != 0 then
        var r := ShowInterval(s.aiInterval.value);
        f1.(intervalValue := r.0, intervalUnit := r.1)
      else f1;
    var f3 :=
      match s.requestInterval
      case None => f2
      case Some(v) =>
        if v > 0 then
          var r := ShowRequest(v);
          f2.(requestValue := r.0, requestUnit := r.1)
        else f2.(requestValue := 0);
    match s.backgroundScan
    case None => f3
    case Some(b) =>
      f3.(scanEnabled := b.enabled.GetOr(false),
          scanIntervalValue := b.intervalValue.GetOr(24),
          scanIntervalUnit := b.intervalUnit.GetOr("hours"),
          scanSkipValue := b.skipValue.GetOr(14),
          scanSkipUnit := b.skipUnit.GetOr("days"))
  }

  /** A stored scan block with no fields loads the defaults: disabled, every
      24 hours, skipping articles older than 14 days; these are also the
      form's values before loading. */
  lemma EmptyScanBlockDefaults(f: Form, s: Stored)
    requires s.backgroundScan == Some(StoredScan(None, None, None, None, None))
    ensures var g := Load(f, s);
            && !g.scanEnabled && g.scanIntervalValue == 24 && g.scanIntervalUnit == "hours"
            && g.scanSkipValue == 14 && g.scanSkipUnit == "days"
            && g.scanEnabled == InitialForm.scanEnabled
            && g.scanIntervalValue == InitialForm.scanIntervalValue
            && g.scanSkipValue == InitialForm.scanSkipValue
  {
  }

  /** `handleSave`: the settings written from the form. */
  function Save(f: Form): (s: Stored)
    ensures s.aiInterval == Some(f.intervalValue * IntervalFactor(f.intervalUnit))
    ensures s.requestInterval == Some(if f.requestValue > 0 then f.requestValue * RequestFactor(f.requestUnit) else 0)
    ensures s.aiEnabled == Some(f.aiEnabled) && s.maxOpenComments == Some(f.maxComments)
    ensures s.backgroundScan.Some?
  {
    Stored(Some(f.aiEnabled), Some(f.maxComments),
           Some(IntervalMs(f.intervalValue, f.intervalUnit)),
           Some(RequestMs(f.requestValue, f.requestUnit)),
           Some(StoredScan(Some(f.scanEnabled), Some(f.scanIntervalValue), Some(f.scanIntervalUnit),
                           Some(f.scanSkipValue), Some(f.scanSkipUnit))))
  }

  /** Saving, reopening the dialog (whatever its form held) and saving again
      writes the same settings, for a positive trigger interval. */
  lemma SaveLoadSave(f: Form, before: Form)
    requires f.intervalValue >= 1
    ensures Save(Load(before, Save(f))) == Save(f)
  {
    var s := Save(f);
    var g := Load(before, s);
    WholeSeconds(f.intervalValue, f.intervalUnit);
    IntervalRoundTrip(s.aiInterval.value);
    assert IntervalMs(g.intervalValue, g.intervalUnit) == s.aiInterval.value;
    if f.requestValue > 0 {
      WholeMinutes(f.requestValue, f.requestUnit);
      RequestRoundTrip(s.requestInterval.value);
    }
    assert RequestMs(g.requestValue, g.requestUnit) == s.requestInterval.value;
  }

  /** A positive number of any interval unit is a positive whole number of
      seconds. */
  lemma WholeSeconds(value: int, u: IntervalUnit)
    requires value >= 1
    ensures IntervalMs(value, u) > 0 && IntervalMs(value, u) % SecondMs == 0
  {
    var k := value * (IntervalFactor(u) / SecondMs);
    assert IntervalFactor(u) == (IntervalFactor(u) / SecondMs) * SecondMs;
    assert IntervalMs(value, u) == k * SecondMs;
  }

  /** A positive number of any request unit is a positive whole number of
      minutes. */
  lemma WholeMinutes(value: int, u: RequestUnit)
    requires value >= 1
    ensures RequestMs(value, u) > 0 && RequestMs(value, u) % MinuteMs == 0
  {
    var k := value * (RequestFactor(u) / MinuteMs);
    assert RequestFactor(u) == (RequestFactor(u) / MinuteMs) * MinuteMs;
    assert RequestMs(value, u) == k * MinuteMs;
  }

  // ---------------------------------------------------------------------------
  // Input clamps

  /** `Math.max(1, parseInt(text) || 1)`, with `None` for an input that
      does not parse (`NaN`). */
  function ClampPositive(parsed: Option<int>): (v: int)
    ensures v >= 1
    ensures parsed.Some? && parsed.value >= 1 ==> v == parsed.value
    ensures parsed.None? || parsed.value < 1 ==> v == 1
  {
    var raw := if parsed.Some? && parsed.value != 0 then parsed.value else 1;
    if raw < 1 then 1 else raw
  }

  /** `Math.max(0, parseInt(text) || 0)`. */
  function ClampNonNegative(parsed: Option<int>): (v: int)
    ensures v >= 0
    ensures parsed.Some? && parsed.value >= 0 ==> v == parsed.value
    ensures parsed.None? || parsed.value < 0 ==> v == 0
  {
    var raw := if parsed.Some? && parsed.value != 0 then parsed.value else 0;
    if raw < 0 then 0 else raw
  }

  /** A trigger interval typed into the form is always positive, so the
      save-reopen-save round trip applies to it. */
  lemma TypedIntervalRoundTrips(f: Form, before: Form, parsed: Option<int>)
    ensures Save(Load(before, Save(f.(intervalValue := ClampPositive(parsed))))) == Save(f.(intervalValue := ClampPositive(parsed)))
  {
    SaveLoadSave(f.(intervalValue := ClampPositive(parsed)), before);
  }
}

=== FILE: sidebar.dfy ===
/** The comment sidebar (`components/Editor/CommentSidebar.tsx`): which
    comments are listed, how their age is shown, when the quote line appears,
    and the per-comment reply box. */
module Sidebar {
  import opened Wrappers
  import opened Text
  import opened CommentModel
  import Seqs

  // ---------------------------------------------------------------------------
  // Visibility (`validComments`, `validResolvedComments`)

  /** A comment is listed unless its content is hidden (NO_COMMENT anywhere,
      any ASCII case, or blank); missing content counts as empty. */
  predicate Visible(c: Comment) {
    !IsHiddenContent(c.content)
  }

  /** The listed comments of `cs`, in order. */
  function VisibleComments(cs: seq<Comment>): (r: seq<Comment>)
    ensures |r| <= |cs|
    ensures forall c :: c in r <==> c in cs && Visible(c)
    ensures forall i :: 0 <= i < |r| ==> Visible(r[i])
  {
    Seqs.Filter(cs, Visible)
  }

  /** The filter works piece by piece, so it keeps the listed comments in
      their original order. */
  lemma VisibleDistributes(a: seq<Comment>, b: seq<Comment>)
    ensures VisibleComments(a + b) == VisibleComments(a) + VisibleComments(b)
  {
    Seqs.FilterDistributes(a, b, Visible);
  }

  /** A list whose comments are all listable is shown unchanged; filtering a
      filtered list changes nothing. */
  lemma VisibleKeepsVisible(cs: seq<Comment>)
    requires forall i :: 0 <= i < |cs| ==> Visible(cs[i])
    ensures VisibleComments(cs) == cs
  {
    Seqs.FilterKeepsAll(cs, Visible);
  }

  /** A comment the sidebar leaves out. */
  predicate Hidden(c: Comment) {
    !Visible(c)
  }

  /** How many entries of `cs` the sidebar hides. */
  function HiddenCount(cs: seq<Comment>): nat {
    Seqs.CountWhere(cs, Hidden)
  }

  /** Every entry is either listed or hidden. */
  lemma VisiblePlusHidden(cs: seq<Comment>)
    ensures |VisibleComments(cs)| + HiddenCount(cs) == |cs|
  {
    Seqs.FilterPlusCount(cs, Visible, Hidden);
  }

  /** None is hidden exactly when all are visible. */
  lemma NoneHidden(cs: seq<Comment>)
    ensures HiddenCount(cs) == 0 <==> forall i :: 0 <= i < |cs| ==> Visible(cs[i])
  {
    Seqs.CountWhereZero(cs, Hidden);
  }

  /** The numbers on the Open and Resolved tabs: each list's length less
      its hidden entries, the full length exactly when nothing is hidden. */
  function TabCounts(open: seq<Comment>, resolved: seq<Comment>): (r: (nat, nat))
    ensures r.0 <= |open| && r.1 <= |resolved|
    ensures r.0 == |VisibleComments(open)| && r.1 == |VisibleComments(resolved)|
    ensures r.0 + HiddenCount(open) == |open| && r.1 + HiddenCount(resolved) == |resolved|
    ensures r.0 == |open| <==> forall i :: 0 <= i < |open| ==> Visible(open[i])
    ensures r.1 == |resolved| <==> forall i :: 0 <= i < |resolved| ==> Visible(resolved[i])
  {
    VisiblePlusHidden(open);
    VisiblePlusHidden(resolved);
    NoneHidden(open);
    NoneHidden(resolved);
    (|VisibleComments(open)|, |VisibleComments(resolved)|)
  }

  // ---------------------------------------------------------------------------
  // Relative time (`formatTime`)

  const MinuteMs: int := 60000
  const HourMs: int := 3600000
  const DayMs: int := 86400000

  /** The shape of the age label; `FullDate` stands for the locale-formatted
      date of the comment. */
  datatype RelTime = JustNow | MinutesAgo(mins: nat) | HoursAgo(hours: nat) | FullDate(at: int)

  /** `formatTime(created_at)` at time `now` (milliseconds). The code takes
      `Math.floor` of the elapsed minutes and of those minutes over 60; for a
      positive divisor Dafny's division is that floor. */
  function FormatTime(createdAt: Option<int>, now: int): (r: RelTime)
    ensures createdAt.None? ==> r == JustNow
    ensures createdAt.Some? ==>
              var d := now - createdAt.value;
              && (r == JustNow <==> d < MinuteMs)
              && (r.MinutesAgo? <==> MinuteMs <= d < HourMs)
              && (r.HoursAgo? <==> HourMs <= d < DayMs)
              && (r.FullDate? <==> DayMs <= d)
              && (r.MinutesAgo? ==> r.mins * MinuteMs <= d < (r.mins + 1) * MinuteMs)
              && (r.HoursAgo? ==> r.hours * HourMs <= d < (r.hours + 1) * HourMs)
  {
    match createdAt
    case None => JustNow
    case Some(t) =>
      var diffMins := (now - t) / MinuteMs;
      var diffHours := diffMins / 60;
      FloorOfFloor(now - t);
      if diffMins < 1 then JustNow
      else if diffMins < 60 then MinutesAgo(diffMins)
      else if diffHours < 24 then HoursAgo(diffHours)
      else FullDate(t)
  }

  /** Whole minutes, then whole hours of those minutes, are whole hours. */
  lemma FloorOfFloor(d: int)
    ensures (d / MinuteMs) / 60 == d / HourMs
  {
    var m := d / MinuteMs;
    var h := m / 60;
    assert m * MinuteMs <= d < (m + 1) * MinuteMs;
    assert h * 60 <= m < (h + 1) * 60;
    assert h * HourMs <= d by {
      assert h * HourMs == (h * 60) * MinuteMs;
    }
    assert d < (h + 1) * HourMs by {
      assert (h + 1) * HourMs == ((h + 1) * 60) * MinuteMs;
      assert m + 1 <= (h + 1) * 60;
    }
  }

  /** The label text; `None` for the locale-formatted date. */
  function Label(r: RelTime): (s: Option<string>)
    ensures s.None? <==> r.FullDate?
  {
    match r
    case JustNow => Some("Just now")
    case MinutesAgo(m) => Some(NatToString(m) + " mins ago")
    case HoursAgo(h) => Some(NatToString(h) + " hours ago")
    case FullDate(_) => None
  }

  /** Different ages give different labels. */
  lemma LabelInjective(a: RelTime, b: RelTime)
    requires !a.FullDate? && !b.FullDate?
    ensures Label(a) == Label(b) ==> a == b
  {
    var s, t := Label(a).value, Label(b).value;
    if a.JustNow? && !b.JustNow? {
      assert s[0] == 'J' && '0' <= t[0] <= '9';
    } else if !a.JustNow? && b.JustNow? {
      assert t[0] == 'J' && '0' <= s[0] <= '9';
    } else if a.MinutesAgo? && b.MinutesAgo? {
      if s == t {
        assert NatToString(a.mins) == s[..|NatToString(a.mins)|];
        assert NatToString(b.mins) == s[..|NatToString(b.mins)|];
        NatToStringInjective(a.mins, b.mins);
      }
    } else if a.HoursAgo? && b.HoursAgo? {
      if s == t {
        assert NatToString(a.hours) == s[..|NatToString(a.hours)|];
        assert NatToString(b.hours) == s[..|NatToString(b.hours)|];
        NatToStringInjective(a.hours, b.hours);
      }
    } else if a.MinutesAgo? && b.HoursAgo? {
      assert s[|s| - 9] == ' ' && t[|t| - 9] == 'h';
    } else if a.HoursAgo? && b.MinutesAgo? {
      assert s[|s| - 9] == 'h' && t[|t| - 9] == ' ';
    }
  }

  // ---------------------------------------------------------------------------
  // Quote line

  /** The italic quote line: shown for a present quote other than NONE. */
  function QuoteLine(c: Comment): (r: Option<string>)
    ensures r.Some? <==> c.quote.Some? && c.quote.value != "" && c.quote.value != NoneQuote
    ensures r.Some? ==> r == c.quote
  {
    if HasAnchorQuote(c) then c.quote else None
  }

  // ---------------------------------------------------------------------------
  // Reply box (`handleReplySubmit`)

  /** The typed reply text and the waiting flag of each comment. */
  datatype ReplyBox = ReplyBox(text: map<string, string>, loading: map<string, bool>)

  function TextOf(b: ReplyBox, id: string): string {
    if id in b.text then b.text[id] else ""
  }

  predicate IsLoading(b: ReplyBox, id: string) {
    id in b.loading && b.loading[id]
  }

  /** Pressing send on comment `id`: the new box and the reply handed to
      `onReply`, if any. */
  function SubmitReply(b: ReplyBox, id: string): (r: (ReplyBox, Option<string>))
    ensures IsBlank(TextOf(b, id)) || IsLoading(b, id) ==> r == (b, None)
    ensures !IsBlank(TextOf(b, id)) && !IsLoading(b, id) ==>
              && r.1 == Some(TextOf(b, id))
              && TextOf(r.0, id) == "" && IsLoading(r.0, id)
              && (forall o :: o != id ==> TextOf(r.0, o) == TextOf(b, o) && (IsLoading(r.0, o) <==> IsLoading(b, o)))
  {
    if IsBlank(TextOf(b, id)) || IsLoading(b, id) then (b, None)
    else (ReplyBox(b.text[id := ""], b.loading[id := true]), Some(TextOf(b, id)))
  }

  /** `onReply` settled (either way): the waiting flag is cleared. */
  function FinishReply(b: ReplyBox, id: string): (r: ReplyBox)
    ensures !IsLoading(r, id)
    ensures forall o :: TextOf(r, o) == TextOf(b, o)
    ensures forall o :: o != id ==> (IsLoading(r, o) <==> IsLoading(b, o))
  {
    b.(loading := b.loading[id := false])
  }

  /** While a reply is in flight, pressing send again sends nothing; once it
      has settled, sending works again for a freshly typed text. */
  lemma OneReplyInFlight(b: ReplyBox, id: string, typed: string)
    requires SubmitReply(b, id).1.Some?
    requires !IsBlank(typed)
    ensures var b1 := SubmitReply(b, id).0;
            && SubmitReply(b1, id).1.None?
            && SubmitReply(FinishReply(b1, id).(text := b1.text[id := typed]), id).1 == Some(typed)
  {
    var b1 := SubmitReply(b, id).0;
    assert IsLoading(b1, id);
    var b2 := FinishReply(b1, id).(text := b1.text[id := typed]);
    assert TextOf(b2, id) == typed;
    assert !IsLoading(b2, id);
  }
}

=== FILE: str_order.dfy ===
/** JavaScript's default `Array.prototype.sort` order on strings:
    lexicographic by character, a proper prefix first. */
module StrOrder {

  predicate Less(a: string, b: string)
    decreases |a|
  {
    if |a| == 0 then |b| > 0
    else if |b| == 0 then false
    else if a[0] < b[0] then true
    else a[0] == b[0] && Less(a[1..], b[1..])
  }

  lemma {:induction false} LessIrreflexive(a: string)
    ensures !Less(a, a)
    decreases |a|
  {
    if |a| > 0 {
      LessIrreflexive(a[1..]);
    }
  }

  lemma {:induction false} LessTransitive(a: string, b: string, c: string)
    requires Less(a, b) && Less(b, c)
    ensures Less(a, c)
    decreases |a|
  {
    if |a| > 0 && a[0] == b[0] && b[0] == c[0] {
      LessTransitive(a[1..], b[1..], c[1..]);
    }
  }

  lemma {:induction false} LessTotal(a: string, b: string)
    requires a != b
    ensures Less(a, b) || Less(b, a)
    decreases |a|
  {
    if |a| > 0 && |b| > 0 && a[0] == b[0] {
      assert a == [a[0]] + a[1..] && b == [b[0]] + b[1..];
      LessTotal(a[1..], b[1..]);
    }
  }

  lemma {:induction false} LessAsymmetric(a: string, b: string)
    requires Less(a, b)
    ensures !Less(b, a)
  {
    if Less(b, a) {
      LessTransitive(a, b, a);
      LessIrreflexive(a);
    }
  }

  function Elems(s: seq<string>): set<string> {
    set y | y in s
  }

  lemma ElemsCons(h: string, t: seq<string>)
    ensures Elems([h] + t) == {h} + Elems(t)
  {
    assert forall y :: y in [h] + t <==> y == h || y in t;
  }

  /** Strictly increasing: sorted and free of duplicates. */
  predicate StrictlySorted(s: seq<string>) {
    forall i, j :: 0 <= i < j < |s| ==> Less(s[i], s[j])
  }

  /** `x` added to a strictly increasing list unless already there. */
  function InsertUnique(x: string, s: seq<string>): (r: seq<string>)
    requires StrictlySorted(s)
    ensures StrictlySorted(r)
    ensures Elems(r) == Elems(s) + {x}
    decreases |s|
  {
    if |s| == 0 then [x]
    else if x == s[0] then s
    else if Less(x, s[0]) then
      assert forall j :: 0 < j < |s| ==> Less(x, s[j]) by {
        forall j | 0 < j < |s| ensures Less(x, s[j]) {
          LessTransitive(x, s[0], s[j]);
        }
      }
      [x] + s
    else
      LessTotal(x, s[0]);
      var rest := InsertUnique(x, s[1..]);
      assert s == [s[0]] + s[1..];
      assert forall j :: 0 <= j < |rest| ==> Less(s[0], rest[j]) by {
        forall j | 0 <= j < |rest| ensures Less(s[0], rest[j]) {
          assert rest[j] in Elems(rest);
          if rest[j] != x {
            var k :| 0 <= k < |s| - 1 && s[1..][k] == rest[j];
            assert s[k + 1] == rest[j];
          }
        }
      }
      ElemsCons(s[0], rest);
      ElemsCons(s[0], s[1..]);
      [s[0]] + rest
  }

  /** `Array.from(new Set(xs)).sort()`: the distinct strings of `xs` in order. */
  function SortedDistinct(xs: seq<string>): (r: seq<string>)
    ensures StrictlySorted(r)
    ensures Elems(r) == Elems(xs)
  {
    if |xs| == 0 then []
    else
      assert xs == xs[..|xs| - 1] + [xs[|xs| - 1]];
      InsertUnique(xs[|xs| - 1], SortedDistinct(xs[..|xs| - 1]))
  }

  /** The first element of a strictly increasing list is below every other. */
  lemma FirstIsLeast(a: seq<string>, y: string)
    requires StrictlySorted(a) && |a| > 0
    ensures y in Elems(a) && y != a[0] ==> Less(a[0], y)
  {
    if y in Elems(a) && y != a[0] {
      var k :| 0 <= k < |a| && a[k] == y;
    }
  }

  /** A strictly increasing list is determined by its elements: there is only
      one sorted, duplicate-free listing of a set of strings. */
  lemma {:induction false} StrictlySortedUnique(a: seq<string>, b: seq<string>)
    requires StrictlySorted(a) && StrictlySorted(b)
    requires Elems(a) == Elems(b)
    ensures a == b
    decreases |a|
  {
    assert |a| > 0 ==> a[0] in Elems(a);
    assert |b| > 0 ==> b[0] in Elems(b);
    if |a| > 0 && |b| > 0 {
      FirstIsLeast(a, b[0]);
      FirstIsLeast(b, a[0]);
      if Less(a[0], b[0]) {
        LessAsymmetric(a[0], b[0]);
      }
      assert a[0] == b[0];
      forall y | y in a[1..] ensures y in b[1..] {
        var k :| 0 <= k < |a| - 1 && a[1..][k] == y;
        assert Less(a[0], y);
        LessIrreflexive(y);
        assert y in Elems(b);
        var m :| 0 <= m < |b| && b[m] == y;
        assert b[1..][m - 1] == y;
      }
      forall y | y in b[1..] ensures y in a[1..] {
        var k :| 0 <= k < |b| - 1 && b[1..][k] == y;
        assert Less(b[0], y);
        LessIrreflexive(y);
        assert y in Elems(a);
        var m :| 0 <= m < |a| && a[m] == y;
        assert a[1..][m - 1] == y;
      }
      assert Elems(a[1..]) == Elems(b[1..]);
      StrictlySortedUnique(a[1..], b[1..]);
      assert a == [a[0]] + a[1..] && b == [b[0]] + b[1..];
    }
  }
}

=== FILE: text.dfy ===
/** String primitives the application relies on, written out because their
    exact behaviour decides edge cases: JavaScript `String.prototype.trim`,
    Python `str.strip`, ASCII case mapping, first-occurrence search
    (`indexOf`, `re.search` anchors) and decimal rendering of numbers. */
module Text {
  import opened Wrappers

  // ---------------------------------------------------------------------------
  // Whitespace classes

  /** Characters removed by JavaScript `trim()`: WhiteSpace and LineTerminator
      (ECMA-262 sections 12.2 and 12.3). */
  predicate IsJsSpace(c: char) {
    c == '\t' || c == '\n' || c == '\U{000B}' || c == '\U{000C}' || c == '\r' || c == ' '
    || c == '\U{00A0}' || c == '\U{1680}' || ('\U{2000}' <= c <= '\U{200A}')
    || c == '\U{2028}' || c == '\U{2029}' || c == '\U{202F}' || c == '\U{205F}'
    || c == '\U{3000}' || c == '\U{FEFF}'
  }

  /** Characters removed by Python `str.strip()` and matched by `\s` in a
      Python `str` pattern (the characters for which `str.isspace` holds). */
  predicate IsPySpace(c: char) {
    ('\t' <= c <= '\r') || ('\U{001C}' <= c <= '\U{001F}') || c == ' '
    || c == '\U{0085}' || c == '\U{00A0}' || c == '\U{1680}' || ('\U{2000}' <= c <= '\U{200A}')
    || c == '\U{2028}' || c == '\U{2029}' || c == '\U{202F}' || c == '\U{205F}' || c == '\U{3000}'
  }

  /** Line terminators: the characters a JavaScript regular-expression `.` does not match. */
  predicate IsLineTerminator(c: char) {
    c == '\n' || c == '\r' || c == '\U{2028}' || c == '\U{2029}'
  }

  // ---------------------------------------------------------------------------
  // Substrings

  /** `sub` occurs in `s` at position `i`. */
  predicate OccursAt(s: string, sub: string, i: int) {
    0 <= i && i + |sub| <= |s| && s[i..i + |sub|] == sub
  }

  /** `sub` occurs somewhere in `s` (`s.includes(sub)`, Python `sub in s`). */
  predicate Contains(s: string, sub: string) {
    exists i | 0 <= i <= |s| - |sub| :: OccursAt(s, sub, i)
  }

  /** First position at or after `from` where `sub` occurs. */
  function IndexOfFrom(s: string, sub: string, from: nat): (r: Option<nat>)
    ensures r.Some? ==> from <= r.value && OccursAt(s, sub, r.value)
    ensures r.Some? ==> forall k :: from <= k < r.value ==> !OccursAt(s, sub, k)
    ensures r.None? ==> forall k :: from <= k ==> !OccursAt(s, sub, k)
    decreases |s| - from
  {
    if from + |sub| > |s| then None
    else if s[from..from + |sub|] == sub then Some(from)
    else IndexOfFrom(s, sub, from + 1)
  }

  /** JavaScript `s.indexOf(sub)`, with `None` for -1. */
  function IndexOf(s: string, sub: string): (r: Option<nat>)
    ensures r.Some? <==> Contains(s, sub)
    ensures r.Some? ==> OccursAt(s, sub, r.value) && forall k :: 0 <= k < r.value ==> !OccursAt(s, sub, k)
  {
    var r := IndexOfFrom(s, sub, 0);
    if r.Some? then
      assert OccursAt(s, sub, r.value);
      r
    else
      r
  }

  lemma ContainsWitness(s: string, sub: string, i: int)
    requires OccursAt(s, sub, i)
    ensures Contains(s, sub)
  {
  }

  /** A string without `sub` has it at no position. */
  lemma NotContainsNowhere(s: string, sub: string, i: int)
    requires !Contains(s, sub)
    ensures !OccursAt(s, sub, i)
  {
  }

  /** A piece of a string occurs in any string that contains that string. */
  lemma {:induction false} ContainsTransitive(s: string, mid: string, sub: string)
    requires Contains(s, mid) && Contains(mid, sub)
    ensures Contains(s, sub)
  {
    var i :| 0 <= i <= |s| - |mid| && OccursAt(s, mid, i);
    var j :| 0 <= j <= |mid| - |sub| && OccursAt(mid, sub, j);
    assert s[i..i + |mid|] == mid;
    forall k | 0 <= k < |sub| ensures s[i + j + k] == sub[k] {
      assert mid[j + k] == sub[k];
      assert s[i + (j + k)] == mid[j + k];
    }
    assert s[i + j..i + j + |sub|] == sub;
    ContainsWitness(s, sub, i + j);
  }

  lemma SliceContains(s: string, b: int, e: int)
    requires 0 <= b <= e <= |s|
    ensures Contains(s, s[b..e])
  {
    ContainsWitness(s, s[b..e], b);
  }

  // ---------------------------------------------------------------------------
  // Trimming

  /** Number of leading characters satisfying `sp`. */
  function LeadingCount(s: string, sp: char -> bool): (n: nat)
    ensures n <= |s|
    ensures forall k :: 0 <= k < n ==> sp(s[k])
    ensures n < |s| ==> !sp(s[n])
  {
    if |s| == 0 || !sp(s[0]) then 0 else 1 + LeadingCount(s[1..], sp)
  }

  /** Index at which the trailing run of characters satisfying `sp` starts. */
  function TrailingStart(s: string, sp: char -> bool): (n: nat)
    ensures n <= |s|
    ensures forall k :: n <= k < |s| ==> sp(s[k])
    ensures 0 < n ==> !sp(s[n - 1])
  {
    if |s| == 0 || !sp(s[|s| - 1]) then |s| else TrailingStart(s[..|s| - 1], sp)
  }

  /** `b` and `e` cut `s` into a prefix, a middle and a suffix, and every
      character of the prefix and the suffix satisfies `sp`. */
  predicate CutsSpaces(s: string, b: int, e: int, sp: char -> bool) {
    && 0 <= b <= e <= |s|
    && (forall k :: 0 <= k < b ==> sp(s[k]))
    && (forall k :: e <= k < |s| ==> sp(s[k]))
  }

  /** `s` without its leading and trailing characters satisfying `sp`. */
  function TrimWith(s: string, sp: char -> bool): (r: string)
    ensures Contains(s, r)
    ensures |r| > 0 ==> !sp(r[0]) && !sp(r[|r| - 1])
    ensures r == [] <==> forall k :: 0 <= k < |s| ==> sp(s[k])
  {
    var e := TrailingStart(s, sp);
    var b := LeadingCount(s[..e], sp);
    SliceContains(s, b, e);
    assert b < e ==> s[b] == s[..e][b];
    s[b..e]
  }

  /** The trim is what is left once an all-`sp` prefix and an all-`sp`
      suffix are cut away. */
  lemma TrimWithCuts(s: string, sp: char -> bool)
    ensures exists b, e :: CutsSpaces(s, b, e, sp) && TrimWith(s, sp) == s[b..e]
  {
    var e := TrailingStart(s, sp);
    var b := LeadingCount(s[..e], sp);
    forall k | 0 <= k < b ensures sp(s[k]) {
      assert s[k] == s[..e][k];
    }
    assert CutsSpaces(s, b, e, sp) && TrimWith(s, sp) == s[b..e];
  }

  /** The trim is the only middle part that an all-`sp` prefix and suffix
      leave and that neither starts nor ends with a character satisfying
      `sp`. */
  lemma TrimUnique(s: string, sp: char -> bool, b: int, e: int)
    requires CutsSpaces(s, b, e, sp)
    requires b < e ==> !sp(s[b]) && !sp(s[e - 1])
    ensures TrimWith(s, sp) == s[b..e]
  {
    if b < e {
      var n := TrailingStart(s, sp);
      assert !sp(s[e - 1]);
      assert n == e;
      var m := LeadingCount(s[..e], sp);
      assert s[..e][b] == s[b];
      assert forall k :: 0 <= k < b ==> s[..e][k] == s[k];
      assert m == b;
    }
  }

  /** A string that neither starts nor ends with a trimmed character is its own trim. */
  lemma TrimmedIsFixed(s: string, sp: char -> bool)
    requires |s| > 0 ==> !sp(s[0]) && !sp(s[|s| - 1])
    ensures TrimWith(s, sp) == s
  {
    assert TrailingStart(s, sp) == |s|;
    assert s[..|s|] == s;
  }

  /** JavaScript `s.trim()`. */
  function JsTrim(s: string): string {
    TrimWith(s, IsJsSpace)
  }

  /** `trim` drops exactly the leading and trailing JavaScript white space
      and line terminators. */
  lemma JsTrimTrims(s: string)
    ensures exists b, e :: CutsSpaces(s, b, e, IsJsSpace) && JsTrim(s) == s[b..e]
    ensures var r := JsTrim(s); |r| > 0 ==> !IsJsSpace(r[0]) && !IsJsSpace(r[|r| - 1])
    ensures JsTrim(s) == [] <==> forall k :: 0 <= k < |s| ==> IsJsSpace(s[k])
  {
    assert JsTrim(s) == TrimWith(s, IsJsSpace);
    TrimWithCuts(s, IsJsSpace);
  }

  /** Python `s.strip()`. */
  function PyStrip(s: string): string {
    TrimWith(s, IsPySpace)
  }

  /** `strip` drops exactly the leading and trailing Python white space. */
  lemma PyStripStrips(s: string)
    ensures exists b, e :: CutsSpaces(s, b, e, IsPySpace) && PyStrip(s) == s[b..e]
    ensures var r := PyStrip(s); |r| > 0 ==> !IsPySpace(r[0]) && !IsPySpace(r[|r| - 1])
    ensures PyStrip(s) == [] <==> forall k :: 0 <= k < |s| ==> IsPySpace(s[k])
  {
    assert PyStrip(s) == TrimWith(s, IsPySpace);
    TrimWithCuts(s, IsPySpace);
  }

  /** JavaScript `s.trim() === ''`. */
  predicate IsBlank(s: string) {
    JsTrim(s) == []
  }

  // ---------------------------------------------------------------------------
  // Joining

  /** The pieces one after the other, as a streamed answer is assembled. */
  function Concat(chunks: seq<string>): (r: string)
    ensures |chunks| == 0 ==> r == ""
  {
    if |chunks| == 0 then "" else chunks[0] + Concat(chunks[1..])
  }

  /** Joining in two parts gives the two parts' text one after the other. */
  lemma {:induction false} ConcatAppend(a: seq<string>, b: seq<string>)
    ensures Concat(a + b) == Concat(a) + Concat(b)
  {
    if |a| == 0 {
      assert a + b == b;
    } else {
      assert (a + b)[1..] == a[1..] + b;
      ConcatAppend(a[1..], b);
    }
  }

  // ---------------------------------------------------------------------------
  // Case mapping (ASCII letters only)

  function UpperChar(c: char): char {
    if 'a' <= c <= 'z' then (c as int - 'a' as int + 'A' as int) as char else c
  }

  function LowerChar(c: char): char {
    if 'A' <= c <= 'Z' then (c as int - 'A' as int + 'a' as int) as char else c
  }

  /** JavaScript `toUpperCase()` on ASCII letters. */
  function ToUpper(s: string): (r: string)
    ensures |r| == |s| && forall k :: 0 <= k < |s| ==> r[k] == UpperChar(s[k])
  {
    seq(|s|, k requires 0 <= k < |s| => UpperChar(s[k]))
  }

  /** Python `lower()` on ASCII letters. */
  function ToLower(s: string): (r: string)
    ensures |r| == |s| && forall k :: 0 <= k < |s| ==> r[k] == LowerChar(s[k])
  {
    seq(|s|, k requires 0 <= k < |s| => LowerChar(s[k]))
  }

  /** Upper-casing keeps every occurrence: an upper-case word found in a
      string is still found after the string is upper-cased. */
  lemma UpperKeepsOccurrence(s: string, sub: string)
    requires Contains(s, sub)
    requires ToUpper(sub) == sub
    ensures Contains(ToUpper(s), sub)
  {
    var i :| 0 <= i <= |s| - |sub| && OccursAt(s, sub, i);
    var u := ToUpper(s);
    forall k | 0 <= k < |sub| ensures u[i + k] == sub[k] {
      assert s[i + k] == sub[k];
      assert ToUpper(sub)[k] == UpperChar(sub[k]);
    }
    assert u[i..i + |sub|] == sub;
    ContainsWitness(u, sub, i);
  }

  // ---------------------------------------------------------------------------
  // Decimal rendering

  function DigitChar(d: nat): char
    requires d < 10
  {
    ('0' as int + d) as char
  }

  /** `String(n)` for a non-negative integer: decimal digits, no leading zero. */
  function NatToString(n: nat): (r: string)
    ensures |r| >= 1
    ensures forall k :: 0 <= k < |r| ==> '0' <= r[k] <= '9'
    ensures |r| > 1 ==> r[0] != '0'
    decreases n
  {
    if n < 10 then [DigitChar(n)] else NatToString(n / 10) + [DigitChar(n % 10)]
  }

  /** The value denoted by a string of decimal digits. */
  function DigitsValue(s: string): nat
    requires forall k :: 0 <= k < |s| ==> '0' <= s[k] <= '9'
  {
    if |s| == 0 then 0 else 10 * DigitsValue(s[..|s| - 1]) + (s[|s| - 1] as int - '0' as int)
  }

  /** Rendering a number in decimal and reading it back gives the number. */
  lemma {:induction false} NatToStringRoundTrip(n: nat)
    ensures DigitsValue(NatToString(n)) == n
  {
    if n >= 10 {
      var r := NatToString(n);
      assert r[..|r| - 1] == NatToString(n / 10);
      NatToStringRoundTrip(n / 10);
    }
  }

  /** Decimal rendering is injective. */
  lemma NatToStringInjective(m: nat, n: nat)
    requires NatToString(m) == NatToString(n)
    ensures m == n
  {
    NatToStringRoundTrip(m);
    NatToStringRoundTrip(n);
  }
}

=== FILE: user_settings.dfy ===
/** The user settings endpoints of the API (`backend/src/api/user.py`): GET
    shows the stored settings over the built-in defaults, PUT merges an
    update into what is stored, key by key. Both also report whether a
    background memory scan is running for the user. */
module UserSettings {
  import opened Wrappers
  import opened Json

  type Settings = map<string, Value>

  /** The defaults GET shows under any stored keys. */
  const Defaults: Settings := map["ai_enabled" := JBool(true), "ai_frequency" := JStr("medium")]

  /** A user row as far as these endpoints read it: the settings column,
      `None` when it holds nothing, and the scanning flag. */
  datatype User = User(settings: Option<Settings>, isScanning: bool)

  /** What both endpoints answer. */
  datatype SettingsResponse = SettingsResponse(settings: Settings, isScanning: bool)

  /** The stored settings, an empty map when there are none (`settings or {}`). */
  function StoredOrEmpty(u: User): Settings {
    match u.settings
    case None => map[]
    case Some(s) => s
  }

  /** `{**defaults, **stored}`: later keys win. */
  function Merge(base: Settings, over: Settings): (r: Settings)
    ensures r.Keys == base.Keys + over.Keys
    ensures forall k :: k in over ==> r[k] == over[k]
    ensures forall k :: k in base && k !in over ==> r[k] == base[k]
  {
    base + over
  }

  /** `GET /user/settings`. */
  function GetSettings(u: User): (r: SettingsResponse)
    ensures r.isScanning == u.isScanning
    ensures r.settings.Keys == Defaults.Keys + StoredOrEmpty(u).Keys
    ensures forall k :: k in StoredOrEmpty(u) ==> r.settings[k] == StoredOrEmpty(u)[k]
    ensures forall k :: k in Defaults && k !in StoredOrEmpty(u) ==> r.settings[k] == Defaults[k]
  {
    SettingsResponse(Merge(Defaults, StoredOrEmpty(u)), u.isScanning)
  }

  /** `PUT /user/settings`: the user row after the update, and the answer. */
  function PutSettings(u: User, update: Settings): (r: (User, SettingsResponse))
    ensures r.0.isScanning == u.isScanning && r.1.isScanning == u.isScanning
    ensures r.0.settings == Some(r.1.settings)
    ensures r.1.settings.Keys == StoredOrEmpty(u).Keys + update.Keys
    ensures forall k :: k in update ==> r.1.settings[k] == update[k]
    ensures forall k :: k in StoredOrEmpty(u) && k !in update ==> r.1.settings[k] == StoredOrEmpty(u)[k]
  {
    var merged := Merge(StoredOrEmpty(u), update);
    (u.(settings := Some(merged)), SettingsResponse(merged, u.isScanning))
  }

  /** Sending the same update twice leaves the same settings as sending it
      once. */
  lemma PutIdempotent(u: User, update: Settings)
    ensures var once := PutSettings(u, update);
            PutSettings(once.0, update) == once
  {
    var once := PutSettings(u, update);
    var twice := PutSettings(once.0, update);
    assert twice.1.settings == once.1.settings;
  }

  /** Two updates in a row are one update with the later values winning. */
  lemma PutTwice(u: User, a: Settings, b: Settings)
    ensures PutSettings(PutSettings(u, a).0, b).1.settings == PutSettings(u, Merge(a, b)).1.settings
  {
    var lhs := PutSettings(PutSettings(u, a).0, b).1.settings;
    var rhs := PutSettings(u, Merge(a, b)).1.settings;
    assert lhs.Keys == rhs.Keys;
    forall k | k in lhs ensures lhs[k] == rhs[k] {
    }
  }

  /** What GET shows after a PUT: the update's values, then what was stored
      before, then the defaults. */
  lemma GetAfterPut(u: User, update: Settings, k: string)
    requires k in Defaults || k in StoredOrEmpty(u) || k in update
    ensures var shown := GetSettings(PutSettings(u, update).0).settings;
            k in shown
            && shown[k] == if k in update then update[k]
                           else if k in StoredOrEmpty(u) then StoredOrEmpty(u)[k]
                           else Defaults[k]
  {
  }

  /** A user with nothing stored sees the defaults: AI on, medium frequency. */
  lemma FreshUserSeesDefaults(isScanning: bool)
    ensures GetSettings(User(None, isScanning)) == SettingsResponse(Defaults, isScanning)
    ensures GetSettings(User(Some(map[]), isScanning)).settings["ai_enabled"] == JBool(true)
  {
    assert Merge(Defaults, map[]) == Defaults;
  }
}

=== FILE: week_layout.dfy ===
/** The week view's layout of the timed events of one day
    (`components/Calendar.tsx`): the sorted nodes are grouped into clusters
    of transitively overlapping events, each cluster gives every node the
    lowest column free at its start, and the title of a node is pushed down
    past the nodes of higher columns that cover its top. */
module WeekLayout {
  import opened Seqs
  import opened Calendar

  // ---------------------------------------------------------------------------
  // Clusters

  /** The running `clusterEnd` of a non-empty run of nodes: its largest end. */
  function MaxEnd(c: seq<Node>): (m: int)
    requires |c| > 0
    ensures forall i :: 0 <= i < |c| ==> c[i].end <= m
    ensures exists i :: 0 <= i < |c| && c[i].end == m
  {
    if |c| == 1 then c[0].end
    else
      var p := MaxEnd(c[..|c| - 1]);
      assert forall i :: 0 <= i < |c| - 1 ==> c[..|c| - 1][i] == c[i];
      if p < c[|c| - 1].end then c[|c| - 1].end else p
  }

  function Flatten(cs: seq<seq<Node>>): seq<Node> {
    if |cs| == 0 then [] else cs[0] + Flatten(cs[1..])
  }

  /** Cluster `ci` starts at or after the end of the cluster before it:
      the node that opened it did not start before `clusterEnd`. */
  predicate GapBefore(cs: seq<seq<Node>>, ci: nat)
    requires 0 < ci < |cs| && |cs[ci - 1]| > 0 && |cs[ci]| > 0
  {
    MaxEnd(cs[ci - 1]) <= cs[ci][0].start
  }

  lemma FlattenCons(c: seq<Node>, rest: seq<seq<Node>>)
    ensures Flatten([c] + rest) == c + Flatten(rest)
  {
    assert ([c] + rest)[1..] == rest;
  }

  /** Joining `n` to a cluster raises its end to `Math.max(clusterEnd, n.end)`. */
  lemma JoinEnd(cur: seq<Node>, n: Node)
    requires |cur| > 0
    ensures MaxEnd(cur + [n]) == if MaxEnd(cur) < n.end then n.end else MaxEnd(cur)
  {
    assert (cur + [n])[..|cur|] == cur;
  }

  /** Closing cluster `cur` before clusters `rest` that start at or after
      its end keeps every gap. */
  lemma SplitGaps(cur: seq<Node>, rest: seq<seq<Node>>)
    requires |cur| > 0
    requires forall ci :: 0 <= ci < |rest| ==> |rest[ci]| > 0
    requires forall ci :: 0 < ci < |rest| ==> GapBefore(rest, ci)
    requires |rest| > 0 ==> MaxEnd(cur) <= rest[0][0].start
    ensures forall ci :: 0 < ci < |[cur] + rest| ==> |([cur] + rest)[ci]| > 0 && GapBefore([cur] + rest, ci)
  {
    var r := [cur] + rest;
    forall ci | 0 < ci < |r| ensures |r[ci]| > 0 && GapBefore(r, ci) {
      assert r[ci] == rest[ci - 1];
      if ci > 1 {
        assert r[ci - 1] == rest[ci - 2];
        assert GapBefore(rest, ci - 1);
      }
    }
  }

  /** The `forEach` over the nodes, with `cur` the `currentCluster` and
      `curEnd` the `clusterEnd` so far. */
  function ClusterFrom(nodes: seq<Node>, cur: seq<Node>, curEnd: int): (r: seq<seq<Node>>)
    requires |cur| > 0 ==> curEnd == MaxEnd(cur)
    ensures Flatten(r) == cur + nodes
    ensures forall ci :: 0 <= ci < |r| ==> |r[ci]| > 0
    ensures forall ci :: 0 < ci < |r| ==> GapBefore(r, ci)
    ensures |cur| > 0 ==> |r| > 0 && cur <= r[0]
    decreases |nodes|
  {
    if |nodes| == 0 then
      if |cur| == 0 then [] else FlattenCons(cur, []); [cur]
    else
      var n := nodes[0];
      assert [n] + nodes[1..] == nodes;
      if |cur| == 0 then
        ClusterFrom(nodes[1..], [n], n.end)
      else if n.start < curEnd then
        JoinEnd(cur, n);
        assert (cur + [n]) + nodes[1..] == cur + nodes;
        var r := ClusterFrom(nodes[1..], cur + [n], if curEnd < n.end then n.end else curEnd);
        assert cur <= cur + [n];
        r
      else
        var rest := ClusterFrom(nodes[1..], [n], n.end);
        FlattenCons(cur, rest);
        var r := [cur] + rest;
        SplitGaps(cur, rest);
        r
  }

  /** The clusters of a day's sorted nodes (`clusters`). */
  function Clusters(nodes: seq<Node>): (r: seq<seq<Node>>)
    ensures Flatten(r) == nodes
    ensures forall ci :: 0 <= ci < |r| ==> |r[ci]| > 0
    ensures forall ci :: 0 < ci < |r| ==> GapBefore(r, ci)
  {
    ClusterFrom(nodes, [], 0)
  }

  /** Every node after the first of a cluster starts before some node ahead
      of it ends, that is before the running `clusterEnd`: the test that let
      it join. */
  predicate Joined(c: seq<Node>) {
    forall j :: 0 < j < |c| ==> StartsInside(c, j)
  }

  /** Node `j` starts before some earlier node of `c` ends. */
  predicate StartsInside(c: seq<Node>, j: nat)
    requires j < |c|
  {
    exists i :: 0 <= i < j && c[j].start < c[i].end
  }

  lemma {:induction false} ClusterFromJoined(nodes: seq<Node>, cur: seq<Node>, curEnd: int, ci: nat)
    requires |cur| > 0 ==> curEnd == MaxEnd(cur)
    requires Joined(cur)
    requires ci < |ClusterFrom(nodes, cur, curEnd)|
    ensures Joined(ClusterFrom(nodes, cur, curEnd)[ci])
    decreases |nodes|
  {
    var r := ClusterFrom(nodes, cur, curEnd);
    if |nodes| == 0 {
      assert r == [cur];
    } else {
      var n := nodes[0];
      if |cur| == 0 {
        assert r == ClusterFrom(nodes[1..], [n], n.end);
        ClusterFromJoined(nodes[1..], [n], n.end, ci);
      } else if n.start < curEnd {
        JoinEnd(cur, n);
        var next := cur + [n];
        var i :| 0 <= i < |cur| && cur[i].end == curEnd;
        forall j | 0 < j < |next| ensures StartsInside(next, j) {
          if j < |cur| {
            assert StartsInside(cur, j);
            var k :| 0 <= k < j && cur[j].start < cur[k].end;
            assert next[j] == cur[j] && next[k] == cur[k];
          } else {
            assert next[j] == n && next[i] == cur[i];
          }
        }
        assert r == ClusterFrom(nodes[1..], next, if curEnd < n.end then n.end else curEnd);
        ClusterFromJoined(nodes[1..], next, if curEnd < n.end then n.end else curEnd, ci);
      } else {
        var rest := ClusterFrom(nodes[1..], [n], n.end);
        assert r == [cur] + rest;
        if ci > 0 {
          assert r[ci] == rest[ci - 1];
          ClusterFromJoined(nodes[1..], [n], n.end, ci - 1);
        }
      }
    }
  }

  /** Each cluster is held together: every node but the first joined it
      because it started before the cluster's end so far. */
  lemma ClustersJoined(nodes: seq<Node>, ci: nat)
    requires ci < |Clusters(nodes)|
    ensures Joined(Clusters(nodes)[ci])
  {
    assert Clusters(nodes) == ClusterFrom(nodes, [], 0);
    ClusterFromJoined(nodes, [], 0, ci);
  }

  predicate StartsSorted(s: seq<Node>) {
    forall i, j :: 0 <= i < j < |s| ==> s[i].start <= s[j].start
  }

  lemma {:induction false} InFlatten(cs: seq<seq<Node>>, ci: nat, x: Node)
    requires ci < |cs| && x in cs[ci]
    ensures x in Flatten(cs)
  {
    if ci > 0 {
      InFlatten(cs[1..], ci - 1, x);
    }
  }

  /** For nodes sorted by start, a node of an earlier cluster ends no later
      than any node of a later cluster starts. */
  lemma {:induction false} ClusterFromSeparates(nodes: seq<Node>, cur: seq<Node>, curEnd: int,
                                                ci: nat, cj: nat, a: Node, b: Node)
    requires |cur| > 0 ==> curEnd == MaxEnd(cur)
    requires StartsSorted(cur + nodes)
    requires var r := ClusterFrom(nodes, cur, curEnd); ci < cj < |r| && a in r[ci] && b in r[cj]
    ensures a.end <= b.start
    decreases |nodes|
  {
    var r := ClusterFrom(nodes, cur, curEnd);
    var n := nodes[0];
    if |cur| == 0 {
      SortedRegroup(cur, nodes, [n]);
      ClusterFromSeparates(nodes[1..], [n], n.end, ci, cj, a, b);
    } else if n.start < curEnd {
      var next := cur + [n];
      JoinEnd(cur, n);
      SortedRegroup(cur, nodes, next);
      ClusterFromSeparates(nodes[1..], next, if curEnd < n.end then n.end else curEnd, ci, cj, a, b);
    } else {
      var rest := ClusterFrom(nodes[1..], [n], n.end);
      assert r == [cur] + rest;
      if ci == 0 {
        assert r[0] == cur && r[cj] == rest[cj - 1];
        InFlatten(rest, cj - 1, b);
        assert b in [n] + nodes[1..] && nodes == [n] + nodes[1..];
        ClosedClusterBefore(cur, nodes, a, b);
      } else {
        assert nodes == [n] + nodes[1..];
        SortedSuffix(cur, [n] + nodes[1..]);
        ClusterFromSeparates(nodes[1..], [n], n.end, ci - 1, cj - 1, a, b);
      }
    }
  }

  /** Moving the first pending node into the open cluster keeps the whole
      sequence, and so its order. */
  lemma SortedRegroup(cur: seq<Node>, nodes: seq<Node>, next: seq<Node>)
    requires |nodes| > 0 && StartsSorted(cur + nodes)
    requires next == cur + [nodes[0]] || (|cur| == 0 && next == [nodes[0]])
    ensures StartsSorted(next + nodes[1..])
  {
    assert next + nodes[1..] == cur + nodes;
  }

  /** A suffix of a sequence sorted by start is sorted by start. */
  lemma SortedSuffix(pre: seq<Node>, post: seq<Node>)
    requires StartsSorted(pre + post)
    ensures StartsSorted(post)
  {
    forall i, j | 0 <= i < j < |post| ensures post[i].start <= post[j].start {
      assert post[i] == (pre + post)[|pre| + i] && post[j] == (pre + post)[|pre| + j];
    }
  }

  /** A cluster closed because the next node started at or after its end
      ends no later than any later node starts. */
  lemma ClosedClusterBefore(cur: seq<Node>, nodes: seq<Node>, a: Node, b: Node)
    requires |cur| > 0 && |nodes| > 0 && StartsSorted(cur + nodes)
    requires nodes[0].start >= MaxEnd(cur)
    requires a in cur && b in nodes
    ensures a.end <= b.start
  {
    var all := cur + nodes;
    var k :| 0 <= k < |nodes| && nodes[k] == b;
    assert all[|cur|] == nodes[0] && all[|cur| + k] == b;
  }

  lemma SortedStarts(nodes: seq<Node>)
    requires SortedBy(nodes, NodeKey)
    ensures StartsSorted(nodes)
  {
    forall i, j | 0 <= i < j < |nodes| ensures nodes[i].start <= nodes[j].start {
      assert KeyLe(NodeKey(nodes[i]), NodeKey(nodes[j]));
    }
  }

  /** A day's clusters never overlap in time: a node of an earlier cluster
      ends no later than a node of a later cluster starts. */
  lemma ClustersSeparate(nodes: seq<Node>, ci: nat, cj: nat, a: Node, b: Node)
    requires SortedBy(nodes, NodeKey)
    requires var r := Clusters(nodes); ci < cj < |r| && a in r[ci] && b in r[cj]
    ensures a.end <= b.start
  {
    assert [] + nodes == nodes;
    SortedStarts(nodes);
    assert Clusters(nodes) == ClusterFrom(nodes, [], 0);
    ClusterFromSeparates(nodes, [], 0, ci, cj, a, b);
  }

  // ---------------------------------------------------------------------------
  // Columns within a cluster

  /** The first column at `c` or later whose last end is at or before
      `start`, or `|columns|` when there is none. */
  function FreeColumn(columns: seq<int>, start: int, c: nat): (r: nat)
    requires c <= |columns|
    ensures c <= r <= |columns|
    ensures r < |columns| ==> columns[r] <= start
    ensures forall k :: c <= k < r ==> start < columns[k]
    decreases |columns| - c
  {
    if c == |columns| then c
    else if columns[c] <= start then c
    else FreeColumn(columns, start, c + 1)
  }

  /** Placing one node: its column, the lowest one free at its start (a new
      one when all are busy), and the columns' ends afterwards. */
  function Place(columns: seq<int>, n: Node): (r: (nat, seq<int>))
    ensures r.0 <= |columns|
    ensures forall k :: 0 <= k < r.0 ==> n.start < columns[k]
    ensures r.0 < |columns| ==> columns[r.0] <= n.start
    ensures |r.1| == if r.0 < |columns| then |columns| else |columns| + 1
    ensures r.1[r.0] == n.end
    ensures forall k :: 0 <= k < |columns| && k != r.0 ==> r.1[k] == columns[k]
  {
    var c := FreeColumn(columns, n.start, 0);
    if c < |columns| then (c, columns[c := n.end]) else (c, columns + [n.end])
  }

  /** The `cluster.map` placing every node in turn: the columns of the nodes
      and the columns' final ends. */
  function Assign(nodes: seq<Node>, columns: seq<int>): (r: (seq<nat>, seq<int>))
    ensures |r.0| == |nodes|
    ensures |columns| <= |r.1|
    ensures forall i :: 0 <= i < |nodes| ==> r.0[i] < |r.1|
    decreases |nodes|
  {
    if |nodes| == 0 then ([], columns)
    else
      var p := Place(columns, nodes[0]);
      var rest := Assign(nodes[1..], p.1);
      ([p.0] + rest.0, rest.1)
  }

  predicate WellFormed(nodes: seq<Node>) {
    forall i :: 0 <= i < |nodes| ==> nodes[i].start <= nodes[i].end
  }

  /** A node placed in one of the columns that existed beforehand starts no
      earlier than that column's end beforehand. */
  lemma {:induction false} AssignAfterColumnEnd(nodes: seq<Node>, columns: seq<int>)
    requires WellFormed(nodes)
    ensures var r := Assign(nodes, columns);
            forall j :: 0 <= j < |nodes| && r.0[j] < |columns| ==> columns[r.0[j]] <= nodes[j].start
    decreases |nodes|
  {
    if |nodes| > 0 {
      var r := Assign(nodes, columns);
      var p := Place(columns, nodes[0]);
      var rest := Assign(nodes[1..], p.1);
      assert forall i :: 0 <= i < |nodes| - 1 ==> nodes[1..][i] == nodes[i + 1];
      AssignAfterColumnEnd(nodes[1..], p.1);
      forall j | 0 < j < |nodes| && r.0[j] < |columns| ensures columns[r.0[j]] <= nodes[j].start {
        var k := r.0[j];
        assert k == rest.0[j - 1];
        assert p.1[k] <= nodes[j].start;
        if k == p.0 {
          assert columns[k] <= nodes[0].start <= nodes[0].end == p.1[k];
        }
      }
    }
  }

  /** Two nodes of a cluster sharing a column do not overlap: the earlier
      ends no later than the later starts. */
  lemma {:induction false} SameColumnSeparated(nodes: seq<Node>, columns: seq<int>)
    requires WellFormed(nodes)
    ensures var r := Assign(nodes, columns);
            forall i, j :: 0 <= i < j < |nodes| && r.0[i] == r.0[j] ==> nodes[i].end <= nodes[j].start
    decreases |nodes|
  {
    if |nodes| > 0 {
      var r := Assign(nodes, columns);
      var p := Place(columns, nodes[0]);
      var rest := Assign(nodes[1..], p.1);
      assert forall i :: 0 <= i < |nodes| - 1 ==> nodes[1..][i] == nodes[i + 1];
      SameColumnSeparated(nodes[1..], p.1);
      AssignAfterColumnEnd(nodes[1..], p.1);
      forall i, j | 0 <= i < j < |nodes| && r.0[i] == r.0[j] ensures nodes[i].end <= nodes[j].start {
        if i == 0 {
          assert rest.0[j - 1] == p.0 < |p.1|;
          assert p.1[p.0] <= nodes[j].start;
        } else {
          assert rest.0[i - 1] == rest.0[j - 1];
        }
      }
    }
  }

  /** A node with its column. */
  datatype Placed = Placed(node: Node, col: nat)

  /** The columns of one cluster (`clusterWithPos`) and their number
      (`numCols`). */
  function LayoutCluster(cluster: seq<Node>): (r: (seq<Placed>, nat))
    ensures |r.0| == |cluster|
    ensures forall i :: 0 <= i < |cluster| ==> r.0[i].node == cluster[i] && r.0[i].col < r.1
    ensures |cluster| > 0 ==> r.0[0].col == 0
    ensures WellFormed(cluster) ==>
              forall i, j :: 0 <= i < j < |cluster| && r.0[i].col == r.0[j].col ==> cluster[i].end <= cluster[j].start
  {
    var a := Assign(cluster, []);
    var r := (seq(|cluster|, i requires 0 <= i < |cluster| => Placed(cluster[i], a.0[i])), |a.1|);
    if WellFormed(cluster) then SameColumnSeparated(cluster, []); r else r
  }

  /** Every cluster laid out. */
  function LayoutDay(nodes: seq<Node>): (r: seq<seq<Placed>>)
    ensures var cs := Clusters(nodes);
            && |r| == |cs|
            && forall ci :: 0 <= ci < |r| ==> r[ci] == LayoutCluster(cs[ci]).0
  {
    var cs := Clusters(nodes);
    seq(|cs|, ci requires 0 <= ci < |cs| => LayoutCluster(cs[ci]).0)
  }

  /** In one day of the week view, two events drawn in the same column never
      overlap, whether they fall in the same cluster or in different ones. */
  lemma SameColumnNeverOverlaps(events: seq<Event>, dayStart: int, ci: nat, i: nat, cj: nat, j: nat)
    requires forall e :: e in events ==> e.start <= e.end
    requires var r := LayoutDay(DayNodes(events, dayStart));
             && ci < |r| && cj < |r| && i < |r[ci]| && j < |r[cj]|
             && (ci < cj || (ci == cj && i < j))
             && r[ci][i].col == r[cj][j].col
    ensures var r := LayoutDay(DayNodes(events, dayStart));
            r[ci][i].node.end <= r[cj][j].node.start
  {
    var nodes := DayNodes(events, dayStart);
    var cs := Clusters(nodes);
    var r: seq<seq<Placed>> := LayoutDay(nodes);
    var a, b := r[ci][i].node, r[cj][j].node;
    assert a == cs[ci][i] && b == cs[cj][j];
    if ci < cj {
      ClustersSeparate(nodes, ci, cj, a, b);
    } else {
      forall k | 0 <= k < |cs[ci]| ensures cs[ci][k].start <= cs[ci][k].end {
        InFlatten(cs, ci, cs[ci][k]);
        DayNodesWellFormed(events, dayStart, cs[ci][k]);
      }
    }
  }

  // ---------------------------------------------------------------------------
  // Where the title of a node goes

  /** `q` is drawn over `p`: a higher column, overlapping in time. */
  predicate Obscures(q: Placed, p: Placed) {
    q.col > p.col && q.node.start < p.node.end && q.node.end > p.node.start
  }

  function StartKey(q: Placed): Key {
    (q.node.start, 0)
  }

  /** `obscuringEvents`: the cluster's nodes drawn over `p`, by start. */
  function Obscuring(cluster: seq<Placed>, p: Placed): (r: seq<Node>)
    ensures StartsSorted(r)
  {
    var f := Filter(cluster, (q: Placed) => Obscures(q, p));
    var sorted := SortBy(f, StartKey);
    seq(|sorted|, i requires 0 <= i < |sorted| => sorted[i].node)
  }

  /** Some node of `hs` covers instant `t`. */
  predicate Covered(hs: seq<Node>, t: int) {
    exists i :: 0 <= i < |hs| && hs[i].start <= t < hs[i].end
  }

  lemma CoveredCons(hs: seq<Node>)
    requires |hs| > 0
    ensures forall t :: Covered(hs, t) <==> (hs[0].start <= t < hs[0].end || Covered(hs[1..], t))
  {
    forall t ensures Covered(hs, t) <==> (hs[0].start <= t < hs[0].end || Covered(hs[1..], t)) {
      if Covered(hs[1..], t) {
        var i :| 0 <= i < |hs| - 1 && hs[1..][i].start <= t < hs[1..][i].end;
        assert hs[i + 1] == hs[1..][i];
      }
      if Covered(hs, t) && !(hs[0].start <= t < hs[0].end) {
        var i :| 0 <= i < |hs| && hs[i].start <= t < hs[i].end;
        assert hs[1..][i - 1] == hs[i];
      }
    }
  }

  /** One pass of the `for (const h of obscuringEvents)` loop from `t`: the
      position reached and whether it moved. */
  function Pass(hs: seq<Node>, t: int): (r: (int, bool))
    ensures t <= r.0
    ensures r.1 <==> r.0 != t
    ensures !r.1 ==> !Covered(hs, t)
    ensures forall x :: t <= x < r.0 ==> Covered(hs, x)
    ensures r.1 ==> exists i :: 0 <= i < |hs| && hs[i].end == r.0
    decreases |hs|
  {
    if |hs| == 0 then (t, false)
    else
      var h := hs[0];
      var t1 := if h.start <= t < h.end then h.end else t;
      var rest := Pass(hs[1..], t1);
      CoveredCons(hs);
      assert rest.1 ==> exists i :: 0 <= i < |hs| && hs[i].end == rest.0 by {
        if rest.1 {
          var i :| 0 <= i < |hs| - 1 && hs[1..][i].end == rest.0;
          assert hs[i + 1].end == rest.0;
        }
      }
      (rest.0, rest.1 || t1 != t)
  }

  /** How many nodes end after `t`: what each moving pass lowers. */
  function CountAbove(hs: seq<Node>, t: int): nat {
    if |hs| == 0 then 0 else (if hs[0].end > t then 1 else 0) + CountAbove(hs[1..], t)
  }

  lemma {:induction false} CountAboveMono(hs: seq<Node>, t: int, u: int)
    requires t <= u
    ensures CountAbove(hs, u) <= CountAbove(hs, t)
  {
    if |hs| > 0 {
      CountAboveMono(hs[1..], t, u);
    }
  }

  lemma {:induction false} CountAboveDrops(hs: seq<Node>, t: int, i: nat)
    requires i < |hs| && t < hs[i].end
    ensures CountAbove(hs, hs[i].end) < CountAbove(hs, t)
  {
    if i == 0 {
      CountAboveMono(hs[1..], t, hs[0].end);
    } else {
      assert hs[1..][i - 1] == hs[i];
      CountAboveDrops(hs[1..], t, i - 1);
    }
  }

  lemma PassDrops(hs: seq<Node>, t: int)
    requires Pass(hs, t).1
    ensures CountAbove(hs, Pass(hs, t).0) < CountAbove(hs, t)
  {
    var i :| 0 <= i < |hs| && hs[i].end == Pass(hs, t).0;
    CountAboveDrops(hs, t, i);
  }

  /** The `while (changed && textVisualStart < node.end)` loop from `t`. */
  function Search(hs: seq<Node>, t: int, end: int): (r: int)
    ensures t <= r
    ensures forall x :: t <= x < r ==> Covered(hs, x)
    ensures r < end ==> !Covered(hs, r)
    decreases CountAbove(hs, t)
  {
    if t >= end then t
    else
      var pass := Pass(hs, t);
      if !pass.1 then t
      else
        PassDrops(hs, t);
        Search(hs, pass.0, end)
  }

  /** Some node drawn over `p` covers instant `t`. */
  predicate CoveredAbove(cluster: seq<Placed>, p: Placed, t: int) {
    exists q :: q in cluster && Obscures(q, p) && q.node.start <= t < q.node.end
  }

  lemma ObscuringCovers(cluster: seq<Placed>, p: Placed)
    ensures forall t :: Covered(Obscuring(cluster, p), t) <==> CoveredAbove(cluster, p, t)
  {
    var f := Filter(cluster, (q: Placed) => Obscures(q, p));
    var sorted := SortBy(f, StartKey);
    var hs := Obscuring(cluster, p);
    forall t ensures Covered(hs, t) <==> CoveredAbove(cluster, p, t) {
      if Covered(hs, t) {
        var i :| 0 <= i < |hs| && hs[i].start <= t < hs[i].end;
        var q := sorted[i];
        assert q in multiset(sorted);
        assert q in f;
      }
      if CoveredAbove(cluster, p, t) {
        var q :| q in cluster && Obscures(q, p) && q.node.start <= t < q.node.end;
        assert q in f;
        assert q in multiset(f);
        assert q in sorted;
        var i :| 0 <= i < |sorted| && sorted[i] == q;
        assert hs[i] == q.node;
      }
    }
  }

  /** `textVisualStart` of `p`: the first instant from the node's start not
      covered by a node drawn over it, or a point at or past the node's end
      when the covering reaches it. It is never before the start, so the
      `Math.max(0, …)` around the padding never changes it. */
  function TextStart(cluster: seq<Placed>, p: Placed): (r: int)
    ensures p.node.start <= r
    ensures forall t :: p.node.start <= t < r ==> CoveredAbove(cluster, p, t)
    ensures r < p.node.end ==> !CoveredAbove(cluster, p, r)
  {
    ObscuringCovers(cluster, p);
    Search(Obscuring(cluster, p), p.node.start, p.node.end)
  }

  /** The title of a node no node is drawn over sits at the node's top. */
  lemma UncoveredTitleAtTop(cluster: seq<Placed>, p: Placed)
    requires forall q :: q in cluster ==> !Obscures(q, p)
    ensures TextStart(cluster, p) == p.node.start
  {
    assert !CoveredAbove(cluster, p, p.node.start);
  }
}

=== FILE: wrappers.dfy ===
/** Failure-compatible wrappers shared by every module of the model. */
module Wrappers {

  /** A value that may be absent: JavaScript `null`/`undefined`, Python `None`. */
  datatype Option<+T> = None | Some(value: T) {

    /** The wrapped value, or `default` when absent (JavaScript `??`, Python `dict.get(k, default)`). */
    function GetOr(default: T): T {
      match this
      case Some(v) => v
      case None => default
    }
  }

  /** Either a value or an error: an HTTP error response, a raised exception. */
  datatype Result<+R, +E> = Success(value: R) | Failure(error: E)
}
